=== FILE: README.md ===
# Idea Forge core in Dafny

Idea Forge turns an onboarding profile (interests, skills, constraints and
values) into SaaS business ideas. It can ask a Gemini model for them, or
fall back to a template-based generator. It then synthesises market
validation data for a chosen idea and keeps a list of saved ideas. That list
lives in the browser, and serverless functions store it in a hosted table.

This project models the pure logic of that core as immutable datatypes and
total functions. The modules are:

- **Keywords:** the validation-keyword derivation. The client context and the
  idea-generation function hold character-identical copies of it, so it is
  modelled once.
- **Gemini:** the handling of one model call, from the upstream reply to its
  generated text. It also extracts the JSON region with the greedy pattern
  `/\{[\s\S]*\}/`, i.e. from the first `{` to the last `}`.
- **Prompts:** the five prompt builders, written as concatenations of their
  fixed parts and their data lines.
- **GenerateIdeas:** the idea-generation function, covering its guards and
  the per-idea normalisation of the model's answer. The client context
  shares that normalisation.
- **ValidationInsights:** the validation-insights function: its guards, the
  dispatch on the insight type, and the pass-through of the parsed answer.
- **MockGenerator:** the client's fallback idea generator.
- **Trends:** the synthesised validation data. Every random draw is an
  explicit bounded parameter.
- **AppContext:** the client context:
  - generation with its fallback routing;
  - validation;
  - saving with de-duplication by id;
  - profile edits;
  - the option lists.
- **SaveIdeaHandler and SavedIdeasHandler:** the persistence functions. The
  store is a sequence of rows.
- **Sidebar:** the saved-ideas sidebar: its filters, newest-first order,
  removal and tab counts, and the sign-in gate that decides whether it
  renders at all.
- **Onboarding:** the onboarding wizard as a small state machine.
- **Results, Strings, Seqs and Domain:** shared helpers and records. Strings
  covers JavaScript string operations: ASCII lower-casing, `split`,
  `replace`, `includes` and `join`. Seqs covers array operations: `filter`,
  `slice` and stable `sort`.

Outside effects are parameters:

- `JSON.parse` is a partial function `string -> Option<T>`.
- The model call is a `Reply`: rejected, answered (possibly without text), or
  thrown.
- `Date.now()` is a clock `nat -> nat`, read once per idea.
- Each `Math.random()` draw is a value of a bounded subset type
  (`x: nat | x < 15` for `Math.floor(Math.random() * 15)`).
- Store errors are optional inputs.

## Model

| member | source | states |
|---|---|---|
| Keywords.ValidationKeywords | src/context/AppContext.js:57-78 | at most 5 keywords; exactly min(5, 3·stems + 2·tags) of them, the k-th being the k-th of the stem keywords followed by the tag keywords; the copy at netlify/functions/generate-ideas.js:159-180 is the same text, so this one definition serves both |
| Keywords.TitleStems | src/context/AppContext.js:60-62 | a word is a stem iff it is a piece of the lower-cased title split on spaces that is longer than 3 and not one of saas/tool/platform/app; every stem is lower-case and free of spaces |
| Keywords.TitleStemsConcat | src/context/AppContext.js:60-62 | the stems of `a + " " + b` are the stems of `a` followed by those of `b`, so no qualifying word is dropped and title order is kept |
| Keywords.TitleStemsOfWord | src/context/AppContext.js:60-62 | a single space-free word contributes exactly its lower-cased self when it qualifies and nothing otherwise |
| Keywords.StemKeywordsAt | src/context/AppContext.js:64-68 | keyword 3j+s is stem j followed by " software", " tool" or " platform" for s = 0, 1, 2 |
| Keywords.TagKeywordsAt | src/context/AppContext.js:70-75 | tag keyword 2j+s is lower-cased tag j followed by " software" or " automation" |
| Keywords.AllKeywordsAt | src/context/AppContext.js:64-77 | the untruncated list is the stem keywords then the tag keywords, position by position |
| Keywords.FirstKeyword | src/context/AppContext.js:64-66 | a title with a kept word yields "<first word> software" first |
| Keywords.KeywordsWithoutStems | src/context/AppContext.js:70-77 | a title with no kept word yields only the first five tag keywords |
| Gemini.GeneratedText | netlify/functions/generate-ideas.js:50-60 | succeeds exactly for an answered reply with non-empty text; a rejection reports "Gemini API Error: " with the upstream message, falling back to the status text; a missing text is "no content" and a thrown error keeps its message |
| Gemini.JsonRegion | netlify/functions/generate-ideas.js:63-66 | the region runs from the first `{` to the last `}`; there is none exactly when no `}` follows any `{` |
| Gemini.RegionIgnoresProse | src/context/AppContext.js:116 | brace-free prose around an object is cut off, and a bare object is its own region |
| Prompts.IdeaPromptEmbedsProfile | netlify/functions/generate-ideas.js:113-157 | the prompt asks for 6 ideas and holds each labelled profile line on its own line, lists joined by ", " and answers verbatim; the client builds the same text at src/context/AppContext.js:144-188 |
| Prompts.TagsTextCases | netlify/functions/generate-validation-insights.js:123 | the Tags line reads "N/A" exactly when the tags are absent or their join is empty (or is itself "N/A"), otherwise the tags joined by ", " |
| Prompts.AudiencePromptEmbedsIdea | netlify/functions/generate-validation-insights.js:116-196 | the prompt holds the idea's Title and Tags lines |
| Prompts.MonetizationPromptEmbedsIdea | netlify/functions/generate-validation-insights.js:198-268 | the prompt holds the Title, Complexity and Tags lines |
| Prompts.RoadmapPromptEmbedsIdea | netlify/functions/generate-validation-insights.js:270-350 | the prompt holds the Title, Time to Revenue and Tags lines |
| Prompts.CompetitorPromptEmbedsIdea | netlify/functions/generate-validation-insights.js:352-402 | the prompt holds the Title and Tags lines and the title at two non-overlapping places |
| GenerateIdeas.AiIdDeterminesIndex | netlify/functions/generate-ideas.js:71 | two ids `ai-<t>-<index>` are equal only when stamp and index both are |
| GenerateIdeas.IdeaKeywords | netlify/functions/generate-ideas.js:81 | the reply's keywords are kept when present (even empty), otherwise derived from the title; deriving throws exactly when the title is missing too |
| GenerateIdeas.NormaliseIdea | netlify/functions/generate-ideas.js:70-84 | copied fields, `timeToRevenue` falling back to `timeToMarket`, missing tags as [], the fixed reasoning sentence for a missing one, score and confidence 95, source "Gemini AI" |
| GenerateIdeas.NormaliseKeepsComplete | netlify/functions/generate-ideas.js:76-81 | an idea returned complete keeps its own tags, time to revenue, reasoning and keywords |
| GenerateIdeas.NormaliseIdeas | netlify/functions/generate-ideas.js:70-84 | one idea per element, in order, the k-th from element k with the k-th clock reading; fails exactly when some element's mapping throws |
| GenerateIdeas.NormalisedIdsDistinct | netlify/functions/generate-ideas.js:71 | ids within one batch are pairwise distinct whatever the clock reads |
| GenerateIdeas.NormalisedId | netlify/functions/generate-ideas.js:70-71 | the k-th normalised idea has id `ai-<k-th clock reading>-<k>` |
| GenerateIdeas.IdeasFromText | netlify/functions/generate-ideas.js:62-99 | succeeds exactly when the region exists, parses, has `ideas` and every idea normalises; every failure on the way carries the one parse-failure message |
| GenerateIdeas.IdeasFromReply | netlify/functions/generate-ideas.js:50-99 | ideas come back exactly for an answered reply with text that parses, all marked "Gemini AI"; a rejection fails with a "Gemini API Error: " message, a missing text with "no content", a thrown error with its own message, and a parse failure with the given failure text |
| GenerateIdeas.Handle | netlify/functions/generate-ideas.js:1-111 | 405 for non-POST, then 500 without key, then 500 for a malformed body, then 400 without profile; the prompt is sent exactly when all pass; 200 with the ideas exactly when the reply yields them, else 500 with the message |
| GenerateIdeas.UpstreamErrorsReported | netlify/functions/generate-ideas.js:50-60 | a rejected call or a reply without text becomes a 500 carrying that error's message |
| GenerateIdeas.MissingJsonReported | netlify/functions/generate-ideas.js:63-66 | a text in which no `}` follows a `{` becomes a 500 "Failed to parse AI response" |
| ValidationInsights.ParseType | netlify/functions/generate-validation-insights.js:29-41 | a type is recognised exactly when it is one of targetAudience, monetization, roadmap and competitorAnalysis, and the recognised type carries that very name |
| ValidationInsights.Dispatch | netlify/functions/generate-validation-insights.js:28-47 | a builder call is made exactly for the four known types, on the request's idea and for the named type; any other type takes the default branch |
| ValidationInsights.DispatchSelectsBuilder | netlify/functions/generate-validation-insights.js:29-41 | each type's name selects that type's own builder |
| ValidationInsights.InsightFromReply | netlify/functions/generate-validation-insights.js:69-102 | succeeds exactly with text, a region and a parse; the result is the parsed value itself |
| ValidationInsights.Handle | netlify/functions/generate-validation-insights.js:1-114 | 405, then 500 without key, then 500 for a malformed body, then 400 without idea or type, then 400 "Invalid insight type" with nothing sent; the builder call for the named type is made exactly when all guards pass; 200 with the parsed answer exactly when the reply yields one |
| ValidationInsights.ObjectPassedThrough | netlify/functions/generate-validation-insights.js:82-98 | a reply that is one object, nested objects and arrays included, is returned as the 200 body exactly as parsed |
| MockGenerator.MockIdeas | src/context/AppContext.js:236-292 | min(6, 2·interests) ideas, none without interests; throws exactly when there are interests but no skills |
| MockGenerator.MockIdea | src/context/AppContext.js:267-287 | match score and confidence lie in [85, 99]; source "Enhanced AI Mock" |
| MockGenerator.MockIdeaShape | src/context/AppContext.js:240-279 | idea i uses interest i mod n, skill i mod m (the first skill when that one is empty) and template i, whose market, complexity and time to revenue it carries, and has scores in [85, 99] |
| MockGenerator.SkillFor | src/context/AppContext.js:241 | the skill at i mod m, or the first one when that one is empty |
| MockGenerator.MockTags | src/context/AppContext.js:281 | tags are interest and skill, then exactly the first two profile values whose table entry lists the interest, in profile order |
| MockGenerator.MatchingValuesConcat | src/context/AppContext.js:256-265 | matching works piecewise along the value list, so the matches keep their profile order |
| MockGenerator.MatchingValuesIff | src/context/AppContext.js:256-265 | a value matches exactly when it is a profile value whose table entry lists the interest |
| MockGenerator.ReasoningNamesValues | src/context/AppContext.js:256-282 | an idea's reasoning holds "Aligns with your values: " exactly when some profile value matches its interest, and then names the first two matches; otherwise it ends "Leverages your unique skill combination." |
| MockGenerator.TargetTitlesFilled | src/context/AppContext.js:200-272 | for an interest without braces, the second and sixth titles read "AI-Powered <interest> Assistant for <audience>" and "No-Code <interest> Builder for <audience>", the audience falling back to the lower-cased interest plus " professionals" |
| MockGenerator.TargetFallback | src/context/AppContext.js:272 | an unlisted interest falls back to its lower-cased name plus " professionals" |
| MockGenerator.ComplexityRules | src/context/AppContext.js:196-231 | template 0 is "Low" iff some skill includes "Backend", and takes "3-4 months" iff Quick to Market is chosen; template 1 is "Medium" iff Machine Learning is a skill, else "High"; template 5 is "Low" iff No Technical Background is chosen |
| MockGenerator.LeadingStemKeywords | src/context/AppContext.js:60-68 | a title opening with a kept word yields that word's three keywords first |
| MockGenerator.WorkflowKeywordsKeepPlaceholder | src/context/AppContext.js:284 | the first template's keywords are "{interest} software/tool/platform", placeholder included |
| MockGenerator.DashboardKeywordsKeepPlaceholder | src/context/AppContext.js:284 | the third template's keywords start with "{skill} software/tool/platform" |
| MockGenerator.FirstMockIdeaKeywords | src/context/AppContext.js:284 | the first fallback idea of every batch carries the placeholder keywords |
| MockGenerator.WorkflowTitleFilled | src/context/AppContext.js:269-272 | with brace-free names, the first title reads "<interest> Workflow Automation for <skill> Teams" |
| Trends.MonthlyVolumes | src/context/AppContext.js:332-342 | twelve points, each at least 100 and at least the month's raw value, and equal to one of the two |
| Trends.KeywordEntry | src/context/AppContext.js:344-355 | twelve points of at least 100, rising iff the growth draw is set, current volume in [2000, 17000) |
| Trends.KeywordTrends | src/context/AppContext.js:327-356 | the entries are keyed by exactly the validation keywords |
| Trends.EntryFromLastOccurrence | src/context/AppContext.js:344 | a repeated keyword's entry comes from its last occurrence |
| Trends.KeywordEntryShape | src/context/AppContext.js:327-356 | every entry has 12 points of at least 100, the five query templates in order, and rises iff its growth draw is set |
| Trends.AnyRisingIff | src/context/AppContext.js:385 | some entry rises exactly when some keyword's last growth draw is set |
| Trends.Category | src/context/AppContext.js:367-368 | the first tag found in the six-entry table, else Productivity; always a table key |
| Trends.Competitors | src/context/AppContext.js:372-383 | direct, indirect and price are the category's base plus [0,4], [0,19] and [0,29]; the gaps are the first 3 or 4 of the 5 phrases |
| Trends.Demand | src/context/AppContext.js:384-392 | "increasing" iff some entry rises; demand score in [70,99], at least 75 above match score 90 and at most 94 otherwise |
| Trends.TrendsData | src/context/AppContext.js:323-394 | one entry per keyword, none without keywords, and the demand trend follows the growth draws |
| AppContext.OptionsReachRules | src/context/AppContext.js:34-55 | every profile rule of the fallback generator and every competitor category can be selected from the offered options |
| AppContext.FirstAttempt | src/context/AppContext.js:302-307 | ideas are all the model's when the key is set and not the placeholder, all the fallback generator's otherwise; with the model they come back exactly for an answered reply whose text parses, and without it they fail exactly when there are interests but no skills, otherwise numbering min(6, 2·interests) |
| AppContext.GeneratePersonalizedIdeas | src/context/AppContext.js:295-321 | the prompt is sent iff the key is usable; the error is empty iff the first attempt succeeds, else it is the error's message or the fixed fallback; on failure the catch block's fallback ideas are shown; the flag ends cleared |
| AppContext.GenerationAlwaysAdvances | src/context/AppContext.js:309-317 | with a skill (or no interest) generation always reaches 'ideas', showing either the first attempt's ideas or the fallback's |
| AppContext.ModelFailureFallsBack | src/context/AppContext.js:311-317 | a failed model call records its message and shows fallback ideas on the ideas step |
| AppContext.NoSkillLeavesIdeas | src/context/AppContext.js:311-315 | without skills both fallback runs throw; the error is recorded, ideas and step stay |
| AppContext.ValidateIdeaWithTrends | src/context/AppContext.js:396-414 | the idea is selected, its data has one entry per keyword, the step is 'validation', nothing else changes |
| AppContext.SaveIdea | src/context/AppContext.js:416-420 | an id already saved leaves the list unchanged; otherwise exactly one entry is appended after the unchanged list |
| AppContext.SaveIdempotent | src/context/AppContext.js:416-420 | saving twice equals saving once |
| AppContext.SaveKeepsIdsDistinct | src/context/AppContext.js:417 | saving keeps ids pairwise distinct |
| AppContext.SaveAllKeepsIdsDistinct | src/context/AppContext.js:416-420 | any series of saves from a distinct list keeps ids distinct |
| AppContext.SavingFromEmptyKeepsIdsDistinct | src/context/AppContext.js:25 | every list built by saving from the initial empty list has distinct ids |
| AppContext.ChangeProfile | src/context/AppContext.js:422-424 | the changed field reads the new value; every other field is unchanged |
| AppContext.ChangeToSameIsIdentity | src/context/AppContext.js:422-424 | writing back a field's own value is the identity |
| AppContext.LastChangeWins | src/context/AppContext.js:422-424 | two changes of one field equal the second alone |
| AppContext.HandleProfileChange | src/context/AppContext.js:422-424 | only the profile changes in the context state |
| SaveIdeaHandler.ToRow | netlify/functions/save-idea.js:35-49 | user id, idea id, the ten stored fields and the save time land in their columns |
| SaveIdeaHandler.RowForgetsUnstoredFields | netlify/functions/save-idea.js:35-49 | the differentiator and the validation keywords do not reach the row |
| SaveIdeaHandler.RowDeterminesStoredFields | netlify/functions/save-idea.js:35-49 | ideas with the same row agree on user, time and every stored field |
| SaveIdeaHandler.HandleSave | netlify/functions/save-idea.js:3-76 | 405 for non-POST; a malformed body throws before any check; then 500 without configuration; then 400 without idea or user; a store error gives 500 with details and code and leaves the table; otherwise exactly the idea's row is appended |
| SaveIdeaHandler.SaveStoresOneRow | netlify/functions/save-idea.js:29-58 | a complete request stores one row exactly when the store reports no error |
| SavedIdeasHandler.FromRow | netlify/functions/get-saved-ideas.js:32-45 | id from `idea_id`, the save time from `saved_at`, null tags as [] |
| SavedIdeasHandler.FromRows | netlify/functions/get-saved-ideas.js:32-45 | one idea per row, in order |
| SavedIdeasHandler.SaveFetchRoundTrip | netlify/functions/get-saved-ideas.js:32-45 | saving then fetching an idea recovers its id, its ten other stored fields and the save time |
| SavedIdeasHandler.Query | netlify/functions/get-saved-ideas.js:23-27 | exactly the user's rows, as a permutation, ordered by save time non-increasing |
| SavedIdeasHandler.HandleFetch | netlify/functions/get-saved-ideas.js:3-55 | 405 for non-GET, then 500 without configuration, then 400 without user; 200 exactly otherwise unless the store fails, which gives 500 "Failed to fetch ideas." |
| SavedIdeasHandler.FetchedNewestFirst | netlify/functions/get-saved-ideas.js:27 | the returned ideas are newest first |
| SavedIdeasHandler.SavedIdeaIsFetched | netlify/functions/get-saved-ideas.js:23-45 | an idea just saved for a user is among the ideas fetched for that user |
| Sidebar.SortedIdeas | src/components/Sidebar.js:38-50 | a permutation of the tab's ideas, ordered by save time non-increasing; an idea shows exactly when it is saved and passes the tab's test |
| Sidebar.AllShowsEverything | src/components/Sidebar.js:38-49 | the 'all' tab shows every saved idea |
| Sidebar.EqualTimesKeepListOrder | src/components/Sidebar.js:50 | ideas saved at the same moment keep their list order |
| Sidebar.TabCount | src/components/Sidebar.js:85-92 | a tab's count is the number of saved ideas passing its test |
| Sidebar.TabCountIsListLength | src/components/Sidebar.js:85-92 | each tab's count equals the length of the list shown under it |
| Sidebar.RemoveIdea | src/components/Sidebar.js:52-55 | no idea with the id remains; every other idea does |
| Sidebar.RemoveKeepsOrder | src/components/Sidebar.js:54 | removal distributes over concatenation, so survivors keep their order |
| Sidebar.RemoveAbsentIsIdentity | src/components/Sidebar.js:54 | removing an unsaved id changes nothing |
| Sidebar.RemoveTwice | src/components/Sidebar.js:54 | removal is idempotent |
| Sidebar.SaveThenRemove | src/components/Sidebar.js:52-55 | removing an idea after saving it gives the list without that id, as before the save |
| Sidebar.Render | src/components/Sidebar.js:15-92 | the sidebar renders exactly when `isAuthenticated` is true, showing the selected tab's sorted list and on each tab the number of saved ideas passing its test |
| Sidebar.RendersNothingAsWritten | src/components/Sidebar.js:15-32 | with `isAuthenticated` missing from the context, the sidebar renders nothing for any saved list |
| Sidebar.SignedInShowsSelectedTab | src/components/Sidebar.js:30-92 | for a signed-in user the selected tab's label counts exactly the ideas listed under it, which are newest first and are the saved ideas passing its test |
| Onboarding.NextStep | src/components/OnboardingFlow.js:20-24 | the step advances by one exactly below 3, so it stays in 1..3 |
| Onboarding.ButtonsExclusive | src/components/OnboardingFlow.js:270-285 | Continue and Generate are never both enabled; Generate is enabled iff on step 3 with time and style chosen and no generation running |
| Onboarding.Apply | src/components/OnboardingFlow.js:270-280 | a disabled Continue changes nothing; an answer changes only the profile |
| Onboarding.StepStaysInRange | src/components/OnboardingFlow.js:20-24 | whatever the user does, the step stays within 1..3 and never decreases |
| Onboarding.CompleteAnswersReachGenerate | src/components/OnboardingFlow.js:26-37 | answering the three steps in order reaches step 3 with Generate enabled |
| Onboarding.Toggle | src/components/OnboardingFlow.js:77-83 | checking appends the option after the unchanged list; unchecking removes every copy and nothing else |
| Onboarding.UncheckKeepsOrder | src/components/OnboardingFlow.js:118-123 | unchecking keeps the remaining options in order |
| Onboarding.CheckThenUncheck | src/components/OnboardingFlow.js:178-183 | checking then unchecking an absent option restores the list |
| Onboarding.CheckboxChange | src/components/OnboardingFlow.js:239-244 | a checkbox edits exactly its own list field |
| Onboarding.StuckAsWritten | src/components/OnboardingFlow.js:16-37 | with the step undefined, Continue is not shown, so Generate is; the step is not valid, so Generate is disabled and neither button is ever enabled |
| Onboarding.AsWrittenAgreesOnDefinedSteps | src/components/OnboardingFlow.js:20-37 | for a defined step the buttons as written are enabled exactly as in the modelled wizard |

## Left out

- Network calls: the Gemini requests and the hosted store client are not modelled. Their outcomes are inputs: a `Reply`, a store error, and the table of rows.
- `JSON.parse` is an abstract partial function. JSON values of other shapes are not modelled, e.g. `ideas` that is not an array, or fields of the wrong type.
- Strings.Lower: lower-casing is ASCII only; JavaScript's full Unicode `toLowerCase` is not modelled. This affects every member that lower-cases: Keywords.ValidationKeywords, MockGenerator.Target, MockGenerator.Reasoning, MockGenerator.MockDescription and MockGenerator.Differentiator.
- Keywords.ValidationKeywords: word length counts characters, whereas `word.length` counts UTF-16 code units, so a character outside the Basic Multilingual Plane counts 2 in JavaScript and 1 here.
- Strings.ReplaceFirst and Strings.ReplaceAll: `replace` is modelled as literal replacement; `$` patterns in the replacement text are not expanded. Both MockGenerator.MockTitle and MockGenerator.MockDescription rely on them.
- Object-key lookups (`targets[interest]`, `interestCompetitorMap[tag]`, the value table) ignore inherited prototype keys such as `constructor`.
- The trends map is modelled as last-writer-wins with no special keys; a keyword such as `__proto__` is not modelled.
- Trends.MonthlyVolumes: the floating-point seasonal formula (`Math.sin`, real products) is an arbitrary integer per month; only the floor of 100 is modelled.
- The month labels (`toLocaleDateString`) are not modelled.
- Trends.Competitors: the price is a decimal label built from the integer price; no other number formatting is modelled.
- Sidebar.Shows: "seven days ago" is exactly 7×24 hours before now. Local-time calendar arithmetic across daylight-saving changes is not modelled.
- SaveIdeaHandler.Row: `saved_at` is the save time in milliseconds. Its ISO-8601 text is not modelled; that text orders the same way for four-digit years.
- SavedIdeasHandler.Query: the store's order among rows with equal `saved_at` is unspecified; the model keeps table order.
- Response headers, logging and the exact text of runtime `TypeError` messages other than the one the fallback generator throws are not modelled.
- Asynchrony, the in-progress flags while an action runs, and the 2-second delay are not modelled; each action is its settled result.
- AppContext.ValidateIdeaWithTrends: the `catch` branch is not modelled. Ideas here always carry tags and keywords, so the synthesis cannot throw.
- Authentication is not part of this model: Google sign-in, the OAuth callback and the login button.
- The Sidebar also reads `sidebarOpen`, `setSidebarOpen` and `startOnboardingFlow` from the context, which does not define them. Opening and closing the panel and the new-idea button are not modelled. The model takes the saved list as given. Neither src/App.js nor any component under src/components/ imports or mounts the Sidebar.
- Domain.Idea: the client also saves the validated idea as `{...selectedIdea, validated: true, validationData}` (src/components/ValidationStep.js:172-173), but `Idea` has neither of those two client-only fields, so the modelled saved list does not carry them. Nothing modelled depends on them. AppContext.SaveIdea de-duplicates by id alone, and save-idea.js:35-49 inserts a fixed set of columns, so these two fields never reach the table, just like `differentiator` and `validationKeywords` (SaveIdeaHandler.RowForgetsUnstoredFields covers only the two that `Idea` has).
- Prompts.Show: `Option` does not tell a missing field from a `null` one. A template literal renders `null` as "null", but the model renders every `None` as "undefined". A `null` field reaches the insight prompts when the model's reply or a stored column holds `null` (netlify/functions/generate-ideas.js:74, netlify/functions/get-saved-ideas.js:32-45).
- Rendering is not part of this model: progress percentages, score badges, dashboards and playbooks.

## Findings

| source | as written | input that shows it | evidently intended | confidence | as-written member | corrected member |
|---|---|---|---|---|---|---|
| src/components/OnboardingFlow.js:16-17 | the wizard reads `currentOnboardingStep` and its setter from the application context, whose value object (src/context/AppContext.js:426-454) defines neither | any profile: the step is `undefined`, `undefined < 3` is false so only Generate is shown, and `isStepValid(undefined)` is false so it stays disabled | the step is context state starting at 1, advanced by Continue | not executed; high for src/components/OnboardingFlow.js and src/context/AppContext.js as given, though other repository versions may differ | Onboarding.StuckAsWritten | Onboarding.CompleteAnswersReachGenerate |
| src/components/Sidebar.js:30-32 | the sidebar reads `isAuthenticated` from the application context, whose value object (src/context/AppContext.js:426-454) does not define it, so `!isAuthenticated` holds and the component returns `null` | any saved list and any selected tab | the context provides the signed-in flag, and a signed-in user sees the tabs, counts and newest-first list | not executed; high that it renders nothing as written, lower on intent, since neither src/App.js nor any component under src/components/ mounts the Sidebar | Sidebar.RendersNothingAsWritten | Sidebar.SignedInShowsSelectedTab |

=== FILE: app_context.dfy ===
/** The client's application context: its state, the fallback routing of
    idea generation, validation of an idea, the saved-idea list and profile
    edits. Each action is a function from the state before to the state
    after it has settled; the intermediate "in progress" flags are only
    observed as cleared at the end.
 */
module AppContext {
  import opened Results
  import opened Strings
  import opened Domain
  import opened Prompts
  import opened Gemini
  import opened GenerateIdeas
  import opened MockGenerator
  import opened Trends

  datatype State = State(
    currentStep: string,
    profile: Profile,
    generatedIdeas: seq<Idea>,
    savedIdeas: seq<SavedIdea>,
    selectedIdea: Option<Idea>,
    isGenerating: bool,
    isValidating: bool,
    validationData: Option<ValidationData>,
    apiError: string)

  const Initial := State("profile", EmptyProfile, [], [], None, false, false, None, "")

  const PlaceholderKey := "your_gemini_api_key_here"
  const ClientParseFailure := "Failed to parse AI response. Using fallback generation."
  const GenerationFallback := "Failed to generate ideas"

  // ---------------------------------------------------------------------
  // Choice lists offered by the onboarding wizard

  const SkillOptions: seq<string> :=
    ["Frontend Development", "Backend Development", "Full-Stack Development", "UI/UX Design",
     "Data Analysis", "Machine Learning", "DevOps", "Mobile Development", "Product Management",
     "Marketing", "Sales", "Content Writing", "SEO/SEM", "Business Development", "Customer Support"]

  const InterestOptions: seq<string> :=
    ["Healthcare", "Education", "Finance", "E-commerce", "Productivity", "Entertainment",
     "Social Media", "Gaming", "Sustainability", "AI/ML", "Remote Work", "Small Business",
     "Real Estate", "Travel", "Fitness", "Food & Cooking", "Mental Health", "Parenting"]

  const ConstraintOptions: seq<string> :=
    ["Solo Builder", "Limited Budget (<$5k)", "Part-time (10-20hrs/week)", "Full-time (40+hrs/week)",
     "No Technical Background", "Quick to Market (<6 months)", "Bootstrap Only", "Open to Funding"]

  const ValueOptions: seq<string> :=
    ["Help Small Businesses", "Improve Work-Life Balance", "Reduce Environmental Impact",
     "Democratize Technology", "Support Remote Work", "Enhance Education", "Promote Health & Wellness",
     "Build Community", "Increase Accessibility", "Solve Real Problems"]

  /** Every profile-dependent rule of the fallback generator can be switched
      by a choice the wizard offers, and every competitor category is an
      interest the user can pick. */
  lemma OptionsReachRules()
    ensures exists k :: 0 <= k < |SkillOptions| && Includes(SkillOptions[k], BackendMarker)
    ensures MachineLearning in SkillOptions
    ensures QuickToMarket in ConstraintOptions && NoTechnicalBackground in ConstraintOptions
    ensures forall c :: CompetitorTable(c).Some? ==> c in InterestOptions
    ensures forall v :: ValueInterests(v) != [] ==> v in ValueOptions
  {
    assert SkillOptions[1] == "Backend " + "Development";
    IncludesPrefix(BackendMarker, " Development");
    assert SkillOptions[5] == MachineLearning;
    assert ConstraintOptions[4] == NoTechnicalBackground;
    assert ConstraintOptions[5] == QuickToMarket;
    forall c | CompetitorTable(c).Some?
      ensures c in InterestOptions
    {
      if c == "Healthcare" { assert InterestOptions[0] == c; }
      else if c == "Education" { assert InterestOptions[1] == c; }
      else if c == "Finance" { assert InterestOptions[2] == c; }
      else if c == "E-commerce" { assert InterestOptions[3] == c; }
      else if c == "Productivity" { assert InterestOptions[4] == c; }
      else { assert InterestOptions[11] == c; }
    }
    forall v | ValueInterests(v) != []
      ensures v in ValueOptions
    {
      if v == "Help Small Businesses" { assert ValueOptions[0] == v; }
      else if v == "Democratize Technology" { assert ValueOptions[3] == v; }
      else if v == "Support Remote Work" { assert ValueOptions[4] == v; }
      else if v == "Enhance Education" { assert ValueOptions[5] == v; }
      else { assert ValueOptions[6] == v; }
    }
  }

  /** A string includes each of its prefixes. */
  lemma IncludesPrefix(a: string, b: string)
    ensures Includes(a + b, a)
  {
    IncludesIff(a + b, a);
    assert OccursAt(a + b, a, 0);
  }

  // ---------------------------------------------------------------------
  // Idea generation with fallback

  /** The model is called only with a configured key that is not the
      placeholder shipped in the example environment. */
  predicate UsesApi(apiKey: Option<string>) {
    Truthy(apiKey) && apiKey.value != PlaceholderKey
  }

  /** The ideas of the `try` block: the model's when the key is usable,
      otherwise the fallback generator's. */
  function FirstAttempt(p: Profile, apiKey: Option<string>, reply: Reply,
                        parse: string -> Option<ParsedReply>, clock: nat -> nat,
                        draw: nat -> MockDraw): (r: Result<seq<Idea>, string>)
    ensures r.Success? ==> forall k :: 0 <= k < |r.value| ==>
              r.value[k].generatedBy == (if UsesApi(apiKey) then AiSource else MockSource)
    ensures UsesApi(apiKey) ==>
              (r.Success? <==> reply.Answered? && Truthy(reply.text)
                               && IdeasFromText(reply.text.value, parse, clock, ClientParseFailure).Success?)
    ensures UsesApi(apiKey) && !(reply.Answered? && Truthy(reply.text)) ==> r.Failure?
    ensures !UsesApi(apiKey) ==> (r.Failure? <==> |p.interests| > 0 && |p.skills| == 0)
    ensures !UsesApi(apiKey) && r.Success? ==> |r.value| == MockCount(p)
  {
    if UsesApi(apiKey) then IdeasFromReply(reply, parse, clock, ClientParseFailure)
    else MockIdeas(p, draw)
  }

  /** The state after generation, and the prompt sent to the model if any. */
  datatype Generation = Generation(state: State, sent: Option<string>)

  /** `generatePersonalizedIdeas()`. `draw` feeds the fallback generator of
      the `try` block and `retry` the one run in the `catch` block; when that
      second run throws too, the action rejects and only the error and the
      cleared flag remain. */
  function GeneratePersonalizedIdeas(s: State, apiKey: Option<string>, reply: Reply,
                                     parse: string -> Option<ParsedReply>, clock: nat -> nat,
                                     draw: nat -> MockDraw, retry: nat -> MockDraw): (r: Generation)
    ensures r.sent.Some? <==> UsesApi(apiKey)
    ensures r.sent.Some? ==> r.sent.value == IdeaPrompt(s.profile)
    ensures !r.state.isGenerating
    ensures r.state.profile == s.profile && r.state.savedIdeas == s.savedIdeas
    ensures r.state.selectedIdea == s.selectedIdea && r.state.validationData == s.validationData
    ensures r.state.isValidating == s.isValidating
    ensures r.state.apiError == "" <==> FirstAttempt(s.profile, apiKey, reply, parse, clock, draw).Success?
    ensures var first := FirstAttempt(s.profile, apiKey, reply, parse, clock, draw);
            first.Success? ==> r.state.generatedIdeas == first.value && r.state.currentStep == "ideas"
    ensures var first := FirstAttempt(s.profile, apiKey, reply, parse, clock, draw);
            first.Failure? ==> r.state.apiError == OrDefault(first.error, GenerationFallback)
    ensures var first := FirstAttempt(s.profile, apiKey, reply, parse, clock, draw);
            first.Failure? && MockIdeas(s.profile, retry).Success? ==>
              r.state.generatedIdeas == MockIdeas(s.profile, retry).value && r.state.currentStep == "ideas"
    ensures var first := FirstAttempt(s.profile, apiKey, reply, parse, clock, draw);
            first.Failure? && MockIdeas(s.profile, retry).Failure? ==>
              r.state.generatedIdeas == s.generatedIdeas && r.state.currentStep == s.currentStep
  {
    var sent := if UsesApi(apiKey) then Some(IdeaPrompt(s.profile)) else None;
    match FirstAttempt(s.profile, apiKey, reply, parse, clock, draw)
    case Success(ideas) =>
      Generation(s.(generatedIdeas := ideas, currentStep := "ideas", apiError := "", isGenerating := false), sent)
    case Failure(e) =>
      var failed := s.(apiError := OrDefault(e, GenerationFallback), isGenerating := false);
      match MockIdeas(s.profile, retry)
      case Success(ideas) => Generation(failed.(generatedIdeas := ideas, currentStep := "ideas"), sent)
      case Failure(_) => Generation(failed, sent)
  }

  /** Whenever the profile names a skill or no interest, generation always
      reaches the ideas step with a list of ideas, whatever the model does:
      either the model's ideas, or the fallback's with the error recorded. */
  lemma GenerationAlwaysAdvances(s: State, apiKey: Option<string>, reply: Reply,
                                 parse: string -> Option<ParsedReply>, clock: nat -> nat,
                                 draw: nat -> MockDraw, retry: nat -> MockDraw)
    requires |s.profile.skills| > 0 || |s.profile.interests| == 0
    ensures var r := GeneratePersonalizedIdeas(s, apiKey, reply, parse, clock, draw, retry).state;
            && r.currentStep == "ideas"
            && (r.apiError == "" ==> r.generatedIdeas == FirstAttempt(s.profile, apiKey, reply, parse, clock, draw).value)
            && (r.apiError != "" ==> r.generatedIdeas == MockIdeas(s.profile, retry).value)
  {
  }

  /** A model failure is recorded with its message, and the ideas shown are
      the fallback generator's. */
  lemma ModelFailureFallsBack(s: State, apiKey: Option<string>, reply: Reply,
                              parse: string -> Option<ParsedReply>, clock: nat -> nat,
                              draw: nat -> MockDraw, retry: nat -> MockDraw)
    requires UsesApi(apiKey) && |s.profile.skills| > 0
    requires IdeasFromReply(reply, parse, clock, ClientParseFailure).Failure?
    ensures var r := GeneratePersonalizedIdeas(s, apiKey, reply, parse, clock, draw, retry).state;
            && r.apiError == OrDefault(IdeasFromReply(reply, parse, clock, ClientParseFailure).error, GenerationFallback)
            && r.generatedIdeas == MockIdeas(s.profile, retry).value
            && r.currentStep == "ideas"
  {
  }

  /** Without a usable key and with interests but no skills, both runs of
      the fallback generator throw: the error is recorded and nothing else
      about the ideas or the step changes. */
  lemma NoSkillLeavesIdeas(s: State, apiKey: Option<string>, reply: Reply,
                           parse: string -> Option<ParsedReply>, clock: nat -> nat,
                           draw: nat -> MockDraw, retry: nat -> MockDraw)
    requires !UsesApi(apiKey) && |s.profile.interests| > 0 && |s.profile.skills| == 0
    ensures var r := GeneratePersonalizedIdeas(s, apiKey, reply, parse, clock, draw, retry).state;
            && r.apiError == NoSkillError
            && r.generatedIdeas == s.generatedIdeas
            && r.currentStep == s.currentStep
  {
  }

  // ---------------------------------------------------------------------
  // Validation

  /** `validateIdeaWithTrends(idea)`: the idea becomes the selected one, its
      synthesised data the validation data, and the step 'validation'. */
  function ValidateIdeaWithTrends(s: State, idea: Idea, d: TrendDraws): (r: State)
    ensures r.selectedIdea == Some(idea) && r.currentStep == "validation" && !r.isValidating
    ensures r.validationData.Some?
    ensures r.validationData.value.keywords.Keys == set k | k in idea.validationKeywords
    ensures r.profile == s.profile && r.generatedIdeas == s.generatedIdeas
    ensures r.savedIdeas == s.savedIdeas && r.apiError == s.apiError && r.isGenerating == s.isGenerating
  {
    s.(selectedIdea := Some(idea), validationData := Some(TrendsData(idea, d)),
       currentStep := "validation", isValidating := false)
  }

  // ---------------------------------------------------------------------
  // Saved ideas

  predicate HasId(saved: seq<SavedIdea>, id: string) {
    exists k :: 0 <= k < |saved| && saved[k].idea.id == id
  }

  /** No two saved entries share an id. */
  predicate DistinctIds(saved: seq<SavedIdea>) {
    forall j, k :: 0 <= j < k < |saved| ==> saved[j].idea.id != saved[k].idea.id
  }

  /** `saveIdea(idea)`, stamped with the time `now`. */
  function SaveIdea(saved: seq<SavedIdea>, idea: Idea, now: int): (r: seq<SavedIdea>)
    ensures HasId(r, idea.id)
    ensures HasId(saved, idea.id) ==> r == saved
    ensures !HasId(saved, idea.id) ==>
              && |r| == |saved| + 1 && r[..|saved|] == saved
              && r[|saved|] == SavedIdea(idea, now)
  {
    if HasId(saved, idea.id) then saved
    else
      var r := saved + [SavedIdea(idea, now)];
      assert r[|saved|].idea.id == idea.id;
      r
  }

  /** Saving twice is saving once, whatever the second time stamp. */
  lemma SaveIdempotent(saved: seq<SavedIdea>, idea: Idea, t1: int, t2: int)
    ensures SaveIdea(SaveIdea(saved, idea, t1), idea, t2) == SaveIdea(saved, idea, t1)
  {
  }

  /** Saving keeps the ids of the list distinct. */
  lemma SaveKeepsIdsDistinct(saved: seq<SavedIdea>, idea: Idea, now: int)
    requires DistinctIds(saved)
    ensures DistinctIds(SaveIdea(saved, idea, now))
  {
    var r := SaveIdea(saved, idea, now);
    if !HasId(saved, idea.id) {
      forall j, k | 0 <= j < k < |r|
        ensures r[j].idea.id != r[k].idea.id
      {
        if k == |saved| {
          assert r[j] == saved[j];
        } else {
          assert r[j] == saved[j] && r[k] == saved[k];
        }
      }
    }
  }

  /** Every list the context builds by saving from the empty list has
      distinct ids. */
  lemma SavingFromEmptyKeepsIdsDistinct(ideas: seq<Idea>, stamps: seq<int>)
    requires |stamps| == |ideas|
    ensures DistinctIds(SaveAll([], ideas, stamps))
  {
    SaveAllKeepsIdsDistinct([], ideas, stamps);
  }

  function SaveAll(saved: seq<SavedIdea>, ideas: seq<Idea>, stamps: seq<int>): seq<SavedIdea>
    requires |stamps| == |ideas|
    decreases |ideas|
  {
    if |ideas| == 0 then saved
    else SaveAll(SaveIdea(saved, ideas[0], stamps[0]), ideas[1..], stamps[1..])
  }

  lemma {:induction false} SaveAllKeepsIdsDistinct(saved: seq<SavedIdea>, ideas: seq<Idea>, stamps: seq<int>)
    requires |stamps| == |ideas| && DistinctIds(saved)
    ensures DistinctIds(SaveAll(saved, ideas, stamps))
    decreases |ideas|
  {
    if |ideas| > 0 {
      SaveKeepsIdsDistinct(saved, ideas[0], stamps[0]);
      SaveAllKeepsIdsDistinct(SaveIdea(saved, ideas[0], stamps[0]), ideas[1..], stamps[1..]);
    }
  }

  // ---------------------------------------------------------------------
  // Profile edits

  datatype ListField = Skills | Interests | Constraints | Values
  datatype TextField = Experience | TimeCommitment | BuildingStyle

  /** `handleProfileChange(field, value)`, as the wizard calls it: a list for
      a list field, a string for a text field. */
  datatype ProfileChange = SetList(listField: ListField, items: seq<string>)
                         | SetText(textField: TextField, text: string)

  function ListOf(p: Profile, f: ListField): seq<string> {
    match f
    case Skills => p.skills
    case Interests => p.interests
    case Constraints => p.constraints
    case Values => p.values
  }

  function TextOf(p: Profile, f: TextField): string {
    match f
    case Experience => p.experience
    case TimeCommitment => p.timeCommitment
    case BuildingStyle => p.buildingStyle
  }

  /** `{ ...prev, [field]: value }`. */
  function ChangeProfile(p: Profile, c: ProfileChange): (r: Profile)
    ensures c.SetList? ==> ListOf(r, c.listField) == c.items
    ensures c.SetText? ==> TextOf(r, c.textField) == c.text
    ensures forall f :: !(c.SetList? && c.listField == f) ==> ListOf(r, f) == ListOf(p, f)
    ensures forall f :: !(c.SetText? && c.textField == f) ==> TextOf(r, f) == TextOf(p, f)
  {
    match c
    case SetList(Skills, v) => p.(skills := v)
    case SetList(Interests, v) => p.(interests := v)
    case SetList(Constraints, v) => p.(constraints := v)
    case SetList(Values, v) => p.(values := v)
    case SetText(Experience, v) => p.(experience := v)
    case SetText(TimeCommitment, v) => p.(timeCommitment := v)
    case SetText(BuildingStyle, v) => p.(buildingStyle := v)
  }

  /** Two profiles that agree on every field are equal. */
  lemma ProfileExtensional(p: Profile, q: Profile)
    requires forall f :: ListOf(p, f) == ListOf(q, f)
    requires forall f :: TextOf(p, f) == TextOf(q, f)
    ensures p == q
  {
    assert ListOf(p, Skills) == ListOf(q, Skills) && ListOf(p, Interests) == ListOf(q, Interests);
    assert ListOf(p, Constraints) == ListOf(q, Constraints) && ListOf(p, Values) == ListOf(q, Values);
    assert TextOf(p, Experience) == TextOf(q, Experience);
    assert TextOf(p, TimeCommitment) == TextOf(q, TimeCommitment);
    assert TextOf(p, BuildingStyle) == TextOf(q, BuildingStyle);
  }

  /** Writing back what a field holds changes nothing. */
  lemma ChangeToSameIsIdentity(p: Profile, f: ListField, g: TextField)
    ensures ChangeProfile(p, SetList(f, ListOf(p, f))) == p
    ensures ChangeProfile(p, SetText(g, TextOf(p, g))) == p
  {
    ProfileExtensional(ChangeProfile(p, SetList(f, ListOf(p, f))), p);
    ProfileExtensional(ChangeProfile(p, SetText(g, TextOf(p, g))), p);
  }

  /** A second change of the same field overrides the first. */
  lemma LastChangeWins(p: Profile, f: ListField, a: seq<string>, b: seq<string>, g: TextField, x: string, y: string)
    ensures ChangeProfile(ChangeProfile(p, SetList(f, a)), SetList(f, b)) == ChangeProfile(p, SetList(f, b))
    ensures ChangeProfile(ChangeProfile(p, SetText(g, x)), SetText(g, y)) == ChangeProfile(p, SetText(g, y))
  {
    ProfileExtensional(ChangeProfile(ChangeProfile(p, SetList(f, a)), SetList(f, b)), ChangeProfile(p, SetList(f, b)));
    ProfileExtensional(ChangeProfile(ChangeProfile(p, SetText(g, x)), SetText(g, y)), ChangeProfile(p, SetText(g, y)));
  }

  /** `handleProfileChange` on the context state: only the profile changes. */
  function HandleProfileChange(s: State, c: ProfileChange): (r: State)
    ensures r.profile == ChangeProfile(s.profile, c)
    ensures r.(profile := s.profile) == s
  {
    s.(profile := ChangeProfile(s.profile, c))
  }
}

=== FILE: domain.dfy ===
/** The records the application passes around: the onboarding profile, a
    generated idea, an idea held in the client's saved list, and the shape of
    a serverless handler's HTTP response.
 */
module Domain {
  import opened Results

  /** The user's answers to the onboarding wizard. The three single-choice
      answers are `""` until chosen. */
  datatype Profile = Profile(
    skills: seq<string>,
    interests: seq<string>,
    constraints: seq<string>,
    values: seq<string>,
    experience: string,
    timeCommitment: string,
    buildingStyle: string)

  /** The profile the application starts with: every list empty, nothing chosen. */
  const EmptyProfile := Profile([], [], [], [], "", "", "")

  /** A generated business idea. The descriptive fields are absent when a
      model reply omits them (the normalisation copies them as they come);
      the fallback generator always fills them. */
  datatype Idea = Idea(
    id: string,
    title: Option<string>,
    description: Option<string>,
    market: Option<string>,
    complexity: Option<string>,
    timeToRevenue: Option<string>,
    matchScore: int,
    tags: seq<string>,
    matchReasoning: string,
    differentiator: Option<string>,
    validationKeywords: seq<string>,
    generatedBy: string,
    confidence: int)

  /** An idea in the client's saved list, stamped with the save time in
      milliseconds since the epoch. */
  datatype SavedIdea = SavedIdea(idea: Idea, savedAt: int)

  /** A serverless handler's reply: a status code and a body of type `B`. */
  datatype Response<B> = Response(statusCode: int, body: B)
}

=== FILE: gemini.dfy ===
/** The shared handling of one generative-model call, as written out three
    times (in the client context and in both idea functions): the upstream
    reply is turned into generated text or an error message, and the text is
    cut down to its JSON region with the greedy pattern `/\{[\s\S]*\}/`.

    The HTTP exchange itself is not modelled: a `Reply` stands for what the
    call produced.
 */
module Gemini {
  import opened Results
  import opened Strings

  /** The outcome of the upstream request. */
  datatype Reply =
      /** `response.ok` was false; `errorMessage` is `errorData.error?.message`. */
    | Rejected(errorMessage: Option<string>, statusText: string)
      /** The reply parsed; `text` is `data.candidates[0]?.content?.parts[0]?.text`. */
    | Answered(text: Option<string>)
      /** The request, or reading its reply, threw an error with this message. */
    | Broken(message: string)

  const ApiErrorPrefix := "Gemini API Error: "
  const NoContentMessage := "No content generated from Gemini API"
  const NoJsonMessage := "No valid JSON found in AI response"

  /** The generated text, or the message of the error thrown before any
      parsing: a rejected call reports the upstream message, falling back to
      the status text; an empty or missing text is "no content". */
  function GeneratedText(reply: Reply): (r: Result<string, string>)
    ensures r.Success? <==> reply.Answered? && Truthy(reply.text)
    ensures r.Success? ==> r.value != ""
    ensures reply.Rejected? ==>
              && r.Failure? && |r.error| >= |ApiErrorPrefix|
              && r.error[..|ApiErrorPrefix|] == ApiErrorPrefix
              && r.error[|ApiErrorPrefix|..] == OrElse(reply.errorMessage, Some(reply.statusText)).value
    ensures reply.Answered? && !Truthy(reply.text) ==> r == Failure(NoContentMessage)
    ensures reply.Broken? ==> r == Failure(reply.message)
  {
    match reply
    case Rejected(m, status) => Failure(ApiErrorPrefix + (if Truthy(m) then m.value else status))
    case Answered(t) => if Truthy(t) then Success(t.value) else Failure(NoContentMessage)
    case Broken(m) => Failure(m)
  }

  // ---------------------------------------------------------------------
  // The greedy JSON region

  function FirstIndexOf(s: string, c: char): (r: Option<nat>)
    ensures r.None? <==> c !in s
    ensures r.Some? ==> r.value < |s| && s[r.value] == c && c !in s[..r.value]
    decreases |s|
  {
    if |s| == 0 then None
    else if s[0] == c then Some(0)
    else match FirstIndexOf(s[1..], c)
      case None => None
      case Some(k) =>
        assert s[..k + 1] == [s[0]] + s[1..][..k];
        Some(k + 1)
  }

  function LastIndexOf(s: string, c: char): (r: Option<nat>)
    ensures r.None? <==> c !in s
    ensures r.Some? ==> r.value < |s| && s[r.value] == c && c !in s[r.value + 1..]
    decreases |s|
  {
    if |s| == 0 then None
    else if s[|s| - 1] == c then Some(|s| - 1)
    else match LastIndexOf(s[..|s| - 1], c)
      case None => None
      case Some(k) =>
        assert s[k + 1..] == s[..|s| - 1][k + 1..] + [s[|s| - 1]];
        Some(k)
  }

  /** `text.match(/\{[\s\S]*\}/)?.[0]`: the leftmost `{` starts the match and
      the greedy body runs to the rightmost `}`, so the region is the text
      from the first `{` through the last `}`; there is no match when no `}`
      follows a `{`. Braces are not balanced. */
  function JsonRegion(text: string): (r: Option<string>)
    ensures r.Some? ==>
              exists i, j :: 0 <= i < j < |text| && r.value == text[i..j + 1]
                             && text[i] == '{' && '{' !in text[..i]
                             && text[j] == '}' && '}' !in text[j + 1..]
    ensures r.None? <==> forall i, j :: 0 <= i < j < |text| && text[i] == '{' ==> text[j] != '}'
  {
    match (FirstIndexOf(text, '{'), LastIndexOf(text, '}'))
    case (Some(i), Some(j)) =>
      if i < j then Some(text[i..j + 1])
      else
        NoBraceAfter(text, i, j);
        None
    case (None, _) =>
      assert forall i :: 0 <= i < |text| ==> text[i] != '{';
      None
    case (_, None) =>
      assert forall j :: 0 <= j < |text| ==> text[j] != '}';
      None
  }

  /** When the last `}` does not come after the first `{`, no `}` follows any `{`. */
  lemma NoBraceAfter(text: string, first: nat, last: nat)
    requires first < |text| && last < |text| && last <= first
    requires '{' !in text[..first] && '}' !in text[last + 1..]
    ensures forall i, j :: 0 <= i < j < |text| && text[i] == '{' ==> text[j] != '}'
  {
    Before(text, '{', first);
    After(text, '}', last);
  }

  /** Two positions that both hold the first `c` are the same position. */
  lemma FirstOccurrenceUnique(t: string, c: char, i: nat, k: nat)
    requires i < |t| && t[i] == c && c !in t[..i]
    requires k < |t| && t[k] == c && c !in t[..k]
    ensures i == k
  {
    Before(t, c, i);
    Before(t, c, k);
  }

  lemma Before(t: string, c: char, i: nat)
    requires i <= |t| && c !in t[..i]
    ensures forall m :: 0 <= m < i ==> t[m] != c
  {
    forall m | 0 <= m < i
      ensures t[m] != c
    {
      assert t[m] == t[..i][m];
    }
  }

  lemma After(t: string, c: char, j: nat)
    requires j < |t| && c !in t[j + 1..]
    ensures forall m :: j < m < |t| ==> t[m] != c
  {
    forall m | j < m < |t|
      ensures t[m] != c
    {
      assert t[m] == t[j + 1..][m - j - 1];
    }
  }

  /** Two positions that both hold the last `c` are the same position. */
  lemma LastOccurrenceUnique(t: string, c: char, j: nat, k: nat)
    requires j < |t| && t[j] == c && c !in t[j + 1..]
    requires k < |t| && t[k] == c && c !in t[k + 1..]
    ensures j == k
  {
    After(t, c, j);
    After(t, c, k);
  }

  /** Text around an object does not change the region when the text before
      holds no `{`, the text after holds no `}`; in particular a reply that
      is exactly one object, `before` and `after` empty, is its own region. */
  lemma RegionIgnoresProse(before: string, body: string, after: string)
    requires '{' !in before && '}' !in after
    ensures JsonRegion(before + "{" + body + "}" + after) == Some("{" + body + "}")
  {
    var t := before + "{" + body + "}" + after;
    var i0 := |before|;
    var j0 := |before| + |body| + 1;
    assert t[i0] == '{' && t[j0] == '}';
    assert t[..i0] == before;
    assert t[j0 + 1..] == after;
    assert t[i0..j0 + 1] == "{" + body + "}";
    var r := JsonRegion(t);
    var i, j :| 0 <= i < j < |t| && r.value == t[i..j + 1]
                && t[i] == '{' && '{' !in t[..i] && t[j] == '}' && '}' !in t[j + 1..];
    FirstOccurrenceUnique(t, '{', i, i0);
    LastOccurrenceUnique(t, '}', j, j0);
  }
}

=== FILE: generate_ideas.dfy ===
/** The idea-generation function: request guards, the prompt built from the
    user's profile, and the normalisation of the ideas the model returns.
    The normalisation is shared with the client context, which runs the same
    steps with its own parse-failure message.

    `JSON.parse` is a parameter (`parse`), and so is the clock: `Date.now()`
    is read once per idea, and the `k`-th reading is `clock(k)`.
 */
module GenerateIdeas {
  import opened Results
  import opened Strings
  import opened Seqs
  import opened Domain
  import opened Keywords
  import opened Prompts
  import opened Gemini

  /** One element of `parsedResponse.ideas`, with every field optional. */
  datatype RawIdea = RawIdea(
    title: Option<string>,
    description: Option<string>,
    market: Option<string>,
    complexity: Option<string>,
    timeToRevenue: Option<string>,
    timeToMarket: Option<string>,
    tags: Option<seq<string>>,
    matchReasoning: Option<string>,
    differentiator: Option<string>,
    validationKeywords: Option<seq<string>>)

  /** The parsed JSON region; `ideas` is absent when the object has no `ideas` array. */
  datatype ParsedReply = ParsedReply(ideas: Option<seq<RawIdea>>)

  const DefaultReasoning := "AI-generated based on your unique profile combination"
  const AiScore := 95
  const AiSource := "Gemini AI"
  const ParseFailure := "Failed to parse AI response"

  /** `ai-${Date.now()}-${index}`. */
  function AiId(stamp: nat, index: nat): string {
    "ai-" + NatToString(stamp) + "-" + NatToString(index)
  }

  /** Ids of one batch differ whenever their indices differ, whatever the clock read. */
  lemma AiIdDeterminesIndex(s1: nat, i1: nat, s2: nat, i2: nat)
    ensures AiId(s1, i1) == AiId(s2, i2) ==> s1 == s2 && i1 == i2
  {
    if AiId(s1, i1) == AiId(s2, i2) {
      var a := NatToString(s1) + "-" + NatToString(i1);
      var b := NatToString(s2) + "-" + NatToString(i2);
      assert AiId(s1, i1) == "ai-" + a;
      assert AiId(s2, i2) == "ai-" + b;
      assert a == AiId(s1, i1)[3..];
      assert b == AiId(s2, i2)[3..];
      DashSeparatedUnique(NatToString(s1), NatToString(i1), NatToString(s2), NatToString(i2));
      NatToStringInjective(s1, s2);
      NatToStringInjective(i1, i2);
    }
  }

  /** The keywords a normalised idea carries: the reply's own list when it
      has one (an empty array counts), else the list derived from the title;
      deriving from a missing title throws. */
  function IdeaKeywords(raw: RawIdea): (r: Option<seq<string>>)
    ensures r.None? <==> raw.validationKeywords.None? && raw.title.None?
    ensures raw.validationKeywords.Some? ==> r == raw.validationKeywords
    ensures raw.validationKeywords.None? && raw.title.Some? ==>
              r == Some(ValidationKeywords(raw.title.value, raw.tags))
  {
    if raw.validationKeywords.Some? then raw.validationKeywords
    else if raw.title.Some? then Some(ValidationKeywords(raw.title.value, raw.tags))
    else None
  }

  /** One idea of the reply, normalised: copied fields, defaults for missing
      ones, fixed score, confidence and source. `None` when the mapping
      throws. */
  function NormaliseIdea(raw: RawIdea, stamp: nat, index: nat): (r: Option<Idea>)
    ensures r.None? <==> IdeaKeywords(raw).None?
    ensures r.Some? ==>
              var idea := r.value;
              && idea.id == AiId(stamp, index)
              && idea.title == raw.title && idea.description == raw.description
              && idea.market == raw.market && idea.complexity == raw.complexity
              && idea.differentiator == raw.differentiator
              && idea.timeToRevenue == OrElse(raw.timeToRevenue, raw.timeToMarket)
              && idea.tags == raw.tags.GetOr([])
              && idea.matchReasoning == OrElse(raw.matchReasoning, Some(DefaultReasoning)).value
              && idea.validationKeywords == IdeaKeywords(raw).value
              && idea.matchScore == AiScore && idea.confidence == AiScore
              && idea.generatedBy == AiSource
  {
    match IdeaKeywords(raw)
    case None => None
    case Some(keywords) =>
      Some(Idea(
        id := AiId(stamp, index),
        title := raw.title,
        description := raw.description,
        market := raw.market,
        complexity := raw.complexity,
        timeToRevenue := OrElse(raw.timeToRevenue, raw.timeToMarket),
        matchScore := AiScore,
        tags := raw.tags.GetOr([]),
        matchReasoning := if Truthy(raw.matchReasoning) then raw.matchReasoning.value else DefaultReasoning,
        differentiator := raw.differentiator,
        validationKeywords := keywords,
        generatedBy := AiSource,
        confidence := AiScore))
  }

  /** An idea the model returned complete (every field present, a non-empty
      reasoning, its own keywords) keeps every field it came with. */
  lemma NormaliseKeepsComplete(raw: RawIdea, stamp: nat, index: nat)
    requires raw.timeToRevenue.Some? && raw.timeToRevenue.value != ""
    requires raw.tags.Some? && Truthy(raw.matchReasoning) && raw.validationKeywords.Some?
    ensures NormaliseIdea(raw, stamp, index).Some?
    ensures var idea := NormaliseIdea(raw, stamp, index).value;
            && Some(idea.tags) == raw.tags
            && idea.timeToRevenue == raw.timeToRevenue
            && Some(idea.matchReasoning) == raw.matchReasoning
            && Some(idea.validationKeywords) == raw.validationKeywords
  {
  }

  /** `parsedResponse.ideas.map((idea, index) => ...)`: the `k`-th idea is
      stamped with the `k`-th clock reading; `None` when any element's
      mapping throws. */
  function NormaliseIdeas(raws: seq<RawIdea>, clock: nat -> nat): (r: Option<seq<Idea>>)
    ensures r.Some? ==>
              && |r.value| == |raws|
              && forall k :: 0 <= k < |raws| ==> NormaliseIdea(raws[k], clock(k), k) == Some(r.value[k])
    ensures r.None? <==> exists k :: 0 <= k < |raws| && NormaliseIdea(raws[k], clock(k), k).None?
  {
    MapOrFail(raws, (k: nat, raw: RawIdea) => NormaliseIdea(raw, clock(k), k), 0)
  }

  /** Within one batch the ids are pairwise distinct, even when the clock
      reads the same value for every idea. */
  lemma NormalisedIdsDistinct(raws: seq<RawIdea>, clock: nat -> nat)
    requires NormaliseIdeas(raws, clock).Some?
    ensures var ideas := NormaliseIdeas(raws, clock).value;
            forall j, k :: 0 <= j < k < |ideas| ==> ideas[j].id != ideas[k].id
  {
    var ideas := NormaliseIdeas(raws, clock).value;
    forall j, k | 0 <= j < k < |ideas|
      ensures ideas[j].id != ideas[k].id
    {
      NormalisedId(raws, clock, j);
      NormalisedId(raws, clock, k);
      AiIdDeterminesIndex(clock(j), j, clock(k), k);
    }
  }

  /** The `k`-th normalised idea is stamped with the `k`-th clock reading and its index. */
  lemma NormalisedId(raws: seq<RawIdea>, clock: nat -> nat, k: nat)
    requires NormaliseIdeas(raws, clock).Some? && k < |raws|
    ensures |NormaliseIdeas(raws, clock).value| == |raws|
    ensures NormaliseIdeas(raws, clock).value[k].id == AiId(clock(k), k)
  {
  }

  /** From generated text to ideas: extract the JSON region, parse it, read
      its `ideas` and normalise them. Every failure on the way is reported
      as `failure`, the message of the inner catch. */
  function IdeasFromText(text: string, parse: string -> Option<ParsedReply>, clock: nat -> nat,
                         failure: string): (r: Result<seq<Idea>, string>)
    ensures r.Failure? ==> r.error == failure
    ensures r.Success? <==>
              && JsonRegion(text).Some?
              && parse(JsonRegion(text).value).Some?
              && parse(JsonRegion(text).value).value.ideas.Some?
              && NormaliseIdeas(parse(JsonRegion(text).value).value.ideas.value, clock).Some?
    ensures r.Success? ==>
              r.value == NormaliseIdeas(parse(JsonRegion(text).value).value.ideas.value, clock).value
    ensures r.Success? ==> forall k :: 0 <= k < |r.value| ==>
              r.value[k].generatedBy == AiSource && r.value[k].matchScore == AiScore
  {
    match JsonRegion(text)
    case None => Failure(failure)
    case Some(region) =>
      match parse(region)
      case None => Failure(failure)
      case Some(reply) =>
        if reply.ideas.None? then Failure(failure)
        else
          match NormaliseIdeas(reply.ideas.value, clock)
          case None => Failure(failure)
          case Some(ideas) => Success(ideas)
  }

  /** The whole model call as seen by its caller: the upstream reply's
      errors first, then the parsing steps. */
  function IdeasFromReply(reply: Reply, parse: string -> Option<ParsedReply>, clock: nat -> nat,
                          failure: string): (r: Result<seq<Idea>, string>)
    ensures r.Success? <==>
              reply.Answered? && Truthy(reply.text) && IdeasFromText(reply.text.value, parse, clock, failure).Success?
    ensures r.Success? ==> r.value == IdeasFromText(reply.text.value, parse, clock, failure).value
    ensures r.Success? ==> forall k :: 0 <= k < |r.value| ==> r.value[k].generatedBy == AiSource
    ensures reply.Rejected? ==>
              && r.Failure? && |r.error| >= |ApiErrorPrefix|
              && r.error[..|ApiErrorPrefix|] == ApiErrorPrefix
    ensures reply.Answered? && !Truthy(reply.text) ==> r == Failure(NoContentMessage)
    ensures reply.Broken? ==> r == Failure(reply.message)
    ensures reply.Answered? && Truthy(reply.text) && r.Failure? ==> r.error == failure
  {
    match GeneratedText(reply)
    case Failure(e) => Failure(e)
    case Success(text) => IdeasFromText(text, parse, clock, failure)
  }

  // ---------------------------------------------------------------------
  // The handler

  /** The request body after `JSON.parse`: `userProfile` is absent when the
      body has none. */
  datatype Request = Request(userProfile: Option<Profile>)

  datatype Body = ErrorBody(error: string) | IdeasBody(ideas: seq<Idea>)

  /** What the handler returns, and the prompt it sent upstream, if any. */
  datatype Outcome = Outcome(response: Response<Body>, sent: Option<string>)

  const HandlerFallback := "Failed to generate ideas"

  /** The handler. `body` is `JSON.parse(event.body)`: the request, or the
      message of the syntax error it threw. `reply` is what the upstream
      call produced when one is made. */
  function Handle(httpMethod: string, apiKey: Option<string>, body: Result<Request, string>,
                  reply: Reply, parse: string -> Option<ParsedReply>, clock: nat -> nat): (r: Outcome)
    ensures httpMethod != "POST" ==> r == Outcome(Response(405, ErrorBody("Method not allowed")), None)
    ensures httpMethod == "POST" && !Truthy(apiKey) ==>
              r == Outcome(Response(500, ErrorBody("API key not configured")), None)
    ensures httpMethod == "POST" && Truthy(apiKey) && body.Failure? ==>
              r == Outcome(Response(500, ErrorBody(OrDefault(body.error, HandlerFallback))), None)
    ensures httpMethod == "POST" && Truthy(apiKey) && body.Success? && body.value.userProfile.None? ==>
              r == Outcome(Response(400, ErrorBody("User profile is required")), None)
    ensures r.sent.Some? <==>
              httpMethod == "POST" && Truthy(apiKey) && body.Success? && body.value.userProfile.Some?
    ensures r.sent.Some? ==> r.sent.value == IdeaPrompt(body.value.userProfile.value)
    ensures r.response.statusCode == 200 <==>
              r.sent.Some? && IdeasFromReply(reply, parse, clock, ParseFailure).Success?
    ensures r.response.statusCode == 200 ==>
              r.response.body == IdeasBody(IdeasFromReply(reply, parse, clock, ParseFailure).value)
    ensures r.sent.Some? && IdeasFromReply(reply, parse, clock, ParseFailure).Failure? ==>
              r.response == Response(500, ErrorBody(OrDefault(IdeasFromReply(reply, parse, clock, ParseFailure).error,
                                                               HandlerFallback)))
  {
    if httpMethod != "POST" then Outcome(Response(405, ErrorBody("Method not allowed")), None)
    else if !Truthy(apiKey) then Outcome(Response(500, ErrorBody("API key not configured")), None)
    else match body
      case Failure(e) => Outcome(Response(500, ErrorBody(OrDefault(e, HandlerFallback))), None)
      case Success(request) =>
        match request.userProfile
        case None => Outcome(Response(400, ErrorBody("User profile is required")), None)
        case Some(profile) =>
          var prompt := IdeaPrompt(profile);
          match IdeasFromReply(reply, parse, clock, ParseFailure)
          case Success(ideas) => Outcome(Response(200, IdeasBody(ideas)), Some(prompt))
          case Failure(e) => Outcome(Response(500, ErrorBody(OrDefault(e, HandlerFallback))), Some(prompt))
  }

  /** An upstream rejection or an empty answer reaches the caller as a 500
      whose body carries the thrown message. */
  lemma UpstreamErrorsReported(profile: Profile, apiKey: Option<string>, reply: Reply,
                               parse: string -> Option<ParsedReply>, clock: nat -> nat)
    requires Truthy(apiKey)
    ensures reply.Rejected? ==>
              Handle("POST", apiKey, Success(Request(Some(profile))), reply, parse, clock).response
              == Response(500, ErrorBody(ApiErrorPrefix + (if Truthy(reply.errorMessage)
                                                           then reply.errorMessage.value
                                                           else reply.statusText)))
    ensures reply.Answered? && !Truthy(reply.text) ==>
              Handle("POST", apiKey, Success(Request(Some(profile))), reply, parse, clock).response
              == Response(500, ErrorBody(NoContentMessage))
  {
  }

  /** A reply whose text has no `}` after its first `{` is a parse failure. */
  lemma MissingJsonReported(profile: Profile, apiKey: Option<string>, text: string,
                            parse: string -> Option<ParsedReply>, clock: nat -> nat)
    requires Truthy(apiKey) && text != ""
    requires forall i, j :: 0 <= i < j < |text| && text[i] == '{' ==> text[j] != '}'
    ensures Handle("POST", apiKey, Success(Request(Some(profile))), Answered(Some(text)), parse, clock).response
            == Response(500, ErrorBody(ParseFailure))
  {
    assert JsonRegion(text).None?;
  }
}

=== FILE: keywords.dfy ===
/** Derivation of search keywords from an idea's title and tags, used when a
    model reply carries no `validationKeywords` and for every fallback idea.
    The client and the idea-generation function each hold an identical copy of
    this routine; both are modelled by `ValidationKeywords`.
 */
module Keywords {
  import opened Results
  import opened Strings
  import opened Seqs

  const StopWords: seq<string> := ["saas", "tool", "platform", "app"]
  const WordSuffixes: seq<string> := [" software", " tool", " platform"]
  const TagSuffixes: seq<string> := [" software", " automation"]
  const MaxKeywords := 5

  /** A lower-cased title word becomes a keyword stem when it is longer than
      three characters and is not a generic product word. */
  predicate IsStem(w: string) {
    |w| > 3 && w !in StopWords
  }

  /** The stems of a title: its lower-cased, space-separated words that pass `IsStem`. */
  function TitleStems(title: string): (r: seq<string>)
    ensures forall w :: w in r <==> w in Split(Lower(title), ' ') && IsStem(w)
    ensures forall k :: 0 <= k < |r| ==> IsStem(r[k]) && ' ' !in r[k]
    ensures forall k :: 0 <= k < |r| ==> Lower(r[k]) == r[k]
  {
    var pieces := Split(Lower(title), ' ');
    LowerIdempotent(title);
    SplitKeepsLower(Lower(title), ' ');
    var r := Filter(pieces, IsStem);
    forall k | 0 <= k < |r|
      ensures Lower(r[k]) == r[k]
    {
      var j :| 0 <= j < |pieces| && pieces[j] == r[k];
    }
    forall w
      ensures w in r <==> w in pieces && IsStem(w)
    {
      FilterMultiset(pieces, IsStem, w);
      assert w in r <==> w in multiset(r);
      assert w in pieces <==> w in multiset(pieces);
    }
    r
  }

  /** The stems of two space-separated parts of a title are the stems of the
      first part followed by those of the second: stems keep title order. */
  lemma TitleStemsConcat(a: string, b: string)
    ensures TitleStems(a + " " + b) == TitleStems(a) + TitleStems(b)
  {
    LowerConcat(a + " ", b);
    LowerConcat(a, " ");
    assert Lower(" ") == [' '];
    SplitConcat(Lower(a), ' ', Lower(b));
    FilterConcat(Split(Lower(a), ' '), Split(Lower(b), ' '), IsStem);
  }

  /** A single word gives its lower-cased self as its only stem when it
      qualifies, and no stem otherwise. */
  lemma TitleStemsOfWord(w: string)
    requires ' ' !in w
    ensures TitleStems(w) == if IsStem(Lower(w)) then [Lower(w)] else []
  {
    LowerKeeps(w, ' ');
    SplitNone(Lower(w), ' ');
    FilterSingleton(Lower(w), IsStem);
  }

  function StemKeywords(stems: seq<string>): seq<string>
    decreases |stems|
  {
    if |stems| == 0 then []
    else [stems[0] + WordSuffixes[0], stems[0] + WordSuffixes[1], stems[0] + WordSuffixes[2]]
         + StemKeywords(stems[1..])
  }

  function TagKeywords(tags: seq<string>): seq<string>
    decreases |tags|
  {
    if |tags| == 0 then []
    else [Lower(tags[0]) + TagSuffixes[0], Lower(tags[0]) + TagSuffixes[1]]
         + TagKeywords(tags[1..])
  }

  /** The tags that contribute keywords: none when the tag list is absent. */
  function TagList(tags: Option<seq<string>>): seq<string> {
    if tags.Some? && |tags.value| > 0 then tags.value else []
  }

  /** `generateValidationKeywords(title, tags)`: every stem's three keywords,
      then every tag's two keywords, cut to the first five. */
  function ValidationKeywords(title: string, tags: Option<seq<string>>): (r: seq<string>)
    ensures |r| <= MaxKeywords
    ensures |r| == Min(MaxKeywords, 3 * |TitleStems(title)| + 2 * |TagList(tags)|)
    ensures forall k :: 0 <= k < |r| ==> r[k] == KeywordAt(TitleStems(title), TagList(tags), k)
  {
    var stems := TitleStems(title);
    var all := StemKeywords(stems) + TagKeywords(TagList(tags));
    AllKeywordsAt(stems, TagList(tags));
    Take(all, MaxKeywords)
  }

  // ---------------------------------------------------------------------
  // Reference definition: the k-th keyword, by position

  /** The `k`-th keyword of the untruncated list: position `k` belongs to stem
      `k / 3` with suffix `k % 3`, and past the stems to tag `(k - 3n) / 2`
      with suffix `(k - 3n) % 2`. */
  ghost function KeywordAt(stems: seq<string>, tags: seq<string>, k: nat): string
    requires k < 3 * |stems| + 2 * |tags|
  {
    if k < 3 * |stems| then stems[k / 3] + WordSuffixes[k % 3]
    else Lower(tags[(k - 3 * |stems|) / 2]) + TagSuffixes[(k - 3 * |stems|) % 2]
  }

  lemma {:induction false} StemKeywordsAt(stems: seq<string>)
    ensures |StemKeywords(stems)| == 3 * |stems|
    ensures forall k :: 0 <= k < 3 * |stems| ==>
              StemKeywords(stems)[k] == stems[k / 3] + WordSuffixes[k % 3]
    decreases |stems|
  {
    if |stems| > 0 {
      StemKeywordsAt(stems[1..]);
      var r := StemKeywords(stems);
      forall k | 3 <= k < 3 * |stems|
        ensures r[k] == stems[k / 3] + WordSuffixes[k % 3]
      {
        assert r[k] == StemKeywords(stems[1..])[k - 3];
        assert (k - 3) / 3 == k / 3 - 1 && (k - 3) % 3 == k % 3;
      }
    }
  }

  lemma {:induction false} TagKeywordsAt(tags: seq<string>)
    ensures |TagKeywords(tags)| == 2 * |tags|
    ensures forall k :: 0 <= k < 2 * |tags| ==>
              TagKeywords(tags)[k] == Lower(tags[k / 2]) + TagSuffixes[k % 2]
    decreases |tags|
  {
    if |tags| > 0 {
      TagKeywordsAt(tags[1..]);
      var r := TagKeywords(tags);
      forall k | 2 <= k < 2 * |tags|
        ensures r[k] == Lower(tags[k / 2]) + TagSuffixes[k % 2]
      {
        assert r[k] == TagKeywords(tags[1..])[k - 2];
        assert (k - 2) / 2 == k / 2 - 1 && (k - 2) % 2 == k % 2;
      }
    }
  }

  lemma AllKeywordsAt(stems: seq<string>, tags: seq<string>)
    ensures |StemKeywords(stems) + TagKeywords(tags)| == 3 * |stems| + 2 * |tags|
    ensures forall k :: 0 <= k < 3 * |stems| + 2 * |tags| ==>
              (StemKeywords(stems) + TagKeywords(tags))[k] == KeywordAt(stems, tags, k)
  {
    StemKeywordsAt(stems);
    TagKeywordsAt(tags);
    var a, b := StemKeywords(stems), TagKeywords(tags);
    forall k | 0 <= k < 3 * |stems| + 2 * |tags|
      ensures (a + b)[k] == KeywordAt(stems, tags, k)
    {
      if k < 3 * |stems| {
        assert (a + b)[k] == a[k];
      } else {
        assert (a + b)[k] == b[k - 3 * |stems|];
      }
    }
  }

  /** The first keyword of a title with a stem is that stem plus " software";
      with no stem, tags alone decide the keywords. */
  lemma FirstKeyword(title: string, tags: Option<seq<string>>)
    requires |TitleStems(title)| > 0
    ensures ValidationKeywords(title, tags)[0] == TitleStems(title)[0] + " software"
  {
  }

  lemma KeywordsWithoutStems(title: string, tags: Option<seq<string>>)
    requires |TitleStems(title)| == 0
    ensures ValidationKeywords(title, tags) == Take(TagKeywords(TagList(tags)), MaxKeywords)
  {
    assert StemKeywords([]) + TagKeywords(TagList(tags)) == TagKeywords(TagList(tags));
  }
}

=== FILE: mock_ideas.dfy ===
/** The fallback idea generator (`generateEnhancedMockIdeas`): up to six ideas
    built from six fixed templates by cycling through the profile's
    interests and skills. The random score and confidence and the clock
    reading of idea `i` are the parameter `draw(i)`.
 */
module MockGenerator {
  import opened Results
  import opened Strings
  import opened Seqs
  import opened Domain
  import opened Keywords

  /** `Math.floor(Math.random() * 15)`. */
  type Draw15 = x: nat | x < 15

  /** The nondeterministic inputs of one idea: the `Date.now()` reading and
      the two random draws. */
  datatype MockDraw = MockDraw(stamp: nat, score: Draw15, confidence: Draw15)

  datatype Template = Template(title: string, description: string, market: string,
                               complexity: string, timeToRevenue: string)

  const BaseScore := 85
  const MockSource := "Enhanced AI Mock"
  const MaxMockIdeas := 6

  /** `TypeError` raised by `skill.toLowerCase()` when the profile has no skills. */
  const NoSkillError := "Cannot read properties of undefined (reading 'toLowerCase')"

  const BackendMarker := "Backend"
  const MachineLearning := "Machine Learning"
  const QuickToMarket := "Quick to Market (<6 months)"
  const NoTechnicalBackground := "No Technical Background"

  /** Some skill mentions "Backend". */
  predicate HasBackendSkill(skills: seq<string>) {
    exists k :: 0 <= k < |skills| && Includes(skills[k], BackendMarker)
  }

  const InterestSlot := "{interest}"
  const SkillSlot := "{skill}"
  const TargetSlot := "{target}"

  /** The four profile facts the templates depend on. */
  datatype TemplateFacts = TemplateFacts(backend: bool, quick: bool, ml: bool, noTech: bool)

  function FactsOf(p: Profile): TemplateFacts {
    TemplateFacts(HasBackendSkill(p.skills), QuickToMarket in p.constraints,
                  MachineLearning in p.skills, NoTechnicalBackground in p.constraints)
  }

  /** The six templates for a profile. */
  function Templates(p: Profile): (r: seq<Template>)
    ensures |r| == MaxMockIdeas
  {
    TemplatesFor(FactsOf(p))
  }

  function TemplatesFor(f: TemplateFacts): (r: seq<Template>)
    ensures |r| == MaxMockIdeas
  {
    [ Template(WorkflowTitle,
               WorkflowText,
               "Medium",
               if f.backend then "Low" else "Medium",
               if f.quick then "3-4 months" else "4-6 months"),
      Template(AssistantTitle,
               AssistantText,
               "Large",
               if f.ml then "Medium" else "High",
               "6-9 months"),
      Template(DashboardTitle,
               DashboardText,
               "Medium", "Medium", "2-4 months"),
      Template(ContentTitle,
               ContentText,
               "Small", "Low", "2-3 months"),
      Template(CommunityTitle,
               CommunityText,
               "Medium", "Medium", "4-6 months"),
      Template(BuilderTitle,
               BuilderText,
               "Large",
               if f.noTech then "Low" else "Medium",
               "5-7 months") ]
  }

  // Template titles and descriptions.

  const WorkflowTitle: string := InterestSlot + " Workflow Automation for " + SkillSlot + " Teams"
  const AssistantTitle: string := "AI-Powered " + InterestSlot + " Assistant for " + TargetSlot
  const DashboardTitle: string := SkillSlot + " Dashboard for " + InterestSlot + " Analytics"
  const ContentTitle: string := "Micro-SaaS for " + InterestSlot + " Content Creation"
  const CommunityTitle: string := InterestSlot + " Community Platform with " + SkillSlot + " Features"
  const BuilderTitle: string := "No-Code " + InterestSlot + " Builder for " + TargetSlot

  const WorkflowText: string :=
    "Automate repetitive {interest} tasks using {skill} expertise. "
    + "Connect existing tools and eliminate manual data entry "
    + "for busy professionals."

  const AssistantText: string :=
    "Leverage machine learning to help {target} make better "
    + "{interest} decisions. Provides personalized "
    + "recommendations based on data analysis."

  const DashboardText: string :=
    "Beautiful, actionable dashboards that turn {interest} data "
    + "into insights. Built specifically for teams who need "
    + "{skill} capabilities."

  const ContentText: string :=
    "Simple tool that helps {interest} creators produce better "
    + "content faster. Focuses on one specific pain point in "
    + "the creation workflow."

  const CommunityText: string :=
    "Niche community platform designed specifically for "
    + "{interest} enthusiasts. Includes unique {skill}-powered "
    + "features competitors lack."

  const BuilderText: string :=
    "Drag-and-drop builder that lets {target} create custom "
    + "{interest} solutions without coding. Democratizes "
    + "{interest} tool creation."

  /** The target-audience table, keyed by interest. */
  function TargetOf(interest: string): Option<string> {
    match interest
    case "Healthcare" => Some("medical professionals")
    case "Education" => Some("educators and students")
    case "Finance" => Some("financial advisors")
    case "E-commerce" => Some("online store owners")
    case "Productivity" => Some("remote workers")
    case "Small Business" => Some("small business owners")
    case "Real Estate" => Some("real estate agents")
    case "Marketing" => Some("digital marketers")
    case "Gaming" => Some("indie game developers")
    case _ => None
  }

  /** `targets[interest] || interest.toLowerCase() + ' professionals'`. */
  function Target(interest: string): (r: string)
    ensures TargetOf(interest).Some? ==> r == TargetOf(interest).value
    ensures TargetOf(interest).None? ==> r == Lower(interest) + " professionals"
  {
    match TargetOf(interest)
    case Some(t) => t
    case None => Lower(interest) + " professionals"
  }

  /** The value table: the interests each value speaks to. */
  function ValueInterests(value: string): seq<string> {
    match value
    case "Help Small Businesses" => ["Small Business", "E-commerce", "Productivity"]
    case "Support Remote Work" => ["Productivity", "Remote Work"]
    case "Enhance Education" => ["Education"]
    case "Democratize Technology" => ["AI/ML", "Education"]
    case "Promote Health & Wellness" => ["Healthcare", "Fitness", "Mental Health"]
    case _ => []
  }

  /** The profile values whose table entry lists the interest, in profile order. */
  function MatchingValues(values: seq<string>, interest: string): (r: seq<string>)
    ensures |r| <= |values|
  {
    Filter(values, v => interest in ValueInterests(v))
  }

  /** `skills[i % skills.length] || skills[0]`. */
  function SkillFor(skills: seq<string>, i: nat): (r: string)
    requires |skills| > 0
    ensures skills[i % |skills|] != "" ==> r == skills[i % |skills|]
    ensures skills[i % |skills|] == "" ==> r == skills[0]
  {
    if skills[i % |skills|] != "" then skills[i % |skills|] else skills[0]
  }

  const ValuesLead := "Aligns with your values: "
  const NoValuesTail := "Leverages your unique skill combination."

  /** The closing sentence of the reasoning: the first two matching values
      when there are any. */
  function ReasoningTail(matching: seq<string>): string {
    if |matching| > 0 then ValuesLead + Join(Take(matching, 2), ", ") + "." else NoValuesTail
  }

  /** The opening sentence of the reasoning. */
  function ReasoningHead(interest: string, skill: string): string {
    "Perfect intersection of your " + Lower(skill) + " expertise and passion for "
      + Lower(interest) + ". "
  }

  function Reasoning(interest: string, skill: string, matching: seq<string>): string {
    ReasoningHead(interest, skill) + ReasoningTail(matching)
  }

  function Differentiator(interest: string, skill: string): string {
    "First " + Lower(interest) + " solution built specifically by " + Lower(skill)
      + " experts for " + Lower(skill) + " workflows."
  }

  /** `enhanced-${interest}-${skill}-${Date.now()}-${i}`. */
  function MockId(interest: string, skill: string, stamp: nat, i: nat): string {
    "enhanced-" + interest + "-" + skill + "-" + NatToString(stamp) + "-" + NatToString(i)
  }

  /** The title: the first `{interest}`, then the first `{skill}`, then the
      first `{target}` replaced, in that order. */
  function MockTitle(title: string, interest: string, skill: string): string {
    ReplaceFirst(ReplaceFirst(ReplaceFirst(title, InterestSlot, interest), SkillSlot, skill),
                 TargetSlot, Target(interest))
  }

  /** The description: every `{interest}` and every `{skill}` replaced by the
      lower-cased name, then the first `{target}`. */
  function MockDescription(description: string, interest: string, skill: string): string {
    ReplaceFirst(ReplaceAll(ReplaceAll(description, InterestSlot, Lower(interest)), SkillSlot, Lower(skill)),
                 TargetSlot, Target(interest))
  }

  /** Idea `i` of the batch. */
  function MockIdea(p: Profile, draw: nat -> MockDraw, i: nat): (r: Idea)
    requires |p.interests| > 0 && |p.skills| > 0 && i < MaxMockIdeas
    ensures BaseScore <= r.matchScore < BaseScore + 15
    ensures BaseScore <= r.confidence < BaseScore + 15
    ensures r.generatedBy == MockSource
  {
    var interest := p.interests[i % |p.interests|];
    var skill := SkillFor(p.skills, i);
    var t := Templates(p)[i];
    var matching := MatchingValues(p.values, interest);
    Idea(
      id := MockId(interest, skill, draw(i).stamp, i),
      title := Some(MockTitle(t.title, interest, skill)),
      description := Some(MockDescription(t.description, interest, skill)),
      market := Some(t.market),
      complexity := Some(t.complexity),
      timeToRevenue := Some(t.timeToRevenue),
      matchScore := draw(i).score + BaseScore,
      tags := [interest, skill] + Take(matching, 2),
      matchReasoning := Reasoning(interest, skill, matching),
      differentiator := Some(Differentiator(interest, skill)),
      validationKeywords := ValidationKeywords(t.title, Some([interest, skill])),
      generatedBy := MockSource,
      confidence := draw(i).confidence + BaseScore)
  }

  /** Number of ideas the loop produces: two per interest, at most six. */
  function MockCount(p: Profile): nat {
    Min(MaxMockIdeas, 2 * |p.interests|)
  }

  /** `generateEnhancedMockIdeas(profile)`. With no interests the loop does
      not run; with interests but no skills the first idea throws. */
  function MockIdeas(p: Profile, draw: nat -> MockDraw): (r: Result<seq<Idea>, string>)
    ensures r.Failure? <==> |p.interests| > 0 && |p.skills| == 0
    ensures r.Failure? ==> r.error == NoSkillError
    ensures r.Success? ==> |r.value| == MockCount(p) <= MaxMockIdeas
    ensures |p.interests| == 0 ==> r == Success([])
    ensures r.Success? ==> forall i :: 0 <= i < |r.value| ==> r.value[i] == MockIdea(p, draw, i)
  {
    if |p.interests| == 0 then Success([])
    else if |p.skills| == 0 then Failure(NoSkillError)
    else Success(seq(MockCount(p), i requires 0 <= i < MockCount(p) => MockIdea(p, draw, i)))
  }

  // ---------------------------------------------------------------------
  // Properties

  /** Idea `i` pairs interest `i mod n` with skill `i mod m` (or the first
      skill when that one is empty) on template `i`; its scores lie in
      [85, 99]. */
  lemma MockIdeaShape(p: Profile, draw: nat -> MockDraw, i: nat)
    requires MockIdeas(p, draw).Success? && i < |MockIdeas(p, draw).value|
    ensures var idea := MockIdeas(p, draw).value[i];
            var interest := p.interests[i % |p.interests|];
            var skill := SkillFor(p.skills, i);
            && idea.market == Some(Templates(p)[i].market)
            && idea.complexity == Some(Templates(p)[i].complexity)
            && idea.timeToRevenue == Some(Templates(p)[i].timeToRevenue)
            && idea.tags[..2] == [interest, skill]
            && 85 <= idea.matchScore <= 99 && 85 <= idea.confidence <= 99
  {
  }

  /** The tags are interest and skill followed by the first two profile
      values whose table entry lists the interest, in profile order. */
  lemma MockTags(p: Profile, draw: nat -> MockDraw, i: nat)
    requires MockIdeas(p, draw).Success? && i < |MockIdeas(p, draw).value|
    ensures var idea := MockIdeas(p, draw).value[i];
            var interest := p.interests[i % |p.interests|];
            && 2 <= |idea.tags| <= 4
            && |idea.tags| == 2 + Min(2, |MatchingValues(p.values, interest)|)
            && idea.tags[2..] == Take(MatchingValues(p.values, interest), 2)
            && forall k :: 2 <= k < |idea.tags| ==>
                 idea.tags[k] in p.values && interest in ValueInterests(idea.tags[k])
  {
    var idea := MockIdeas(p, draw).value[i];
    var interest := p.interests[i % |p.interests|];
    var matching := MatchingValues(p.values, interest);
    assert idea == MockIdea(p, draw, i);
    assert idea.tags == [interest, SkillFor(p.skills, i)] + Take(matching, 2);
    assert idea.tags[2..] == Take(matching, 2);
    forall k | 2 <= k < |idea.tags|
      ensures idea.tags[k] in p.values && interest in ValueInterests(idea.tags[k])
    {
      assert idea.tags[k] == matching[k - 2];
      MatchingValuesIff(p.values, interest, idea.tags[k]);
    }
  }

  /** Matching works piecewise along the value list, so the matches keep the
      order the values have in the profile. */
  lemma MatchingValuesConcat(a: seq<string>, b: seq<string>, interest: string)
    ensures MatchingValues(a + b, interest) == MatchingValues(a, interest) + MatchingValues(b, interest)
  {
    FilterConcat(a, b, v => interest in ValueInterests(v));
  }

  /** A value matches an interest exactly when it is a profile value whose
      table entry lists the interest. */
  lemma MatchingValuesIff(values: seq<string>, interest: string, v: string)
    ensures v in MatchingValues(values, interest) <==> v in values && interest in ValueInterests(v)
  {
    var r := MatchingValues(values, interest);
    if v in r {
      var k :| 0 <= k < |r| && r[k] == v;
    }
    if v in values && interest in ValueInterests(v) {
      var k :| 0 <= k < |values| && values[k] == v;
    }
  }

  /** Two joined names each occur in the sentence holding them. */
  lemma TwoNamesOccur(pre: string, a: string, b: string)
    ensures var r := pre + Join([a, b], ", ") + ".";
            Contains(r, a) && Contains(r, b)
  {
    assert [a, b][1..] == [b];
    assert Join([a, b], ", ") == a + ", " + Join([b], ", ");
    var r := pre + Join([a, b], ", ") + ".";
    assert r == pre + a + (", " + b + ".");
    ContainsMiddle(pre, a, ", " + b + ".");
    assert r == (pre + a + ", ") + b + ".";
    ContainsMiddle(pre + a + ", ", b, ".");
  }

  /** The names of the values sentence include the first two matches. */
  lemma NamesOccur(pre: string, matching: seq<string>)
    requires |matching| > 0
    ensures var r := pre + Join(Take(matching, 2), ", ") + ".";
            && Contains(r, matching[0])
            && (|matching| > 1 ==> Contains(r, matching[1]))
  {
    if |matching| == 1 {
      assert Take(matching, 2) == [matching[0]];
      ContainsMiddle(pre, matching[0], ".");
    } else {
      assert Take(matching, 2) == [matching[0], matching[1]];
      TwoNamesOccur(pre, matching[0], matching[1]);
    }
  }

  /** The values sentence after any opening names the lead and the first
      two matches. */
  lemma ValuesSentence(head: string, matching: seq<string>)
    requires |matching| > 0
    ensures var r := head + ReasoningTail(matching);
            && Contains(r, ValuesLead)
            && Contains(r, matching[0])
            && (|matching| > 1 ==> Contains(r, matching[1]))
  {
    var names := Join(Take(matching, 2), ", ");
    assert head + ReasoningTail(matching) == head + ValuesLead + (names + ".");
    ContainsMiddle(head, ValuesLead, names + ".");
    assert head + ReasoningTail(matching) == head + ValuesLead + names + ".";
    NamesOccur(head + ValuesLead, matching);
  }

  /** The opening sentence has no capital A, so it cannot hold the values lead. */
  lemma HeadHasNoCapitalA(interest: string, skill: string)
    ensures 'A' !in ReasoningHead(interest, skill)
  {
    NoUpperInLower(skill, 'A');
    NoUpperInLower(interest, 'A');
  }

  /** Without matches the reasoning closes with the skill-combination
      sentence and never mentions values. */
  lemma NoValuesSentence(interest: string, skill: string)
    ensures var r := Reasoning(interest, skill, []);
            && |NoValuesTail| <= |r| && r[|r| - |NoValuesTail|..] == NoValuesTail
            && !Contains(r, ValuesLead)
  {
    var head := ReasoningHead(interest, skill);
    var r := Reasoning(interest, skill, []);
    assert r == head + NoValuesTail;
    assert r[|r| - |NoValuesTail|..] == NoValuesTail;
    HeadHasNoCapitalA(interest, skill);
    assert 'A' !in NoValuesTail;
    assert 'A' !in r;
    NoOccurrence(r, ValuesLead);
  }

  /** The reasoning carries the values sentence exactly when some value
      matches, naming the first two matches; otherwise it closes with the
      skill-combination sentence. */
  lemma ReasoningValues(interest: string, skill: string, matching: seq<string>)
    ensures var r := Reasoning(interest, skill, matching);
            && (|matching| > 0 <==> Contains(r, ValuesLead))
            && (|matching| > 0 ==> Contains(r, matching[0]))
            && (|matching| > 1 ==> Contains(r, matching[1]))
            && (|matching| == 0 ==> |NoValuesTail| <= |r| && r[|r| - |NoValuesTail|..] == NoValuesTail)
  {
    if |matching| > 0 {
      ValuesSentence(ReasoningHead(interest, skill), matching);
    } else {
      assert matching == [];
      NoValuesSentence(interest, skill);
    }
  }

  /** So an idea's reasoning carries the values sentence exactly when some
      profile value matches the idea's interest, and then names the first
      two matching values in profile order. */
  lemma ReasoningNamesValues(p: Profile, draw: nat -> MockDraw, i: nat)
    requires MockIdeas(p, draw).Success? && i < |MockIdeas(p, draw).value|
    ensures var r := MockIdeas(p, draw).value[i].matchReasoning;
            var matching := MatchingValues(p.values, p.interests[i % |p.interests|]);
            && (|matching| > 0 <==> Contains(r, ValuesLead))
            && (|matching| > 0 ==> Contains(r, matching[0]))
            && (|matching| > 1 ==> Contains(r, matching[1]))
            && (|matching| == 0 ==> |NoValuesTail| <= |r| && r[|r| - |NoValuesTail|..] == NoValuesTail)
  {
    var interest := p.interests[i % |p.interests|];
    var skill := SkillFor(p.skills, i);
    var matching := MatchingValues(p.values, interest);
    assert MockIdeas(p, draw).value[i] == MockIdea(p, draw, i);
    assert MockIdeas(p, draw).value[i].matchReasoning == Reasoning(interest, skill, matching);
    ReasoningValues(interest, skill, matching);
  }

  /** The `{target}` placeholder falls back to the lower-cased interest plus
      " professionals" for interests outside the table. */
  lemma TargetFallback(interest: string)
    requires interest !in ["Healthcare", "Education", "Finance", "E-commerce", "Productivity",
                           "Small Business", "Real Estate", "Marketing", "Gaming"]
    ensures Target(interest) == Lower(interest) + " professionals"
  {
  }

  /** The profile-dependent template fields. */
  lemma ComplexityRules(p: Profile)
    ensures Templates(p)[0].complexity == "Low" <==> HasBackendSkill(p.skills)
    ensures Templates(p)[0].timeToRevenue == "3-4 months" <==> QuickToMarket in p.constraints
    ensures Templates(p)[1].complexity == "Medium" <==> MachineLearning in p.skills
    ensures Templates(p)[1].complexity == "High" <==> MachineLearning !in p.skills
    ensures Templates(p)[5].complexity == "Low" <==> NoTechnicalBackground in p.constraints
  {
  }

  lemma SlotsAreLowerCase()
    ensures Lower(InterestSlot) == InterestSlot && Lower(SkillSlot) == SkillSlot
  {
  }

  /** A title whose first word is a stem starts its keywords with that
      word's three keywords. */
  lemma LeadingStemKeywords(word: string, rest: string, tags: Option<seq<string>>)
    requires ' ' !in word && Lower(word) == word && IsStem(word)
    ensures var r := ValidationKeywords(word + " " + rest, tags);
            |r| >= 3 && r[..3] == [word + " software", word + " tool", word + " platform"]
  {
    var title := word + " " + rest;
    LowerConcat(word, " " + rest);
    LowerConcat(" ", rest);
    assert Lower(" ") == [' '];
    assert Lower(title) == word + [' '] + Lower(rest);
    SplitWord(word, ' ', Lower(rest));
    var pieces := Split(Lower(title), ' ');
    assert pieces == [word] + Split(Lower(rest), ' ');
    FilterConcat([word], Split(Lower(rest), ' '), IsStem);
    FilterSingleton(word, IsStem);
    assert TitleStems(title)[0] == word;
  }

  /** Keywords are derived from the template title before its placeholders
      are filled in, so a placeholder token itself becomes a keyword stem:
      the first template's keywords start with "{interest}" whatever the
      profile, interest and skill. */
  lemma WorkflowKeywordsKeepPlaceholder(interest: string, skill: string)
    ensures ValidationKeywords(WorkflowTitle, Some([interest, skill]))[..3]
            == [InterestSlot + " software", InterestSlot + " tool", InterestSlot + " platform"]
  {
    SlotsAreLowerCase();
    var rest := "Workflow Automation for " + SkillSlot + " Teams";
    assert WorkflowTitle == InterestSlot + " " + rest;
    LeadingStemKeywords(InterestSlot, rest, Some([interest, skill]));
  }

  /** The same quirk on the third template, whose title opens with "{skill}". */
  lemma DashboardKeywordsKeepPlaceholder(interest: string, skill: string)
    ensures ValidationKeywords(DashboardTitle, Some([interest, skill]))[..3]
            == [SkillSlot + " software", SkillSlot + " tool", SkillSlot + " platform"]
  {
    SlotsAreLowerCase();
    var rest := "Dashboard for " + InterestSlot + " Analytics";
    assert DashboardTitle == SkillSlot + " " + rest;
    LeadingStemKeywords(SkillSlot, rest, Some([interest, skill]));
  }

  /** So the first fallback idea of every batch carries "{interest}"
      keywords rather than the interest's name. */
  lemma FirstMockIdeaKeywords(p: Profile, draw: nat -> MockDraw)
    requires MockIdeas(p, draw).Success? && |MockIdeas(p, draw).value| > 0
    ensures MockIdeas(p, draw).value[0].validationKeywords[..3]
            == [InterestSlot + " software", InterestSlot + " tool", InterestSlot + " platform"]
  {
    var interest := p.interests[0 % |p.interests|];
    var skill := SkillFor(p.skills, 0);
    assert Templates(p)[0].title == WorkflowTitle;
    assert MockIdeas(p, draw).value[0].validationKeywords
           == ValidationKeywords(WorkflowTitle, Some([interest, skill]));
    WorkflowKeywordsKeepPlaceholder(interest, skill);
  }

  /** `{target}` never occurs in a `{target}` placeholder as `{skill}`. */
  lemma SkillSlotNotInTargetSlot()
    ensures IndexOf(TargetSlot, SkillSlot) == None
  {
    forall j ensures !OccursAt(TargetSlot, SkillSlot, j) {
      if j == 0 {
        assert TargetSlot[1] != SkillSlot[1];
      } else if j == 1 {
        assert TargetSlot[1] != SkillSlot[0];
      }
    }
  }

  /** A title with an interest slot and a later target slot, and no skill
      slot, is filled with the interest and then its target audience. */
  lemma TargetTitleFilled(before: string, middle: string, interest: string, skill: string)
    requires '{' !in before && '{' !in middle && '{' !in interest
    ensures MockTitle(before + InterestSlot + middle + TargetSlot, interest, skill)
            == before + interest + middle + Target(interest)
  {
    assert before + InterestSlot + middle + TargetSlot == before + InterestSlot + (middle + TargetSlot);
    ReplaceFirstAt(before, InterestSlot, middle + TargetSlot, interest);
    var a := before + interest + middle;
    assert before + interest + (middle + TargetSlot) == a + TargetSlot;
    IndexOfAfterPlain(a, TargetSlot, SkillSlot);
    SkillSlotNotInTargetSlot();
    assert a + TargetSlot == a + TargetSlot + "";
    ReplaceFirstAt(a, TargetSlot, "", Target(interest));
  }

  /** The second and sixth templates address the interest's target
      audience: the table's entry, or the lower-cased interest followed by
      " professionals". */
  lemma TargetTitlesFilled(interest: string, skill: string)
    requires '{' !in interest
    ensures MockTitle(AssistantTitle, interest, skill)
            == "AI-Powered " + interest + " Assistant for " + Target(interest)
    ensures MockTitle(BuilderTitle, interest, skill)
            == "No-Code " + interest + " Builder for " + Target(interest)
    ensures TargetOf(interest).None? ==> Target(interest) == Lower(interest) + " professionals"
  {
    TargetTitleFilled("AI-Powered ", " Assistant for ", interest, skill);
    TargetTitleFilled("No-Code ", " Builder for ", interest, skill);
  }

  /** With placeholder-free names, the first template's title reads
      "<interest> Workflow Automation for <skill> Teams". */
  lemma WorkflowTitleFilled(interest: string, skill: string)
    requires '{' !in interest && '{' !in skill
    ensures MockTitle(WorkflowTitle, interest, skill)
            == interest + " Workflow Automation for " + skill + " Teams"
  {
    var rest := " Workflow Automation for " + SkillSlot + " Teams";
    assert WorkflowTitle == "" + InterestSlot + rest;
    ReplaceFirstAt("", InterestSlot, rest, interest);
    var a := interest + " Workflow Automation for ";
    assert "" + interest + rest == a + SkillSlot + " Teams";
    ReplaceFirstAt(a, SkillSlot, " Teams", skill);
    ReplaceFirstAbsent(a + skill + " Teams", TargetSlot, Target(interest));
  }
}

=== FILE: onboarding.dfy ===
/** The three-step onboarding wizard: interests, then skills and
    experience, then constraints, time, building style and values. The
    current step is a plain state field of the wizard, starting at 1.

    The application context the wizard reads does not provide that field
    (see `StuckAsWritten`); the step is modelled as the state field the
    wizard evidently expects.
 */
module Onboarding {
  import opened Results
  import opened Seqs
  import opened Domain
  import opened AppContext

  const FirstStep := 1
  const LastStep := 3

  /** `nextStep()`. */
  function NextStep(step: int): (r: int)
    ensures FirstStep <= step <= LastStep ==> FirstStep <= r <= LastStep
    ensures r == step || r == step + 1
    ensures r == step + 1 <==> step < LastStep
  {
    if step < LastStep then step + 1 else step
  }

  /** `isStepValid(step)`: the answers the step asks for are given. */
  predicate IsStepValid(p: Profile, step: int) {
    match step
    case 1 => |p.interests| > 0
    case 2 => |p.skills| > 0 && p.experience != ""
    case 3 => p.timeCommitment != "" && p.buildingStyle != ""
    case _ => false
  }

  /** Continue is shown below the last step, and enabled when the step is valid. */
  predicate ContinueEnabled(p: Profile, step: int) {
    step < LastStep && IsStepValid(p, step)
  }

  /** Generate is shown from the last step on, and enabled when the step is
      valid and no generation is running. */
  predicate GenerateEnabled(p: Profile, step: int, generating: bool) {
    !(step < LastStep) && IsStepValid(p, step) && !generating
  }

  /** Continue and Generate are never enabled together, Generate only on the
      last step, and Continue is enabled exactly when pressing it moves on. */
  lemma ButtonsExclusive(p: Profile, step: int, generating: bool)
    ensures !(ContinueEnabled(p, step) && GenerateEnabled(p, step, generating))
    ensures GenerateEnabled(p, step, generating) <==>
              step == LastStep && p.timeCommitment != "" && p.buildingStyle != "" && !generating
    ensures ContinueEnabled(p, step) ==> NextStep(step) == step + 1
  {
  }

  /** The wizard's state: the step and the answers so far. */
  datatype Wizard = Wizard(step: int, profile: Profile)

  const Start := Wizard(FirstStep, EmptyProfile)

  /** What the user can do: press Continue (when enabled) or change an answer. */
  datatype Action = Continue | Answer(change: ProfileChange)

  function Apply(w: Wizard, a: Action): (r: Wizard)
    ensures a.Continue? && !ContinueEnabled(w.profile, w.step) ==> r == w
    ensures a.Answer? ==> r.step == w.step && r.profile == ChangeProfile(w.profile, a.change)
  {
    match a
    case Continue => if ContinueEnabled(w.profile, w.step) then w.(step := NextStep(w.step)) else w
    case Answer(c) => w.(profile := ChangeProfile(w.profile, c))
  }

  function Run(w: Wizard, actions: seq<Action>): Wizard
    decreases |actions|
  {
    if |actions| == 0 then w else Run(Apply(w, actions[0]), actions[1..])
  }

  /** Whatever the user does, the step never leaves 1..3 and never goes back. */
  lemma {:induction false} StepStaysInRange(w: Wizard, actions: seq<Action>)
    requires FirstStep <= w.step <= LastStep
    ensures w.step <= Run(w, actions).step <= LastStep
    decreases |actions|
  {
    if |actions| > 0 {
      StepStaysInRange(Apply(w, actions[0]), actions[1..]);
    }
  }

  /** Answering the three steps in order reaches the last step with Generate
      enabled. */
  lemma CompleteAnswersReachGenerate(interest: string, skill: string, experience: string,
                                     time: string, style: string)
    requires experience != "" && time != "" && style != ""
    ensures var w := Run(Start, [Answer(SetList(Interests, [interest])), Continue,
                                 Answer(SetList(Skills, [skill])), Answer(SetText(Experience, experience)), Continue,
                                 Answer(SetText(TimeCommitment, time)), Answer(SetText(BuildingStyle, style))]);
            w.step == LastStep && GenerateEnabled(w.profile, w.step, false)
  {
    var a := [Answer(SetList(Interests, [interest])), Continue,
              Answer(SetList(Skills, [skill])), Answer(SetText(Experience, experience)), Continue,
              Answer(SetText(TimeCommitment, time)), Answer(SetText(BuildingStyle, style))];
    var w := Start;
    var k := 0;
    while k < |a|
      invariant 0 <= k <= |a|
      invariant Run(Start, a) == Run(w, a[k..])
      invariant k >= 1 ==> w.profile.interests == [interest]
      invariant k >= 3 ==> w.profile.skills == [skill]
      invariant k >= 4 ==> w.profile.experience == experience
      invariant k == 0 ==> w == Start
      invariant 1 <= k <= 1 ==> w.step == 1
      invariant 2 <= k <= 4 ==> w.step == 2
      invariant 5 <= k ==> w.step == 3
      invariant k >= 6 ==> w.profile.timeCommitment == time
      invariant k >= 7 ==> w.profile.buildingStyle == style
    {
      assert a[k..][1..] == a[k + 1..];
      w := Apply(w, a[k]);
      k := k + 1;
    }
  }

  // ---------------------------------------------------------------------
  // Checkboxes

  /** A checkbox change on a list answer: checking appends the option,
      unchecking removes every copy of it. */
  function Toggle(items: seq<string>, option: string, checked: bool): (r: seq<string>)
    ensures checked ==> |r| == |items| + 1 && r[..|items|] == items && r[|items|] == option
    ensures !checked ==> option !in r && forall x :: x in r <==> x in items && x != option
  {
    if checked then items + [option]
    else
      var r := Filter(items, (x: string) => x != option);
      forall x
        ensures x in r <==> x in items && x != option
      {
        FilterMultiset(items, (y: string) => y != option, x);
        assert x in r <==> x in multiset(r);
        assert x in items <==> x in multiset(items);
      }
      r
  }

  /** Unchecking keeps the remaining options in order. */
  lemma UncheckKeepsOrder(a: seq<string>, b: seq<string>, option: string)
    ensures Toggle(a + b, option, false) == Toggle(a, option, false) + Toggle(b, option, false)
  {
    FilterConcat(a, b, (x: string) => x != option);
  }

  /** Checking an option that was not checked and unchecking it again
      restores the list. */
  lemma CheckThenUncheck(items: seq<string>, option: string)
    requires option !in items
    ensures Toggle(Toggle(items, option, true), option, false) == items
  {
    UncheckKeepsOrder(items, [option], option);
    FilterAll(items, (x: string) => x != option);
    FilterSingleton(option, (x: string) => x != option);
  }

  /** The change a checkbox of a list field sends to the context. */
  function CheckboxChange(p: Profile, field: ListField, option: string, checked: bool): (r: ProfileChange)
    ensures ListOf(ChangeProfile(p, r), field) == Toggle(ListOf(p, field), option, checked)
  {
    SetList(field, Toggle(ListOf(p, field), option, checked))
  }

  // ---------------------------------------------------------------------
  // The step as the application context provides it

  /** `currentOnboardingStep < 3` with the step read from the context as
      written, `None` when the context has no such field: `undefined < 3`
      compares `NaN` and is false. */
  predicate ContinueShownAsWritten(step: Option<int>) {
    match step
    case Some(n) => n < LastStep
    case None => false
  }

  /** `isStepValid(step)`: an undefined step falls through to `default`. */
  predicate IsStepValidAsWritten(p: Profile, step: Option<int>) {
    match step
    case Some(n) => IsStepValid(p, n)
    case None => false
  }

  predicate ContinueEnabledAsWritten(p: Profile, step: Option<int>) {
    ContinueShownAsWritten(step) && IsStepValidAsWritten(p, step)
  }

  /** The Generate button takes the place of Continue whenever Continue is
      not shown. */
  predicate GenerateEnabledAsWritten(p: Profile, step: Option<int>, generating: bool) {
    !ContinueShownAsWritten(step) && IsStepValidAsWritten(p, step) && !generating
  }

  /** For a defined step the wizard as written behaves as modelled above. */
  lemma AsWrittenAgreesOnDefinedSteps(p: Profile, n: int, generating: bool)
    ensures ContinueEnabledAsWritten(p, Some(n)) == ContinueEnabled(p, n)
    ensures GenerateEnabledAsWritten(p, Some(n), generating) == GenerateEnabled(p, n, generating)
  {
  }

  /** With the step `undefined`, Continue is not shown, so the Generate
      button is; the step is not valid, so Generate is disabled: no profile
      lets the user leave the wizard. */
  lemma StuckAsWritten(p: Profile, generating: bool)
    ensures !ContinueShownAsWritten(None)
    ensures !IsStepValidAsWritten(p, None)
    ensures !ContinueEnabledAsWritten(p, None)
    ensures !GenerateEnabledAsWritten(p, None, generating)
  {
  }
}

=== FILE: prompts.dfy ===
/** The prompt builders: pure string templates that turn a profile (for idea
    generation) or an idea (for one of four insight types) into the
    instruction text sent to the generative model. Each embeds its inputs on
    labelled lines and ends with the JSON schema the reply must follow.
 */
module Prompts {
  import opened Results
  import opened Strings
  import opened Domain

  /** One labelled line of a prompt, together with the line break before it. */
  function Line(name: string, value: string): string {
    "\n" + name + ": " + value
  }

  const ListSeparator := ", "

  /** `constructGeminiPrompt(userProfile)`. */
  function IdeaPrompt(p: Profile): string {
    Concat([IdeaIntro,
            Line("SKILLS", Join(p.skills, ListSeparator)),
            Line("INTERESTS", Join(p.interests, ListSeparator)),
            Line("CONSTRAINTS", Join(p.constraints, ListSeparator)),
            Line("VALUES", Join(p.values, ListSeparator)),
            Line("EXPERIENCE", p.experience),
            Line("TIME COMMITMENT", p.timeCommitment),
            Line("BUILDING STYLE", p.buildingStyle),
            IdeaInstructions])
  }

  /** The idea fields an insight prompt reads. Each may be missing from the
      request body. */
  datatype InsightIdea = InsightIdea(
    title: Option<string>,
    description: Option<string>,
    market: Option<string>,
    complexity: Option<string>,
    timeToRevenue: Option<string>,
    tags: Option<seq<string>>)

  function InsightIdeaOf(idea: Idea): InsightIdea {
    InsightIdea(idea.title, idea.description, idea.market,
                idea.complexity, idea.timeToRevenue, Some(idea.tags))
  }

  /** A template literal renders a missing field as the text `undefined`;
      `None` here always stands for a missing field. */
  function Show(v: Option<string>): string {
    match v
    case Some(s) => s
    case None => "undefined"
  }

  /** `idea.tags?.join(', ') || 'N/A'`. */
  function TagsText(tags: Option<seq<string>>): string {
    var joined := if tags.Some? then Join(tags.value, ListSeparator) else "";
    if joined != "" then joined else "N/A"
  }

  /** `constructTargetAudiencePrompt(idea)`. */
  function AudiencePrompt(i: InsightIdea): string {
    Concat([AudienceIntro,
            Line("Title", Show(i.title)),
            Line("Description", Show(i.description)),
            Line("Market", Show(i.market)),
            Line("Tags", TagsText(i.tags)),
            AudienceInstructions])
  }

  /** `constructMonetizationPrompt(idea)`. */
  function MonetizationPrompt(i: InsightIdea): string {
    Concat([MonetizationIntro,
            Line("Title", Show(i.title)),
            Line("Description", Show(i.description)),
            Line("Market", Show(i.market)),
            Line("Complexity", Show(i.complexity)),
            Line("Tags", TagsText(i.tags)),
            MonetizationInstructions])
  }

  /** `constructRoadmapPrompt(idea)`. */
  function RoadmapPrompt(i: InsightIdea): string {
    Concat([RoadmapIntro,
            Line("Title", Show(i.title)),
            Line("Description", Show(i.description)),
            Line("Complexity", Show(i.complexity)),
            Line("Time to Revenue", Show(i.timeToRevenue)),
            Line("Tags", TagsText(i.tags)),
            RoadmapInstructions])
  }

  /** `constructCompetitorAndRiskAnalysisPrompt(idea)`: the title is quoted in
      the opening sentence and repeated on its labelled line. */
  function CompetitorPrompt(i: InsightIdea): string {
    Concat([CompetitorOpening,
            Show(i.title),
            CompetitorIntro,
            Line("Title", Show(i.title)),
            Line("Description", Show(i.description)),
            Line("Market", Show(i.market)),
            Line("Tags", TagsText(i.tags)),
            CompetitorInstructions])
  }

  // ---------------------------------------------------------------------
  // Properties

  /** The idea prompt asks for six ideas and carries every profile answer on
      its own labelled line: list answers joined by ", ", the three single
      answers verbatim. */
  lemma IdeaPromptEmbedsProfile(p: Profile)
    ensures Contains(IdeaPrompt(p), IdeaCountRequest)
    ensures Contains(IdeaPrompt(p), Line("SKILLS", Join(p.skills, ListSeparator)) + "\n")
    ensures Contains(IdeaPrompt(p), Line("INTERESTS", Join(p.interests, ListSeparator)) + "\n")
    ensures Contains(IdeaPrompt(p), Line("CONSTRAINTS", Join(p.constraints, ListSeparator)) + "\n")
    ensures Contains(IdeaPrompt(p), Line("VALUES", Join(p.values, ListSeparator)) + "\n")
    ensures Contains(IdeaPrompt(p), Line("EXPERIENCE", p.experience) + "\n")
    ensures Contains(IdeaPrompt(p), Line("TIME COMMITMENT", p.timeCommitment) + "\n")
    ensures Contains(IdeaPrompt(p), Line("BUILDING STYLE", p.buildingStyle) + "\n")
  {
    var parts := [IdeaIntro,
                  Line("SKILLS", Join(p.skills, ListSeparator)),
                  Line("INTERESTS", Join(p.interests, ListSeparator)),
                  Line("CONSTRAINTS", Join(p.constraints, ListSeparator)),
                  Line("VALUES", Join(p.values, ListSeparator)),
                  Line("EXPERIENCE", p.experience),
                  Line("TIME COMMITMENT", p.timeCommitment),
                  Line("BUILDING STYLE", p.buildingStyle),
                  IdeaInstructions];
    ContainsMiddle("You are an expert SaaS idea generator and startup advisor. ", IdeaCountRequest,
                   " for this user profile:\n");
    ContainsPart(parts, 0, IdeaCountRequest);
    assert IdeaInstructions[0] == '\n';
    assert IdeaPrompt(p) == Concat(parts);
    PartBeforeBreak(parts, 1);
    PartBeforeBreak(parts, 2);
    PartBeforeBreak(parts, 3);
    PartBeforeBreak(parts, 4);
    PartBeforeBreak(parts, 5);
    PartBeforeBreak(parts, 6);
    PartBeforeBreak(parts, 7);
  }

  /** When the tags are present and do not join to the empty string, the Tags
      line shows them joined by ", "; otherwise it shows "N/A". The join is
      empty exactly for an absent list, `[]` and `[""]`. */
  lemma TagsTextCases(tags: Option<seq<string>>)
    ensures TagsText(tags) == "N/A" <==>
              tags.None? || tags.value == [] || tags.value == [""]
              || Join(tags.value, ListSeparator) == "N/A"
    ensures TagsText(tags) != "N/A" ==> TagsText(tags) == Join(tags.value, ListSeparator)
  {
    if tags.Some? {
      JoinEmpty(tags.value, ListSeparator);
    }
  }

  /** The target-audience prompt carries the idea's title and tags on their
      labelled lines. */
  lemma AudiencePromptEmbedsIdea(i: InsightIdea)
    ensures Contains(AudiencePrompt(i), Line("Title", Show(i.title)) + "\n")
    ensures Contains(AudiencePrompt(i), Line("Tags", TagsText(i.tags)) + "\n")
  {
    var parts := [AudienceIntro, Line("Title", Show(i.title)), Line("Description", Show(i.description)),
                  Line("Market", Show(i.market)), Line("Tags", TagsText(i.tags)), AudienceInstructions];
    assert AudiencePrompt(i) == Concat(parts);
    assert AudienceInstructions[0] == '\n';
    PartBeforeBreak(parts, 1);
    PartBeforeBreak(parts, 4);
  }

  /** The monetization prompt carries the idea's title, complexity and tags on
      their labelled lines. */
  lemma MonetizationPromptEmbedsIdea(i: InsightIdea)
    ensures Contains(MonetizationPrompt(i), Line("Title", Show(i.title)) + "\n")
    ensures Contains(MonetizationPrompt(i), Line("Complexity", Show(i.complexity)) + "\n")
    ensures Contains(MonetizationPrompt(i), Line("Tags", TagsText(i.tags)) + "\n")
  {
    var parts := [MonetizationIntro, Line("Title", Show(i.title)), Line("Description", Show(i.description)),
                  Line("Market", Show(i.market)), Line("Complexity", Show(i.complexity)),
                  Line("Tags", TagsText(i.tags)), MonetizationInstructions];
    assert MonetizationPrompt(i) == Concat(parts);
    assert MonetizationInstructions[0] == '\n';
    PartBeforeBreak(parts, 1);
    PartBeforeBreak(parts, 4);
    PartBeforeBreak(parts, 5);
  }

  /** The roadmap prompt carries the idea's title, time to revenue and tags on
      their labelled lines. */
  lemma RoadmapPromptEmbedsIdea(i: InsightIdea)
    ensures Contains(RoadmapPrompt(i), Line("Title", Show(i.title)) + "\n")
    ensures Contains(RoadmapPrompt(i), Line("Time to Revenue", Show(i.timeToRevenue)) + "\n")
    ensures Contains(RoadmapPrompt(i), Line("Tags", TagsText(i.tags)) + "\n")
  {
    var parts := [RoadmapIntro, Line("Title", Show(i.title)), Line("Description", Show(i.description)),
                  Line("Complexity", Show(i.complexity)),
                  Line("Time to Revenue", Show(i.timeToRevenue)), Line("Tags", TagsText(i.tags)),
                  RoadmapInstructions];
    assert RoadmapPrompt(i) == Concat(parts);
    assert RoadmapInstructions[0] == '\n';
    PartBeforeBreak(parts, 1);
    PartBeforeBreak(parts, 4);
    PartBeforeBreak(parts, 5);
  }

  /** The competitor prompt carries the title and tags on their labelled
      lines and also quotes the title in its opening sentence, so the title
      occurs twice, the second time after the first has ended. */
  lemma CompetitorPromptEmbedsIdea(i: InsightIdea)
    ensures Contains(CompetitorPrompt(i), Line("Title", Show(i.title)) + "\n")
    ensures Contains(CompetitorPrompt(i), Line("Tags", TagsText(i.tags)) + "\n")
    ensures exists k1, k2 :: k1 + |Show(i.title)| < k2
                             && OccursAt(CompetitorPrompt(i), Show(i.title), k1)
                             && OccursAt(CompetitorPrompt(i), Show(i.title), k2)
  {
    var parts := [CompetitorOpening, Show(i.title), CompetitorIntro, Line("Title", Show(i.title)),
                  Line("Description", Show(i.description)), Line("Market", Show(i.market)),
                  Line("Tags", TagsText(i.tags)), CompetitorInstructions];
    assert CompetitorPrompt(i) == Concat(parts);
    assert CompetitorInstructions[0] == '\n';
    PartBeforeBreak(parts, 3);
    PartBeforeBreak(parts, 6);
    assert |CompetitorIntro| > 0;
    TitleTwice(parts, Show(i.title));
  }

  lemma TitleTwice(parts: seq<string>, t: string)
    requires |parts| == 8 && parts[1] == t && parts[3] == Line("Title", t)
    requires |parts[2]| > 0
    ensures exists k1, k2 :: k1 + |t| < k2 && OccursAt(Concat(parts), t, k1) && OccursAt(Concat(parts), t, k2)
  {
    assert OccursAt(parts[1], t, 0);
    OccursInPart(parts, 1, t, 0);
    var prefix := "\nTitle: ";
    assert |prefix| == 8;
    assert parts[3] == prefix + t;
    assert OccursAt(parts[3], t, 8) by {
      assert parts[3][8..8 + |t|] == t;
    }
    OccursInPart(parts, 3, t, 8);
    assert parts[..3] == parts[..1] + [t, parts[2]];
    assert |Concat(parts[..3])| == |Concat(parts[..1])| + |t| + |parts[2]| by {
      ConcatSplit(parts[..3], 1);
      assert parts[..3][..1] == parts[..1];
      assert parts[..3][2..] == [parts[2]];
      assert Concat([parts[2]]) == parts[2] + Concat([]);
    }
  }

  // ---------------------------------------------------------------------
  // Fixed instruction text

  /** Opening of the idea-generation prompt; it asks for six ideas. */
  const IdeaIntro: string :=
    "You are an expert SaaS idea generator and startup advisor. " + IdeaCountRequest + " for this user profile:\n"

  const IdeaCountRequest: string := "Generate 6 highly personalized SaaS business ideas"

  /** Closing of the idea-generation prompt: what to provide for each idea and the JSON schema of the reply. */
  const IdeaInstructions: string :=
    "\n" + (
      "\n" +
      "For each idea, provide:\n" +
      "1. A compelling title that combines their skills/interests uniquely\n" +
      "2. A 2-sentence description focusing on the specific problem and solution\n" +
      "3. Target market size (Small/Medium/Large)\n" +
      "4. Technical complexity (Low/Medium/High)\n" +
      "5. Time to first revenue (in months)\n" +
      "6. Why this matches their profile specifically\n" +
      "7. 3-5 relevant tags\n" +
      "8. A unique differentiator that leverages their specific combination\n" +
      "\n" +
      "Focus on:\n" +
      "- Micro-SaaS opportunities ($5K-$50K ARR potential)\n" +
      "- Problems they've likely experienced personally\n" +
      "- Ideas that can be validated quickly\n" +
      "- Solutions that don't require huge teams or funding\n" +
      "- Opportunities in growing but not oversaturated markets\n" +
      "\n" +
      "Return ONLY valid JSON in this exact format:\n" +
      "{\n" +
      "  \"ideas\": [\n" +
      "    {\n" +
      "      \"title\": \"string\",\n" +
      "      \"description\": \"string\",\n" +
      "      \"market\": \"Small|Medium|Large\",\n" +
      "      \"complexity\": \"Low|Medium|High\",\n" +
      "      \"timeToRevenue\": \"string\",\n" +
      "      \"matchReasoning\": \"string\",\n" +
      "      \"tags\": [\"string\"],\n" +
      "      \"differentiator\": \"string\",\n" +
      "      \"validationKeywords\": [\"string\"]\n" +
      "    }\n" +
      "  ]\n" +
      "}")

  /** Opening of the target-audience persona prompt. */
  const AudienceIntro: string :=
    "You are an expert market researcher and business analyst. Create a detailed target audience persona for this SaaS business idea:\n" +
    "\n" +
    "BUSINESS IDEA:"

  /** Closing of the target-audience persona prompt: the requested analysis and the JSON schema of the reply. */
  const AudienceInstructions: string :=
    "\n" + (
      "\n" +
      "Generate a realistic target audience persona with these details:\n" +
      "\n" +
      "1. PERSONA PROFILE:\n" +
      "   - A memorable name and job title (e.g., \"Marketing Manager Mary\" or \"Solo Developer Sarah\")\n" +
      "   - Age range and professional background\n" +
      "   - Company size they typically work for\n" +
      "   - Technical skill level (Beginner/Intermediate/Advanced)\n" +
      "\n" +
      "2. DEMOGRAPHICS:\n" +
      "   - Industry they work in\n" +
      "   - Years of experience in their role\n" +
      "   - Team size they manage or work with\n" +
      "   - Annual budget they control or influence\n" +
      "\n" +
      "3. KEY PAIN POINTS:\n" +
      "   - 3-4 specific problems this persona faces that the idea would solve\n" +
      "   - Current workarounds or tools they use (and their limitations)\n" +
      "   - Impact of these problems on their work/business\n" +
      "\n" +
      "4. GOALS & MOTIVATIONS:\n" +
      "   - What they're trying to achieve professionally\n" +
      "   - How success is measured in their role\n" +
      "   - What would make them consider adopting a new tool\n" +
      "\n" +
      "5. BUYING BEHAVIOR:\n" +
      "   - How they discover new tools\n" +
      "   - Who else is involved in purchase decisions\n" +
      "   - What factors influence their buying decisions\n" +
      "   - Typical budget range for tools like this\n" +
      "   - Where they hang out online (specific subreddits, LinkedIn groups, forums, Slack communities)\n" +
      "\n" +
      "6. DAY IN THE LIFE:\n" +
      "   - A brief narrative (2-3 sentences) of their typical workday, highlighting their key struggles and frustrations\n" +
      "\n" +
      "Return ONLY valid JSON in this exact format:\n" +
      "{\n" +
      "  \"persona\": {\n" +
      "    \"name\": \"string\",\n" +
      "    \"jobTitle\": \"string\",\n" +
      "    \"ageRange\": \"string\",\n" +
      "    \"background\": \"string\",\n" +
      "    \"companySize\": \"string\",\n" +
      "    \"techSkillLevel\": \"string\"\n" +
      "  },\n" +
      "  \"demographics\": {\n" +
      "    \"industry\": \"string\",\n" +
      "    \"experience\": \"string\",\n" +
      "    \"teamSize\": \"string\",\n" +
      "    \"budgetInfluence\": \"string\"\n" +
      "  },\n" +
      "  \"painPoints\": [\n" +
      "    {\n" +
      "      \"problem\": \"string\",\n" +
      "      \"currentSolution\": \"string\",\n" +
      "      \"impact\": \"string\"\n" +
      "    }\n" +
      "  ],\n" +
      "  \"goals\": {\n" +
      "    \"primaryGoal\": \"string\",\n" +
      "    \"successMetrics\": [\"string\"],\n" +
      "    \"adoptionMotivators\": [\"string\"]\n" +
      "  },\n" +
      "  \"buyingBehavior\": {\n" +
      "    \"discoveryChannels\": [\"string\"],\n" +
      "    \"decisionMakers\": [\"string\"],\n" +
      "    \"buyingFactors\": [\"string\"],\n" +
      "    \"budgetRange\": \"string\",\n" +
      "    \"wateringHoles\": [\"string\"]\n" +
      "  },\n" +
      "  \"dayInTheLife\": \"string\"\n" +
      "}")

  /** Opening of the monetization strategy prompt. */
  const MonetizationIntro: string :=
    "You are an expert SaaS pricing strategist and business model consultant. Create a comprehensive monetization strategy for this SaaS business idea:\n" +
    "\n" +
    "BUSINESS IDEA:"

  /** Closing of the monetization strategy prompt: the requested analysis and the JSON schema of the reply. */
  const MonetizationInstructions: string :=
    "\n" + (
      "\n" +
      "Generate a detailed monetization strategy with these components:\n" +
      "\n" +
      "1. PRIMARY MODEL:\n" +
      "   - Recommended pricing model (Subscription, Usage-based, One-time, Freemium, etc.)\n" +
      "   - Justification for why this model fits best\n" +
      "\n" +
      "2. PRICING TIERS:\n" +
      "   - 3 pricing tiers (e.g., Starter, Professional, Enterprise)\n" +
      "   - Monthly price for each tier\n" +
      "   - Key features included in each tier\n" +
      "   - Target customer segment for each tier\n" +
      "\n" +
      "3. PRICING STRATEGY:\n" +
      "   - Value metric (what you charge based on)\n" +
      "   - Pricing psychology considerations\n" +
      "   - Competitive positioning\n" +
      "\n" +
      "4. SECONDARY REVENUE STREAMS:\n" +
      "   - 2-3 additional ways to generate revenue\n" +
      "   - Revenue potential for each stream\n" +
      "\n" +
      "5. FINANCIAL PROJECTIONS:\n" +
      "   - Estimated monthly recurring revenue (MRR) targets for Year 1\n" +
      "   - Industry-typical customer acquisition cost (CAC) with research-based ranges\n" +
      "   - More detailed customer lifetime value (LTV) calculation methodology\n" +
      "   - Realistic time to profitability assessment\n" +
      "\n" +
      "Return ONLY valid JSON in this exact format:\n" +
      "{\n" +
      "  \"primaryModel\": {\n" +
      "    \"type\": \"string\",\n" +
      "    \"justification\": \"string\"\n" +
      "  },\n" +
      "  \"pricingTiers\": [\n" +
      "    {\n" +
      "      \"name\": \"string\",\n" +
      "      \"monthlyPrice\": \"string\",\n" +
      "      \"features\": [\"string\"],\n" +
      "      \"targetSegment\": \"string\"\n" +
      "    }\n" +
      "  ],\n" +
      "  \"pricingStrategy\": {\n" +
      "    \"valueMetric\": \"string\",\n" +
      "    \"psychology\": \"string\",\n" +
      "    \"positioning\": \"string\"\n" +
      "  },\n" +
      "  \"secondaryStreams\": [\n" +
      "    {\n" +
      "      \"name\": \"string\",\n" +
      "      \"description\": \"string\",\n" +
      "      \"revenueEstimate\": \"string\"\n" +
      "    }\n" +
      "  ],\n" +
      "  \"projections\": {\n" +
      "    \"year1MRR\": \"string\",\n" +
      "    \"industryAverageCAC\": \"string\",\n" +
      "    \"customerLTV\": \"string\",\n" +
      "    \"timeToProfitability\": \"string\"\n" +
      "  }\n" +
      "}")

  /** Opening of the technical roadmap prompt. */
  const RoadmapIntro: string :=
    "You are an experienced product manager and technical lead. Create a detailed technical roadmap for building this SaaS product:\n" +
    "\n" +
    "BUSINESS IDEA:"

  /** Closing of the technical roadmap prompt: the requested analysis and the JSON schema of the reply. */
  const RoadmapInstructions: string :=
    "\n" + (
      "\n" +
      "Generate a phased technical roadmap with these details:\n" +
      "\n" +
      "1. MVP (MINIMUM VIABLE PRODUCT):\n" +
      "   - Timeline (weeks/months)\n" +
      "   - Core features that must be included\n" +
      "   - Technology stack recommendations\n" +
      "   - Key technical decisions\n" +
      "\n" +
      "2. PHASE 2 (POST-MVP):\n" +
      "   - Timeline from MVP launch\n" +
      "   - Additional features to build\n" +
      "   - Technical improvements\n" +
      "   - Scaling considerations\n" +
      "\n" +
      "3. PHASE 3 (GROWTH):\n" +
      "   - Timeline from Phase 2\n" +
      "   - Advanced features\n" +
      "   - Integrations and partnerships\n" +
      "   - Enterprise features\n" +
      "\n" +
      "4. TECHNICAL CONSIDERATIONS:\n" +
      "   - Frontend framework recommendations\n" +
      "   - Backend architecture\n" +
      "   - Database choices\n" +
      "   - Third-party integrations needed\n" +
      "   - Security requirements\n" +
      "\n" +
      "5. RESOURCE REQUIREMENTS:\n" +
      "   - Team composition for each phase\n" +
      "   - Estimated development hours\n" +
      "   - Key technical skills needed\n" +
      "   - Budget considerations\n" +
      "\n" +
      "Return ONLY valid JSON in this exact format:\n" +
      "{\n" +
      "  \"mvp\": {\n" +
      "    \"timeline\": \"string\",\n" +
      "    \"coreFeatures\": [\"string\"],\n" +
      "    \"techStack\": {\n" +
      "      \"frontend\": \"string\",\n" +
      "      \"backend\": \"string\",\n" +
      "      \"database\": \"string\"\n" +
      "    },\n" +
      "    \"keyDecisions\": [\"string\"]\n" +
      "  },\n" +
      "  \"phase2\": {\n" +
      "    \"timeline\": \"string\",\n" +
      "    \"features\": [\"string\"],\n" +
      "    \"improvements\": [\"string\"],\n" +
      "    \"scalingNotes\": \"string\"\n" +
      "  },\n" +
      "  \"phase3\": {\n" +
      "    \"timeline\": \"string\",\n" +
      "    \"advancedFeatures\": [\"string\"],\n" +
      "    \"integrations\": [\"string\"],\n" +
      "    \"enterpriseFeatures\": [\"string\"]\n" +
      "  },\n" +
      "  \"technicalConsiderations\": {\n" +
      "    \"architecture\": \"string\",\n" +
      "    \"thirdPartyServices\": [\"string\"],\n" +
      "    \"securityRequirements\": [\"string\"],\n" +
      "    \"performanceGoals\": [\"string\"]\n" +
      "  },\n" +
      "  \"resourceRequirements\": {\n" +
      "    \"mvpTeam\": [\"string\"],\n" +
      "    \"developmentHours\": \"string\",\n" +
      "    \"keySkills\": [\"string\"],\n" +
      "    \"budgetRange\": \"string\"\n" +
      "  }\n" +
      "}")

  /** Opening of the competitor and risk analysis prompt, before the quoted title. */
  const CompetitorOpening: string :=
    "You are a startup strategist and market analyst. For the business idea \""

  /** Rest of the competitor and risk analysis opening, after the quoted title. */
  const CompetitorIntro: string :=
    "\", provide a deep competitor and risk analysis.\n" +
    "\n" +
    "BUSINESS IDEA:"

  /** Closing of the competitor and risk analysis prompt: the requested analysis and the JSON schema of the reply. */
  const CompetitorInstructions: string :=
    "\n" + (
      "\n" +
      "Generate a comprehensive analysis with these components:\n" +
      "\n" +
      "1. TOP COMPETITORS:\n" +
      "   - Identify 3-5 key competitors (direct and indirect)\n" +
      "   - For each competitor, provide their URL and a SWOT analysis focusing on:\n" +
      "     * One key strength they have\n" +
      "     * One exploitable weakness you've identified\n" +
      "\n" +
      "2. USER SENTIMENT ANALYSIS:\n" +
      "   - Research common complaints users have about existing solutions\n" +
      "   - Identify what users consistently praise about current tools\n" +
      "   - Focus on patterns that reveal market gaps\n" +
      "\n" +
      "3. KEY RISKS & MITIGATION:\n" +
      "   - Identify 3-4 major risks this business idea faces\n" +
      "   - For each risk, provide a specific, actionable mitigation strategy\n" +
      "   - Consider market saturation, customer acquisition challenges, technical barriers, and competitive threats\n" +
      "\n" +
      "Return ONLY valid JSON in this exact format:\n" +
      "{\n" +
      "  \"topCompetitors\": [\n" +
      "    {\n" +
      "      \"name\": \"string\",\n" +
      "      \"url\": \"string\", \n" +
      "      \"swot\": {\n" +
      "        \"strength\": \"string\",\n" +
      "        \"weakness\": \"string\"\n" +
      "      }\n" +
      "    }\n" +
      "  ],\n" +
      "  \"aggregatedUserSentiment\": {\n" +
      "    \"commonComplaints\": [\"string\"],\n" +
      "    \"positiveKeywords\": [\"string\"]\n" +
      "  },\n" +
      "  \"keyRisks\": [\n" +
      "    {\n" +
      "      \"risk\": \"string\",\n" +
      "      \"mitigation\": \"string\"\n" +
      "    }\n" +
      "  ]\n" +
      "}")
}

=== FILE: results.dfy ===
/** Failure-carrying datatypes shared by every module of the model.

    `Option` stands for a JavaScript value that may be `undefined` or `null`;
    `Result` stands for a computation that either returns or throws an `Error`
    whose message is the `error` string.
 */
module Results {

  datatype Option<+T> = None | Some(value: T) {

    /** The carried value, or `default` when absent (JavaScript `x ?? default`). */
    function GetOr(default: T): T {
      match this
      case Some(v) => v
      case None => default
    }
  }

  datatype Result<+T, +E> = Success(value: T) | Failure(error: E)

  /** JavaScript truthiness of an optional string: present and non-empty. */
  predicate Truthy(s: Option<string>) {
    s.Some? && s.value != ""
  }

  /** JavaScript `a || b` on optional strings. */
  function OrElse(a: Option<string>, b: Option<string>): (r: Option<string>)
    ensures Truthy(a) ==> r == a
    ensures !Truthy(a) ==> r == b
  {
    if Truthy(a) then a else b
  }

  /** JavaScript `msg || fallback` on a string that is always present. */
  function OrDefault(msg: string, fallback: string): (r: string)
    ensures fallback != "" ==> r != ""
    ensures msg != "" ==> r == msg
  {
    if msg != "" then msg else fallback
  }
}

=== FILE: save_idea.dfy ===
/** The save-idea function: guards, then one insert of a row built from the
    idea. The store is a table of rows; an insert either appends its row and
    returns it, or fails with the store's error.
 */
module SaveIdeaHandler {
  import opened Results
  import opened Domain

  /** A row of the saved-ideas table. `tags` is null when the column holds
      none; `savedAt` is the save time in milliseconds (its ISO-8601 text
      form orders the same way). */
  datatype Row = Row(
    userId: string,
    ideaId: string,
    title: Option<string>,
    description: Option<string>,
    market: Option<string>,
    complexity: Option<string>,
    timeToRevenue: Option<string>,
    matchScore: int,
    tags: Option<seq<string>>,
    matchReasoning: string,
    confidence: int,
    generatedBy: string,
    savedAt: int)

  /** The insert: `user_id` from the request, `idea_id` and the ten
      descriptive columns from the idea, `saved_at` from the clock. */
  function ToRow(userId: string, idea: Idea, now: int): (r: Row)
    ensures r.userId == userId && r.ideaId == idea.id && r.savedAt == now
    ensures r.title == idea.title && r.description == idea.description && r.market == idea.market
    ensures r.complexity == idea.complexity && r.timeToRevenue == idea.timeToRevenue
    ensures r.matchScore == idea.matchScore && r.tags == Some(idea.tags)
    ensures r.matchReasoning == idea.matchReasoning && r.confidence == idea.confidence
    ensures r.generatedBy == idea.generatedBy
  {
    Row(userId, idea.id, idea.title, idea.description, idea.market, idea.complexity,
        idea.timeToRevenue, idea.matchScore, Some(idea.tags), idea.matchReasoning,
        idea.confidence, idea.generatedBy, now)
  }

  /** The differentiator and the validation keywords are not stored: two
      ideas that differ only there give the same row. */
  lemma RowForgetsUnstoredFields(userId: string, idea: Idea, now: int,
                                 differentiator: Option<string>, keywords: seq<string>)
    ensures ToRow(userId, idea.(differentiator := differentiator, validationKeywords := keywords), now)
            == ToRow(userId, idea, now)
  {
  }

  /** Two ideas with the same row agree on every stored field. */
  lemma RowDeterminesStoredFields(u1: string, i1: Idea, t1: int, u2: string, i2: Idea, t2: int)
    requires ToRow(u1, i1, t1) == ToRow(u2, i2, t2)
    ensures u1 == u2 && t1 == t2
    ensures i1.(differentiator := i2.differentiator, validationKeywords := i2.validationKeywords) == i2
  {
  }

  /** The request body after `JSON.parse`; either field may be missing. */
  datatype SaveRequest = SaveRequest(idea: Option<Idea>, userId: Option<string>)

  /** An error the store reports. */
  datatype StoreError = StoreError(message: Option<string>, code: Option<string>)

  datatype SaveBody =
    | PlainText(text: string)
    | ErrorBody(error: string)
    | StoreFailure(error: string, details: Option<string>, code: Option<string>)
    | SavedBody(savedIdea: Row)

  /** The handler returned a response and left the table as given, or it
      threw before reaching its `try` (no response is built). */
  datatype SaveOutcome =
    | Replied(response: Response<SaveBody>, table: seq<Row>)
    | Crashed(message: string)

  const ConfigError := "Server configuration error."
  const MissingInput := "Missing idea or userId."
  const SaveFailed := "Failed to save idea."

  /** The request passed every guard and reaches the insert. */
  predicate Accepted(httpMethod: string, body: Result<SaveRequest, string>, url: Option<string>,
                     key: Option<string>) {
    && httpMethod == "POST" && body.Success? && Truthy(url) && Truthy(key)
    && body.value.idea.Some? && Truthy(body.value.userId)
  }

  /** The handler. `body` is `JSON.parse(event.body)` or the message of the
      error it threw, which escapes the handler since the parse is outside
      the `try`; `storeError` is what the insert reports, if anything. */
  function HandleSave(httpMethod: string, body: Result<SaveRequest, string>, url: Option<string>,
                      key: Option<string>, table: seq<Row>, now: int,
                      storeError: Option<StoreError>): (r: SaveOutcome)
    ensures httpMethod != "POST" ==> r == Replied(Response(405, PlainText("Method Not Allowed")), table)
    ensures httpMethod == "POST" && body.Failure? ==> r == Crashed(body.error)
    ensures httpMethod == "POST" && body.Success? && (!Truthy(url) || !Truthy(key)) ==>
              r == Replied(Response(500, ErrorBody(ConfigError)), table)
    ensures httpMethod == "POST" && body.Success? && Truthy(url) && Truthy(key)
            && (body.value.idea.None? || !Truthy(body.value.userId)) ==>
              r == Replied(Response(400, ErrorBody(MissingInput)), table)
    ensures Accepted(httpMethod, body, url, key) && storeError.Some? ==>
              r == Replied(Response(500, StoreFailure(SaveFailed, storeError.value.message, storeError.value.code)),
                           table)
    ensures Accepted(httpMethod, body, url, key) && storeError.None? ==>
              var row := ToRow(body.value.userId.value, body.value.idea.value, now);
              r == Replied(Response(200, SavedBody(row)), table + [row])
    ensures r.Replied? && r.table != table <==> r.Replied? && r.response.statusCode == 200
  {
    if httpMethod != "POST" then Replied(Response(405, PlainText("Method Not Allowed")), table)
    else match body
      case Failure(e) => Crashed(e)
      case Success(request) =>
        if !Truthy(url) || !Truthy(key) then Replied(Response(500, ErrorBody(ConfigError)), table)
        else if request.idea.None? || !Truthy(request.userId) then
          Replied(Response(400, ErrorBody(MissingInput)), table)
        else match storeError
          case Some(e) => Replied(Response(500, StoreFailure(SaveFailed, e.message, e.code)), table)
          case None =>
            var row := ToRow(request.userId.value, request.idea.value, now);
            var after := table + [row];
            assert after[|table|] == row && after != table;
            Replied(Response(200, SavedBody(row)), after)
  }

  /** A complete request with a working store succeeds and stores exactly
      one row; a store error leaves the table as it was. */
  lemma SaveStoresOneRow(url: string, key: string, table: seq<Row>, now: int, idea: Idea, userId: string,
                         storeError: Option<StoreError>)
    requires url != "" && key != "" && userId != ""
    ensures var r := HandleSave("POST", Success(SaveRequest(Some(idea), Some(userId))), Some(url), Some(key),
                                table, now, storeError);
            && r.Replied?
            && (storeError.None? <==> r.response.statusCode == 200)
            && (storeError.None? ==> r.table == table + [ToRow(userId, idea, now)])
            && (storeError.Some? ==> r.table == table && r.response.statusCode == 500)
  {
  }
}

=== FILE: saved_ideas.dfy ===
/** The get-saved-ideas function: guards, the per-user query over the
    saved-ideas table, newest first, and the mapping of rows back to the
    client's idea shape.
 */
module SavedIdeasHandler {
  import opened Results
  import opened Seqs
  import opened Domain
  import opened SaveIdeaHandler

  /** An idea as this function returns it. */
  datatype FetchedIdea = FetchedIdea(
    id: string,
    title: Option<string>,
    description: Option<string>,
    market: Option<string>,
    complexity: Option<string>,
    timeToRevenue: Option<string>,
    matchScore: int,
    tags: seq<string>,
    matchReasoning: string,
    confidence: int,
    generatedBy: string,
    savedAt: int)

  /** One row in the client's shape; a null `tags` column becomes `[]`. */
  function FromRow(row: Row): (r: FetchedIdea)
    ensures r.id == row.ideaId && r.savedAt == row.savedAt
    ensures r.tags == row.tags.GetOr([])
  {
    FetchedIdea(row.ideaId, row.title, row.description, row.market, row.complexity,
                row.timeToRevenue, row.matchScore, row.tags.GetOr([]), row.matchReasoning,
                row.confidence, row.generatedBy, row.savedAt)
  }

  /** `data.map(...)`: one idea per row, in the same order. */
  function FromRows(rows: seq<Row>): (r: seq<FetchedIdea>)
    ensures |r| == |rows|
    ensures forall i :: 0 <= i < |rows| ==> r[i] == FromRow(rows[i])
  {
    seq(|rows|, i requires 0 <= i < |rows| => FromRow(rows[i]))
  }

  /** What saving stores and fetching returns for one idea: its id and the
      ten other stored fields, and the save time. */
  lemma SaveFetchRoundTrip(userId: string, idea: Idea, now: int)
    ensures var f := FromRow(ToRow(userId, idea, now));
            && f.id == idea.id && f.title == idea.title && f.description == idea.description
            && f.market == idea.market && f.complexity == idea.complexity
            && f.timeToRevenue == idea.timeToRevenue && f.matchScore == idea.matchScore
            && f.tags == idea.tags && f.matchReasoning == idea.matchReasoning
            && f.confidence == idea.confidence && f.generatedBy == idea.generatedBy
            && f.savedAt == now
  {
  }

  function SavedAt(row: Row): int {
    row.savedAt
  }

  /** `.eq('user_id', userId).order('saved_at', { ascending: false })`; rows
      with equal times keep their table order. */
  function Query(table: seq<Row>, userId: string): (r: seq<Row>)
    ensures SortedDesc(r, SavedAt)
    ensures multiset(r) == multiset(Filter(table, (row: Row) => row.userId == userId))
    ensures forall i :: 0 <= i < |r| ==> r[i].userId == userId
    ensures forall row :: row in table && row.userId == userId ==> row in r
  {
    var mine := Filter(table, (row: Row) => row.userId == userId);
    var r := SortDesc(mine, SavedAt);
    forall i | 0 <= i < |r|
      ensures r[i].userId == userId
    {
      assert r[i] in multiset(mine);
    }
    forall row | row in table && row.userId == userId
      ensures row in r
    {
      assert row in mine;
      assert row in multiset(r);
    }
    r
  }

  datatype FetchBody = FetchText(text: string) | FetchError(error: string) | Ideas(ideas: seq<FetchedIdea>)

  const MissingUser := "Missing userId parameter."
  const FetchFailed := "Failed to fetch ideas."

  /** The handler. `userId` is the query parameter, absent also when there
      are no query parameters; `storeFails` says whether the query reports
      an error. */
  function HandleFetch(httpMethod: string, userId: Option<string>, url: Option<string>,
                       key: Option<string>, table: seq<Row>, storeFails: bool): (r: Response<FetchBody>)
    ensures httpMethod != "GET" ==> r == Response(405, FetchText("Method Not Allowed"))
    ensures httpMethod == "GET" && (!Truthy(url) || !Truthy(key)) ==> r == Response(500, FetchError(ConfigError))
    ensures httpMethod == "GET" && Truthy(url) && Truthy(key) && !Truthy(userId) ==>
              r == Response(400, FetchError(MissingUser))
    ensures r.statusCode == 200 <==> httpMethod == "GET" && Truthy(url) && Truthy(key) && Truthy(userId) && !storeFails
    ensures r.statusCode == 200 ==> r.body == Ideas(FromRows(Query(table, userId.value)))
    ensures httpMethod == "GET" && Truthy(url) && Truthy(key) && Truthy(userId) && storeFails ==>
              r == Response(500, FetchError(FetchFailed))
  {
    if httpMethod != "GET" then Response(405, FetchText("Method Not Allowed"))
    else if !Truthy(url) || !Truthy(key) then Response(500, FetchError(ConfigError))
    else if !Truthy(userId) then Response(400, FetchError(MissingUser))
    else if storeFails then Response(500, FetchError(FetchFailed))
    else Response(200, Ideas(FromRows(Query(table, userId.value))))
  }

  /** The returned ideas are newest first. */
  lemma FetchedNewestFirst(userId: string, url: string, key: string, table: seq<Row>)
    requires userId != "" && url != "" && key != ""
    ensures var ideas := HandleFetch("GET", Some(userId), Some(url), Some(key), table, false).body.ideas;
            forall i, j :: 0 <= i < j < |ideas| ==> ideas[i].savedAt >= ideas[j].savedAt
  {
    var rows := Query(table, userId);
    var ideas := FromRows(rows);
    forall i, j | 0 <= i < j < |ideas|
      ensures ideas[i].savedAt >= ideas[j].savedAt
    {
      assert SavedAt(rows[i]) >= SavedAt(rows[j]);
    }
  }

  /** An idea saved for a user is among the ideas then fetched for that
      user, with every stored field as it was saved. */
  lemma SavedIdeaIsFetched(userId: string, url: string, key: string, table: seq<Row>, idea: Idea, now: int)
    requires userId != "" && url != "" && key != ""
    ensures var saved := HandleSave("POST", Success(SaveRequest(Some(idea), Some(userId))), Some(url), Some(key),
                                    table, now, None);
            var fetched := HandleFetch("GET", Some(userId), Some(url), Some(key), saved.table, false);
            FromRow(ToRow(userId, idea, now)) in fetched.body.ideas
  {
    var row := ToRow(userId, idea, now);
    var after := table + [row];
    assert row in after;
    var rows := Query(after, userId);
    assert row in rows;
    var k :| 0 <= k < |rows| && rows[k] == row;
    assert FromRows(rows)[k] == FromRow(row);
  }
}

=== FILE: seqs.dfy ===
/** Sequence operations of the JavaScript `Array` API the application uses:
    `filter`, `slice(0, n)`, and `sort` with a descending numeric comparator
    (`(a, b) => key(b) - key(a)`), which ECMAScript requires to be stable.
 */
module Seqs {
  import opened Results

  function Min(a: int, b: int): int {
    if a < b then a else b
  }

  /** `s.slice(0, n)`. */
  function Take<T>(s: seq<T>, n: nat): (r: seq<T>)
    ensures |r| == Min(n, |s|)
    ensures forall i :: 0 <= i < |r| ==> r[i] == s[i]
  {
    if n <= |s| then s[..n] else s
  }

  /** `s.filter(p)`: the elements satisfying `p`, in their original order. */
  function Filter<T>(s: seq<T>, p: T -> bool): (r: seq<T>)
    ensures |r| <= |s|
    ensures forall i :: 0 <= i < |r| ==> r[i] in s && p(r[i])
    ensures forall i :: 0 <= i < |s| && p(s[i]) ==> s[i] in r
    decreases |s|
  {
    if |s| == 0 then []
    else (if p(s[0]) then [s[0]] else []) + Filter(s[1..], p)
  }

  /** Filtering distributes over concatenation, so the relative order of the
      kept elements is the order they had in the input. */
  lemma {:induction false} FilterConcat<T>(a: seq<T>, b: seq<T>, p: T -> bool)
    ensures Filter(a + b, p) == Filter(a, p) + Filter(b, p)
    decreases |a|
  {
    if |a| > 0 {
      assert (a + b)[0] == a[0];
      assert (a + b)[1..] == a[1..] + b;
      FilterConcat(a[1..], b, p);
    } else {
      assert a + b == b;
    }
  }

  /** A filter that keeps everything is the identity. */
  lemma {:induction false} FilterAll<T>(s: seq<T>, p: T -> bool)
    requires forall x :: x in s ==> p(x)
    ensures Filter(s, p) == s
    decreases |s|
  {
    if |s| > 0 {
      FilterAll(s[1..], p);
    }
  }

  /** The filter keeps exactly the elements satisfying `p`, with their multiplicities. */
  lemma {:induction false} FilterMultiset<T>(s: seq<T>, p: T -> bool, x: T)
    ensures multiset(Filter(s, p))[x] == if p(x) then multiset(s)[x] else 0
    decreases |s|
  {
    if |s| > 0 {
      FilterMultiset(s[1..], p, x);
      assert s == [s[0]] + s[1..];
    }
  }

  /** `xs.map((x, k) => f(k, x))` where a mapping may throw (`None`): every
      element mapped with its index counted from `from`, or `None` when any
      mapping throws. */
  function MapOrFail<A, B>(xs: seq<A>, f: (nat, A) -> Option<B>, from: nat): (r: Option<seq<B>>)
    ensures r.Some? ==>
              && |r.value| == |xs|
              && forall k :: 0 <= k < |xs| ==> f(from + k, xs[k]) == Some(r.value[k])
    ensures r.None? <==> exists k :: 0 <= k < |xs| && f(from + k, xs[k]).None?
    decreases |xs|
  {
    if |xs| == 0 then Some([])
    else
      match (f(from, xs[0]), MapOrFail(xs[1..], f, from + 1))
      case (Some(first), Some(rest)) =>
        var r := [first] + rest;
        forall k | 1 <= k < |xs|
          ensures f(from + k, xs[k]) == Some(r[k])
        {
          assert xs[1..][k - 1] == xs[k] && from + 1 + (k - 1) == from + k;
        }
        Some(r)
      case (None, _) => None
      case (_, None) =>
        var k :| 0 <= k < |xs| - 1 && f(from + 1 + k, xs[1..][k]).None?;
        assert f(from + (k + 1), xs[k + 1]).None?;
        None
  }

  /** Number of elements satisfying `p`. */
  function Count<T>(s: seq<T>, p: T -> bool): nat
    decreases |s|
  {
    if |s| == 0 then 0 else (if p(s[0]) then 1 else 0) + Count(s[1..], p)
  }

  lemma {:induction false} FilterLength<T>(s: seq<T>, p: T -> bool)
    ensures |Filter(s, p)| == Count(s, p)
    decreases |s|
  {
    if |s| > 0 {
      FilterLength(s[1..], p);
    }
  }

  // ---------------------------------------------------------------------
  // Stable descending sort by an integer key

  ghost predicate SortedDesc<T>(s: seq<T>, key: T -> int) {
    forall i, j :: 0 <= i < j < |s| ==> key(s[i]) >= key(s[j])
  }

  /** A sorted sequence stays sorted under a head whose key is at least the old head's. */
  lemma SortedCons<T>(h: T, t: seq<T>, key: T -> int)
    requires SortedDesc(t, key)
    requires |t| > 0 ==> key(h) >= key(t[0])
    ensures SortedDesc([h] + t, key)
  {
    var r := [h] + t;
    forall i, j | 0 <= i < j < |r|
      ensures key(r[i]) >= key(r[j])
    {
      assert r[j] == t[j - 1];
      if i > 0 {
        assert r[i] == t[i - 1];
      }
    }
  }

  /** Places `x` before the first element whose key is not larger than its own. */
  function InsertDesc<T>(x: T, s: seq<T>, key: T -> int): (r: seq<T>)
    requires SortedDesc(s, key)
    ensures SortedDesc(r, key)
    ensures |r| == |s| + 1
    ensures multiset(r) == multiset(s) + multiset{x}
    ensures r[0] == x || (|s| > 0 && r[0] == s[0])
    decreases |s|
  {
    if |s| == 0 then [x]
    else if key(s[0]) > key(x) then
      var rest := InsertDesc(x, s[1..], key);
      assert s == [s[0]] + s[1..];
      assert multiset(s) == multiset{s[0]} + multiset(s[1..]);
      SortedCons(s[0], rest, key);
      [s[0]] + rest
    else
      SortedCons(x, s, key);
      [x] + s
  }

  /** `s.slice().sort((a, b) => key(b) - key(a))`. */
  function SortDesc<T>(s: seq<T>, key: T -> int): (r: seq<T>)
    ensures SortedDesc(r, key)
    ensures multiset(r) == multiset(s)
    ensures |r| == |s|
    decreases |s|
  {
    if |s| == 0 then []
    else
      assert s == [s[0]] + s[1..];
      InsertDesc(s[0], SortDesc(s[1..], key), key)
  }

  /** Filtering a one-element sequence keeps it or drops it. */
  lemma {:induction false} FilterSingleton<T>(x: T, p: T -> bool)
    ensures Filter([x], p) == if p(x) then [x] else []
  {
    assert [x][1..] == [];
  }

  /** Filtering `[h] + t` decides `h` and then filters `t`. */
  lemma {:induction false} FilterCons<T>(h: T, t: seq<T>, p: T -> bool)
    ensures Filter([h] + t, p) == (if p(h) then [h] else []) + Filter(t, p)
  {
    assert ([h] + t)[0] == h && ([h] + t)[1..] == t;
  }

  /** Prepending one element `h` commutes with a prefix `xs` of the filter
      when at most one of them survives the filter. */
  lemma {:induction false} FilterPrepend<T>(h: T, t: seq<T>, rest: seq<T>, xs: seq<T>, p: T -> bool)
    requires Filter(rest, p) == xs + Filter(t, p)
    requires !p(h) || xs == []
    ensures Filter([h] + rest, p) == xs + Filter([h] + t, p)
  {
    FilterCons(h, rest, p);
    FilterCons(h, t, p);
    if p(h) {
      assert xs == [];
      assert xs + Filter([h] + t, p) == Filter([h] + t, p);
    }
  }

  /** Inserting an element whose key differs from `c` leaves the `c`-keyed
      elements in place; inserting one with key `c` puts it first among them. */

  lemma {:induction false} InsertDescStable<T>(x: T, s: seq<T>, key: T -> int, c: int, p: T -> bool)
    requires SortedDesc(s, key)
    requires forall y :: p(y) <==> key(y) == c
    ensures Filter(InsertDesc(x, s, key), p) == (if key(x) == c then [x] else []) + Filter(s, p)
    decreases |s|
  {
    var xs: seq<T> := if key(x) == c then [x] else [];
    FilterSingleton(x, p);
    if |s| == 0 {
      assert InsertDesc(x, s, key) == [x];
      assert Filter(s, p) == [];
    } else if key(s[0]) > key(x) {
      var rest := InsertDesc(x, s[1..], key);
      InsertDescStable(x, s[1..], key, c, p);
      assert InsertDesc(x, s, key) == [s[0]] + rest;
      FilterPrepend(s[0], s[1..], rest, xs, p);
      assert s == [s[0]] + s[1..];
    } else {
      assert InsertDesc(x, s, key) == [x] + s;
      FilterConcat([x], s, p);
    }
  }

  /** Stability: elements with equal keys keep their original relative order. */
  lemma {:induction false} SortDescStable<T>(s: seq<T>, key: T -> int, c: int, p: T -> bool)
    requires forall y :: p(y) <==> key(y) == c
    ensures Filter(SortDesc(s, key), p) == Filter(s, p)
    decreases |s|
  {
    if |s| > 0 {
      SortDescStable(s[1..], key, c, p);
      InsertDescStable(s[0], SortDesc(s[1..], key), key, c, p);
      FilterConcat([s[0]], s[1..], p);
      assert s == [s[0]] + s[1..];
    }
  }
}

=== FILE: sidebar.dfy ===
/** The saved-ideas sidebar: the three filter tabs with their counts, the
    newest-first list shown under the selected tab, and removal by id. The
    current time is a parameter; "seven days ago" is taken as exactly
    seven times 24 hours before it.
 */
module Sidebar {
  import opened Results
  import opened Seqs
  import opened Domain
  import opened AppContext

  datatype Tab = All | Recent | HighScore

  const Week := 7 * 24 * 60 * 60 * 1000
  const HighScoreThreshold := 85

  /** The test each tab applies to a saved idea. */
  predicate Shows(tab: Tab, now: int, x: SavedIdea) {
    match tab
    case All => true
    case Recent => x.savedAt > now - Week
    case HighScore => x.idea.matchScore >= HighScoreThreshold
  }

  function SavedAtOf(x: SavedIdea): int {
    x.savedAt
  }

  /** `savedIdeas.filter(...)` for the selected tab. */
  function TabIdeas(saved: seq<SavedIdea>, tab: Tab, now: int): seq<SavedIdea> {
    Filter(saved, x => Shows(tab, now, x))
  }

  /** `sortedIdeas`: the tab's ideas, newest first, ties in list order. The
      saved list itself is an argument and is not changed. */
  function SortedIdeas(saved: seq<SavedIdea>, tab: Tab, now: int): (r: seq<SavedIdea>)
    ensures SortedDesc(r, SavedAtOf)
    ensures multiset(r) == multiset(TabIdeas(saved, tab, now))
    ensures forall x :: x in r <==> x in saved && Shows(tab, now, x)
  {
    var kept := TabIdeas(saved, tab, now);
    var r := SortDesc(kept, SavedAtOf);
    forall x
      ensures x in r <==> x in saved && Shows(tab, now, x)
    {
      FilterMultiset(saved, y => Shows(tab, now, y), x);
      assert x in r <==> x in multiset(r);
      assert x in saved <==> x in multiset(saved);
    }
    r
  }

  /** The 'all' tab shows every saved idea, each as often as it is saved. */
  lemma AllShowsEverything(saved: seq<SavedIdea>, now: int)
    ensures multiset(SortedIdeas(saved, All, now)) == multiset(saved)
  {
    FilterAll(saved, (x: SavedIdea) => Shows(All, now, x));
  }

  /** Ideas saved at the same moment are shown in the order of the list. */
  lemma EqualTimesKeepListOrder(saved: seq<SavedIdea>, tab: Tab, now: int, t: int)
    ensures Filter(SortedIdeas(saved, tab, now), (x: SavedIdea) => x.savedAt == t)
            == Filter(TabIdeas(saved, tab, now), (x: SavedIdea) => x.savedAt == t)
  {
    SortDescStable(TabIdeas(saved, tab, now), SavedAtOf, t, (x: SavedIdea) => x.savedAt == t);
  }

  /** The count on a tab's label. */
  function TabCount(saved: seq<SavedIdea>, tab: Tab, now: int): (r: nat)
    ensures r == Count(saved, x => Shows(tab, now, x))
  {
    FilterLength(saved, x => Shows(tab, now, x));
    if tab == All then
      FilterAll(saved, x => Shows(tab, now, x));
      |saved|
    else |TabIdeas(saved, tab, now)|
  }

  /** Each tab's count is the length of the list shown under it. */
  lemma TabCountIsListLength(saved: seq<SavedIdea>, tab: Tab, now: int)
    ensures TabCount(saved, tab, now) == |SortedIdeas(saved, tab, now)|
  {
    FilterLength(saved, x => Shows(tab, now, x));
  }

  /** `removeIdea(id)`: every saved idea with that id goes, the others stay
      in order. */
  function RemoveIdea(saved: seq<SavedIdea>, id: string): (r: seq<SavedIdea>)
    ensures !HasId(r, id)
    ensures forall x :: x in r <==> x in saved && x.idea.id != id
  {
    var r := Filter(saved, (x: SavedIdea) => x.idea.id != id);
    forall x
      ensures x in r <==> x in saved && x.idea.id != id
    {
      FilterMultiset(saved, (y: SavedIdea) => y.idea.id != id, x);
      assert x in r <==> x in multiset(r);
      assert x in saved <==> x in multiset(saved);
    }
    r
  }

  /** Removal works piecewise along the list, so the survivors keep their order. */
  lemma RemoveKeepsOrder(a: seq<SavedIdea>, b: seq<SavedIdea>, id: string)
    ensures RemoveIdea(a + b, id) == RemoveIdea(a, id) + RemoveIdea(b, id)
  {
    FilterConcat(a, b, (x: SavedIdea) => x.idea.id != id);
  }

  /** Removing an id that is not saved changes nothing. */
  lemma RemoveAbsentIsIdentity(saved: seq<SavedIdea>, id: string)
    requires !HasId(saved, id)
    ensures RemoveIdea(saved, id) == saved
  {
    FilterAll(saved, (x: SavedIdea) => x.idea.id != id);
  }

  /** Removing is idempotent. */
  lemma RemoveTwice(saved: seq<SavedIdea>, id: string)
    ensures RemoveIdea(RemoveIdea(saved, id), id) == RemoveIdea(saved, id)
  {
    RemoveAbsentIsIdentity(RemoveIdea(saved, id), id);
  }

  /** Removing an idea undoes saving it: the list is as before with that id removed. */
  lemma SaveThenRemove(saved: seq<SavedIdea>, idea: Idea, now: int)
    ensures RemoveIdea(SaveIdea(saved, idea, now), idea.id) == RemoveIdea(saved, idea.id)
  {
    if !HasId(saved, idea.id) {
      RemoveKeepsOrder(saved, [SavedIdea(idea, now)], idea.id);
      FilterSingleton(SavedIdea(idea, now), (x: SavedIdea) => x.idea.id != idea.id);
    }
  }

  // ---------------------------------------------------------------------
  // Rendering

  /** What the sidebar shows: the count on each tab and the selected tab's list. */
  datatype View = View(allCount: nat, recentCount: nat, topCount: nat, shown: seq<SavedIdea>)

  function CountOn(v: View, tab: Tab): nat {
    match tab
    case All => v.allCount
    case Recent => v.recentCount
    case HighScore => v.topCount
  }

  /** The component: `null` (`None`) unless `isAuthenticated` is truthy.
      The flag is read from the application context and is `None` when the
      context does not provide it. */
  function Render(isAuthenticated: Option<bool>, saved: seq<SavedIdea>, tab: Tab, now: int): (r: Option<View>)
    ensures r.Some? <==> isAuthenticated == Some(true)
    ensures r.Some? ==> r.value.shown == SortedIdeas(saved, tab, now)
    ensures r.Some? ==> forall t :: CountOn(r.value, t) == Count(saved, x => Shows(t, now, x))
  {
    if isAuthenticated != Some(true) then None
    else Some(View(TabCount(saved, All, now), TabCount(saved, Recent, now), TabCount(saved, HighScore, now),
                   SortedIdeas(saved, tab, now)))
  }

  /** The application context provides no `isAuthenticated`, so the sidebar
      as written renders nothing, whatever is saved. */
  lemma RendersNothingAsWritten(saved: seq<SavedIdea>, tab: Tab, now: int)
    ensures Render(None, saved, tab, now) == None
  {
  }

  /** For a signed-in user the sidebar shows the selected tab's ideas, newest
      first, under a label whose count is the length of that list. */
  lemma SignedInShowsSelectedTab(saved: seq<SavedIdea>, tab: Tab, now: int)
    ensures Render(Some(true), saved, tab, now).Some?
    ensures var v := Render(Some(true), saved, tab, now).value;
            && CountOn(v, tab) == |v.shown|
            && SortedDesc(v.shown, SavedAtOf)
            && forall x :: x in v.shown <==> x in saved && Shows(tab, now, x)
  {
    TabCountIsListLength(saved, tab, now);
  }
}

=== FILE: strings.dfy ===
/** The JavaScript string operations the application relies on, over `seq<char>`:
    `toLowerCase` (ASCII letters only), `split` on one character, `Array.join`,
    `includes`, `indexOf`, `replace` with a string pattern (first occurrence)
    and with a global pattern (every occurrence), and decimal rendering of
    non-negative integers in template literals.
 */
module Strings {
  import opened Results

  // ---------------------------------------------------------------------
  // Case folding

  function LowerChar(c: char): char {
    if 'A' <= c <= 'Z' then (c as int + 32) as char else c
  }

  /** `s.toLowerCase()` restricted to ASCII letters. */
  function Lower(s: string): (r: string)
    ensures |r| == |s|
  {
    seq(|s|, i requires 0 <= i < |s| => LowerChar(s[i]))
  }

  /** Lower-casing twice is lower-casing once. */
  lemma LowerIdempotent(s: string)
    ensures Lower(Lower(s)) == Lower(s)
  {
  }

  /** Lower-casing leaves no upper-case ASCII letter behind. */
  lemma NoUpperInLower(s: string, c: char)
    requires 'A' <= c <= 'Z'
    ensures c !in Lower(s)
  {
    forall i | 0 <= i < |s|
      ensures Lower(s)[i] != c
    {
      assert Lower(s)[i] == LowerChar(s[i]);
    }
  }

  lemma LowerConcat(a: string, b: string)
    ensures Lower(a + b) == Lower(a) + Lower(b)
  {
  }

  /** Characters that are not upper-case ASCII letters are left alone. */
  lemma LowerKeeps(s: string, c: char)
    requires !('A' <= c <= 'Z') && !('a' <= c <= 'z')
    ensures c in Lower(s) ==> c in s
  {
    if c in Lower(s) {
      var i :| 0 <= i < |s| && Lower(s)[i] == c;
      assert s[i] == c;
    }
  }

  // ---------------------------------------------------------------------
  // Occurrences of a pattern

  /** `pat` occurs in `s` starting at index `k`. */
  predicate OccursAt(s: string, pat: string, k: int) {
    0 <= k && k + |pat| <= |s| && s[k..k + |pat|] == pat
  }

  /** Leftmost occurrence of `pat` in `s` at or after `from` (`s.indexOf(pat, from)`). */
  function IndexOfFrom(s: string, pat: string, from: nat): (r: Option<nat>)
    ensures r.Some? ==> from <= r.value && OccursAt(s, pat, r.value)
    ensures r.Some? ==> forall j :: from <= j < r.value ==> !OccursAt(s, pat, j)
    ensures r.None? ==> forall j :: from <= j ==> !OccursAt(s, pat, j)
    decreases |s| - from
  {
    if from + |pat| > |s| then None
    else if s[from..from + |pat|] == pat then Some(from)
    else IndexOfFrom(s, pat, from + 1)
  }

  function IndexOf(s: string, pat: string): (r: Option<nat>)
    ensures r.Some? ==> OccursAt(s, pat, r.value)
    ensures r.Some? ==> forall j :: 0 <= j < r.value ==> !OccursAt(s, pat, j)
    ensures r.None? <==> forall j :: !OccursAt(s, pat, j)
  {
    IndexOfFrom(s, pat, 0)
  }

  /** `s.includes(pat)`. */
  predicate Includes(s: string, pat: string) {
    IndexOf(s, pat).Some?
  }

  lemma IncludesIff(s: string, pat: string)
    ensures Includes(s, pat) <==> exists k :: OccursAt(s, pat, k)
  {
  }

  /** `x` occurs somewhere in `s`. */
  ghost predicate Contains(s: string, x: string) {
    exists k :: OccursAt(s, x, k)
  }

  lemma ContainsMiddle(a: string, x: string, b: string)
    ensures Contains(a + x + b, x)
  {
    OccursInMiddle(a, x, b);
  }

  /** `x` occurs in the middle of `a + x + b`. */
  lemma OccursInMiddle(a: string, x: string, b: string)
    ensures OccursAt(a + x + b, x, |a|)
  {
    assert (a + x + b)[|a|..|a| + |x|] == x;
  }

  /** An occurrence of a non-empty pattern starts with its first character. */
  lemma OccurrenceStart(s: string, pat: string, k: int)
    requires |pat| > 0 && OccursAt(s, pat, k)
    ensures s[k] == pat[0]
  {
    assert s[k..k + |pat|][0] == s[k];
  }

  /** Occurrences in `b` are occurrences in `a + b`, shifted by `|a|`. */
  lemma OccursShifted(a: string, b: string, pat: string, j: nat)
    ensures OccursAt(a + b, pat, |a| + j) <==> OccursAt(b, pat, j)
  {
    if j + |pat| <= |b| {
      assert (a + b)[|a| + j..|a| + j + |pat|] == b[j..j + |pat|];
    }
  }

  /** No occurrence starts inside `a` when `a` lacks the pattern's first character. */
  lemma NoOccurrenceInPrefix(a: string, b: string, pat: string, j: nat)
    requires |pat| > 0 && pat[0] !in a && j < |a|
    ensures !OccursAt(a + b, pat, j)
  {
    assert (a + b)[j] == a[j] && a[j] != pat[0];
    if j + |pat| <= |a + b| {
      assert (a + b)[j..j + |pat|][0] == (a + b)[j];
    }
  }

  /** If the pattern's first character is absent from `a`, the leftmost
      occurrence in `a + b` is the leftmost occurrence in `b`, shifted. */
  lemma IndexOfAfterPlain(a: string, b: string, pat: string)
    requires |pat| > 0 && pat[0] !in a
    ensures IndexOf(a + b, pat) == (match IndexOf(b, pat)
                                    case None => None
                                    case Some(k) => Some(|a| + k))
  {
    var s := a + b;
    forall j: nat | j < |a| + (if IndexOf(b, pat).Some? then IndexOf(b, pat).value else |b| + 1)
      ensures !OccursAt(s, pat, j)
    {
      if j < |a| {
        NoOccurrenceInPrefix(a, b, pat, j);
      } else {
        OccursShifted(a, b, pat, j - |a|);
      }
    }
    match IndexOf(b, pat)
    case None =>
      forall j: int ensures !OccursAt(s, pat, j) {
        if j >= |a| + |b| + 1 {
          assert !OccursAt(s, pat, j);
        }
      }
    case Some(k) =>
      OccursShifted(a, b, pat, k);
  }

  /** A pattern whose first character is absent from `s` does not occur in `s`. */
  lemma NoOccurrence(s: string, pat: string)
    requires |pat| > 0 && pat[0] !in s
    ensures IndexOf(s, pat) == None
  {
    forall j ensures !OccursAt(s, pat, j) {
      if OccursAt(s, pat, j) {
        OccurrenceStart(s, pat, j);
      }
    }
  }

  // ---------------------------------------------------------------------
  // Replacement

  /** `s.replace(pat, rep)` with a string pattern: only the leftmost
      occurrence is replaced; with no occurrence `s` is returned. */
  function ReplaceFirst(s: string, pat: string, rep: string): (r: string)
    ensures IndexOf(s, pat).None? ==> r == s
  {
    match IndexOf(s, pat)
    case None => s
    case Some(k) => s[..k] + rep + s[k + |pat|..]
  }

  /** `s.replace(/pat/g, rep)`: every occurrence, scanned left to right
      without overlap; the replacement text is not rescanned. */
  function ReplaceAll(s: string, pat: string, rep: string): (r: string)
    requires |pat| > 0
    ensures IndexOf(s, pat).None? ==> r == s
    decreases |s|
  {
    match IndexOf(s, pat)
    case None => s
    case Some(k) => s[..k] + rep + ReplaceAll(s[k + |pat|..], pat, rep)
  }

  /** Replacing in `a + pat + b`, where `a` cannot start an occurrence,
      substitutes exactly the marked occurrence. */
  lemma ReplaceFirstAt(a: string, pat: string, b: string, rep: string)
    requires |pat| > 0 && pat[0] !in a
    ensures ReplaceFirst(a + pat + b, pat, rep) == a + rep + b
  {
    var s := a + pat + b;
    assert s == a + (pat + b);
    assert OccursAt(pat + b, pat, 0) by { OccursInMiddle([], pat, b); }
    IndexOfAfterPlain(a, pat + b, pat);
    assert IndexOf(s, pat) == Some(|a|);
    assert s[..|a|] == a;
    assert s[|a| + |pat|..] == b;
    assert ReplaceFirst(s, pat, rep) == s[..|a|] + rep + s[|a| + |pat|..];
  }

  lemma ReplaceAllAt(a: string, pat: string, b: string, rep: string)
    requires |pat| > 0 && pat[0] !in a
    ensures ReplaceAll(a + pat + b, pat, rep) == a + rep + ReplaceAll(b, pat, rep)
  {
    var s := a + pat + b;
    assert s == a + (pat + b);
    assert OccursAt(pat + b, pat, 0) by { OccursInMiddle([], pat, b); }
    IndexOfAfterPlain(a, pat + b, pat);
    assert IndexOf(s, pat) == Some(|a|);
    assert s[..|a|] == a;
    assert s[|a| + |pat|..] == b;
    assert ReplaceAll(s, pat, rep) == s[..|a|] + rep + ReplaceAll(s[|a| + |pat|..], pat, rep);
  }

  lemma ReplaceFirstAbsent(s: string, pat: string, rep: string)
    requires |pat| > 0 && pat[0] !in s
    ensures ReplaceFirst(s, pat, rep) == s
  {
    NoOccurrence(s, pat);
  }

  lemma ReplaceAllAbsent(s: string, pat: string, rep: string)
    requires |pat| > 0 && pat[0] !in s
    ensures ReplaceAll(s, pat, rep) == s
  {
    NoOccurrence(s, pat);
  }

  // ---------------------------------------------------------------------
  // Join and split

  /** The concatenation of all parts, in order. */
  function Concat(parts: seq<string>): string
    decreases |parts|
  {
    if |parts| == 0 then "" else parts[0] + Concat(parts[1..])
  }

  lemma {:induction false} ConcatSplit(parts: seq<string>, i: nat)
    requires i < |parts|
    ensures Concat(parts) == Concat(parts[..i]) + parts[i] + Concat(parts[i + 1..])
    decreases i
  {
    if i > 0 {
      ConcatSplit(parts[1..], i - 1);
      assert parts[1..][..i - 1] == parts[1..i];
      assert parts[1..][i..] == parts[i + 1..];
      assert parts[..i] == [parts[0]] + parts[1..i];
      assert Concat(parts[..i]) == parts[0] + Concat(parts[1..i]);
    } else {
      assert parts[..0] == [];
    }
  }

  /** An occurrence inside one part is an occurrence in the whole, shifted by
      the length of the parts before it. */
  lemma OccursInPart(parts: seq<string>, i: nat, x: string, k: int)
    requires i < |parts| && OccursAt(parts[i], x, k)
    ensures OccursAt(Concat(parts), x, |Concat(parts[..i])| + k)
  {
    ConcatSplit(parts, i);
    var a := Concat(parts[..i]);
    var b := Concat(parts[i + 1..]);
    assert (a + parts[i] + b)[|a| + k..|a| + k + |x|] == parts[i][k..k + |x|];
  }

  /** Text inside one part is text of the whole. */
  lemma ContainsPart(parts: seq<string>, i: nat, x: string)
    requires i < |parts| && Contains(parts[i], x)
    ensures Contains(Concat(parts), x)
  {
    var k :| OccursAt(parts[i], x, k);
    OccursInPart(parts, i, x, k);
  }

  /** A part followed by a part that opens with a line break is found
      together with that line break. */
  lemma PartBeforeBreak(parts: seq<string>, i: nat)
    requires i + 1 < |parts| && |parts[i + 1]| > 0 && parts[i + 1][0] == '\n'
    ensures Contains(Concat(parts), parts[i] + "\n")
  {
    ConcatSplit(parts, i);
    var a := Concat(parts[..i]);
    var b := Concat(parts[i + 1..]);
    assert b == parts[i + 1] + Concat(parts[i + 2..]);
    assert b == "\n" + b[1..];
    assert Concat(parts) == a + (parts[i] + "\n") + b[1..];
    ContainsMiddle(a, parts[i] + "\n", b[1..]);
  }

  /** `parts.join(sep)`. */
  function Join(parts: seq<string>, sep: string): string
    decreases |parts|
  {
    if |parts| == 0 then ""
    else if |parts| == 1 then parts[0]
    else parts[0] + sep + Join(parts[1..], sep)
  }

  /** A join with a non-empty separator is empty only for `[]` and `[""]`. */
  lemma {:induction false} JoinEmpty(parts: seq<string>, sep: string)
    requires sep != ""
    ensures Join(parts, sep) == "" <==> (|parts| == 0 || parts == [""])
  {
    if |parts| >= 2 {
      assert |Join(parts, sep)| >= |sep|;
    }
  }

  /** `s.split(sep)` for a one-character separator: the pieces between
      separators, one more piece than there are separators. */
  function Split(s: string, sep: char): (r: seq<string>)
    ensures |r| >= 1
    ensures forall k :: 0 <= k < |r| ==> sep !in r[k]
    decreases |s|
  {
    if |s| == 0 then [""]
    else
      var rest := Split(s[1..], sep);
      if s[0] == sep then [""] + rest
      else [[s[0]] + rest[0]] + rest[1..]
  }

  /** A word free of the separator, followed by the separator, is the first piece. */
  lemma {:induction false} SplitWord(w: string, sep: char, rest: string)
    requires sep !in w
    ensures Split(w + [sep] + rest, sep) == [w] + Split(rest, sep)
    decreases |w|
  {
    var s := w + [sep] + rest;
    if |w| == 0 {
      assert s == [sep] + rest;
      assert s[1..] == rest;
    } else {
      assert s[1..] == w[1..] + [sep] + rest;
      SplitWord(w[1..], sep, rest);
      assert [w[0]] + w[1..] == w;
    }
  }

  /** A string free of the separator is a single piece. */
  lemma {:induction false} SplitNone(w: string, sep: char)
    requires sep !in w
    ensures Split(w, sep) == [w]
    decreases |w|
  {
    if |w| > 0 {
      SplitNone(w[1..], sep);
      assert [w[0]] + w[1..] == w;
    }
  }

  /** A separator between two strings splits them apart: the pieces of the
      whole are the pieces of the part before, then those of the part after. */
  lemma {:induction false} SplitConcat(a: string, sep: char, b: string)
    ensures Split(a + [sep] + b, sep) == Split(a, sep) + Split(b, sep)
    decreases |a|
  {
    var s := a + [sep] + b;
    if |a| == 0 {
      assert s == [sep] + b;
      assert s[1..] == b;
    } else {
      assert s[0] == a[0];
      assert s[1..] == a[1..] + [sep] + b;
      SplitConcat(a[1..], sep, b);
    }
  }

  /** Joining the pieces back with the separator restores the string. */
  lemma {:induction false} JoinSplit(s: string, sep: char)
    ensures Join(Split(s, sep), [sep]) == s
    decreases |s|
  {
    if |s| > 0 {
      var rest := Split(s[1..], sep);
      JoinSplit(s[1..], sep);
      if s[0] == sep {
        assert Split(s, sep) == [""] + rest;
        assert ([""] + rest)[1..] == rest;
      } else {
        var r := Split(s, sep);
        assert r == [[s[0]] + rest[0]] + rest[1..];
        if |rest| == 1 {
          assert s == [s[0]] + s[1..];
        } else {
          assert r[1..] == rest[1..];
          assert Join(rest, [sep]) == rest[0] + [sep] + Join(rest[1..], [sep]);
          assert s == [s[0]] + s[1..];
        }
      }
    }
  }

  /** Splitting a lower-case string gives lower-case pieces. */
  lemma {:induction false} SplitKeepsLower(s: string, sep: char)
    requires Lower(s) == s
    ensures forall k :: 0 <= k < |Split(s, sep)| ==> Lower(Split(s, sep)[k]) == Split(s, sep)[k]
    decreases |s|
  {
    if |s| > 0 {
      assert Lower(s[1..]) == Lower(s)[1..];
      SplitKeepsLower(s[1..], sep);
      var rest := Split(s[1..], sep);
      if s[0] != sep {
        assert Lower([s[0]]) == [Lower(s)[0]];
        LowerConcat([s[0]], rest[0]);
        var r := Split(s, sep);
        forall k | 0 <= k < |r|
          ensures Lower(r[k]) == r[k]
        {
          if k > 0 {
            assert r[k] == rest[k];
          }
        }
      }
    }
  }

  // ---------------------------------------------------------------------
  // Decimal rendering of non-negative integers

  predicate IsDigit(c: char) {
    '0' <= c <= '9'
  }

  predicate AllDigits(s: string) {
    forall i :: 0 <= i < |s| ==> IsDigit(s[i])
  }

  function DigitChar(d: nat): (c: char)
    requires d < 10
    ensures IsDigit(c)
  {
    (48 + d) as char
  }

  /** `${n}` in a template literal, for `n >= 0`. */
  function NatToString(n: nat): (r: string)
    ensures |r| >= 1 && AllDigits(r)
    decreases n
  {
    if n < 10 then [DigitChar(n)] else NatToString(n / 10) + [DigitChar(n % 10)]
  }

  /** The value a string of decimal digits denotes. */
  function DigitsValue(s: string): nat
    requires AllDigits(s)
    decreases |s|
  {
    if |s| == 0 then 0
    else DigitsValue(s[..|s| - 1]) * 10 + (s[|s| - 1] as int - 48)
  }

  /** Reading the decimal rendering back gives the number. */
  lemma {:induction false} DigitsValueOfNatToString(n: nat)
    ensures DigitsValue(NatToString(n)) == n
    decreases n
  {
    var r := NatToString(n);
    if n >= 10 {
      DigitsValueOfNatToString(n / 10);
      assert r[..|r| - 1] == NatToString(n / 10);
    }
  }

  lemma NatToStringInjective(m: nat, n: nat)
    ensures NatToString(m) == NatToString(n) ==> m == n
  {
    DigitsValueOfNatToString(m);
    DigitsValueOfNatToString(n);
  }

  /** Two strings of the form `prefix + digits + "-" + tail` are equal only
      when their digit runs and their tails are equal. */
  lemma {:induction false} DashSeparatedUnique(d1: string, t1: string, d2: string, t2: string)
    requires AllDigits(d1) && AllDigits(d2)
    requires d1 + "-" + t1 == d2 + "-" + t2
    ensures d1 == d2 && t1 == t2
  {
    var s := d1 + "-" + t1;
    var m := if |d1| < |d2| then |d1| else |d2|;
    assert s[m] == (d2 + "-" + t2)[m];
    assert |d1| == |d2| by {
      assert s[m] == '-' || (d2 + "-" + t2)[m] == '-' ==> |d1| == |d2|;
    }
    assert d1 == s[..|d1|];
    assert d2 == (d2 + "-" + t2)[..|d2|];
    assert t1 == s[|d1| + 1..];
    assert t2 == (d2 + "-" + t2)[|d2| + 1..];
  }
}

=== FILE: trends.dfy ===
/** The synthesised market-validation data (`generateRealisticTrendsData`):
    one trend entry per validation keyword, a competitor summary looked up
    from the idea's tags, and demand signals. Every `Math.random()` draw is
    a bounded parameter; the floating-point monthly volume formula is
    replaced by its raw integer value, of which only the floor of 100 is
    modelled.
 */
module Trends {
  import opened Results
  import opened Strings
  import opened Seqs
  import opened Domain

  /** `Math.floor(Math.random() * 15000)`. */
  type VolumeDraw = x: nat | x < 15000
  /** `Math.floor(Math.random() * 5)`, `* 20`, `* 30`, `* 2` and `* 25`. */
  type Draw5 = x: nat | x < 5
  type Draw20 = x: nat | x < 20
  type Draw30 = x: nat | x < 30
  type Draw2 = x: nat | x < 2
  type Draw25 = x: nat | x < 25

  /** The draws for one keyword: whether its market grows (`Math.random() > 0.4`),
      its base volume, and the raw value of each month's volume formula. */
  datatype KeywordDraw = KeywordDraw(growing: bool, base: VolumeDraw, raw: nat -> int)

  /** The draws of one synthesis: `keyword(j)` for the `j`-th keyword, then
      the competitor jitters, the market-gap count, seasonality and demand. */
  datatype TrendDraws = TrendDraws(
    keyword: nat -> KeywordDraw,
    direct: Draw5,
    indirect: Draw20,
    pricing: Draw30,
    extraGap: Draw2,
    seasonal: bool,
    demand: Draw25)

  datatype KeywordTrend = KeywordTrend(
    currentVolume: int,
    trend: string,
    monthlyVolumes: seq<int>,
    relatedQueries: seq<string>)

  datatype CompetitorAnalysis = CompetitorAnalysis(
    directCompetitors: int,
    indirectCompetitors: int,
    averagePricing: string,
    marketGaps: seq<string>)

  datatype DemandSignals = DemandSignals(
    searchTrend: string,
    seasonality: string,
    geoDistribution: seq<string>,
    demandScore: int)

  datatype ValidationData = ValidationData(
    keywords: map<string, KeywordTrend>,
    competitorAnalysis: CompetitorAnalysis,
    demandSignals: DemandSignals)

  const Months := 12
  const MinVolume := 100
  const BaseVolume := 2000

  // ---------------------------------------------------------------------
  // Keyword entries

  /** `Math.max(value, 100)` for each of the twelve months. */
  function MonthlyVolumes(raw: nat -> int): (r: seq<int>)
    ensures |r| == Months
    ensures forall i :: 0 <= i < Months ==> r[i] >= MinVolume && r[i] >= raw(i)
    ensures forall i :: 0 <= i < Months ==> r[i] == raw(i) || r[i] == MinVolume
  {
    seq(Months, i requires 0 <= i < Months => if raw(i) > MinVolume then raw(i) else MinVolume)
  }

  /** The five fixed search-query templates around a keyword. */
  function RelatedQueries(keyword: string): seq<string> {
    ["best " + keyword, keyword + " pricing", keyword + " alternatives",
     keyword + " reviews", "top " + keyword + " tools"]
  }

  function KeywordEntry(keyword: string, d: KeywordDraw): (r: KeywordTrend)
    ensures |r.monthlyVolumes| == Months
    ensures forall i :: 0 <= i < Months ==> r.monthlyVolumes[i] >= MinVolume
    ensures r.trend == "rising" <==> d.growing
    ensures BaseVolume <= r.currentVolume < BaseVolume + 15000
  {
    KeywordTrend(
      currentVolume := d.base + BaseVolume,
      trend := if d.growing then "rising" else "stable",
      monthlyVolumes := MonthlyVolumes(d.raw),
      relatedQueries := RelatedQueries(keyword))
  }

  /** `trendsData[keyword] = ...` for each keyword in order: a keyword that
      repeats is overwritten by its later occurrence. */
  function KeywordTrends(keywords: seq<string>, draw: nat -> KeywordDraw): (r: map<string, KeywordTrend>)
    ensures r.Keys == set k | k in keywords
    decreases |keywords|
  {
    if |keywords| == 0 then map[]
    else
      var n := |keywords| - 1;
      var r := KeywordTrends(keywords[..n], draw)[keywords[n] := KeywordEntry(keywords[n], draw(n))];
      assert keywords == keywords[..n] + [keywords[n]];
      r
  }

  /** `j` is the last position holding `keywords[j]`. */
  predicate LastOccurrence(keywords: seq<string>, j: nat) {
    j < |keywords| && forall m :: j < m < |keywords| ==> keywords[m] != keywords[j]
  }

  /** The entry of a keyword is built from the draws of its last occurrence. */
  lemma {:induction false} EntryFromLastOccurrence(keywords: seq<string>, draw: nat -> KeywordDraw, j: nat)
    requires LastOccurrence(keywords, j)
    ensures KeywordTrends(keywords, draw)[keywords[j]] == KeywordEntry(keywords[j], draw(j))
    decreases |keywords|
  {
    var n := |keywords| - 1;
    var earlier := KeywordTrends(keywords[..n], draw);
    assert KeywordTrends(keywords, draw) == earlier[keywords[n] := KeywordEntry(keywords[n], draw(n))];
    if j < n {
      assert keywords[n] != keywords[j] && keywords[..n][j] == keywords[j];
      assert LastOccurrence(keywords[..n], j);
      EntryFromLastOccurrence(keywords[..n], draw, j);
    }
  }

  /** Every keyword has exactly one entry, with twelve points of at least
      100, the five query templates, and a trend that rises exactly when the
      growth draw of its last occurrence says so. */
  lemma KeywordEntryShape(keywords: seq<string>, draw: nat -> KeywordDraw, j: nat)
    requires LastOccurrence(keywords, j)
    ensures var e := KeywordTrends(keywords, draw)[keywords[j]];
            && |e.monthlyVolumes| == Months
            && (forall i :: 0 <= i < Months ==> e.monthlyVolumes[i] >= MinVolume)
            && e.relatedQueries == RelatedQueries(keywords[j])
            && (e.trend == "rising" <==> draw(j).growing)
  {
    EntryFromLastOccurrence(keywords, draw, j);
  }

  /** Every position holding a keyword is followed by (or is) its last occurrence. */
  lemma {:induction false} HasLastOccurrence(keywords: seq<string>, i: nat)
    requires i < |keywords|
    ensures exists j :: i <= j && LastOccurrence(keywords, j) && keywords[j] == keywords[i]
    decreases |keywords| - i
  {
    if !LastOccurrence(keywords, i) {
      var m :| i < m < |keywords| && keywords[m] == keywords[i];
      HasLastOccurrence(keywords, m);
    }
  }

  /** The demand trend: "increasing" when some entry is rising. */
  predicate AnyRising(trends: map<string, KeywordTrend>) {
    exists k :: k in trends && trends[k].trend == "rising"
  }

  /** Some entry is rising exactly when the growth draw is set at the last
      occurrence of some keyword. */
  lemma AnyRisingIff(keywords: seq<string>, draw: nat -> KeywordDraw)
    ensures AnyRising(KeywordTrends(keywords, draw)) <==>
            exists j: nat :: LastOccurrence(keywords, j) && draw(j).growing
  {
    var t := KeywordTrends(keywords, draw);
    if AnyRising(t) {
      var k :| k in t && t[k].trend == "rising";
      var i :| 0 <= i < |keywords| && keywords[i] == k;
      HasLastOccurrence(keywords, i);
      var j :| i <= j && LastOccurrence(keywords, j) && keywords[j] == keywords[i];
      EntryFromLastOccurrence(keywords, draw, j);
    }
    if exists j: nat :: LastOccurrence(keywords, j) && draw(j).growing {
      var j: nat :| LastOccurrence(keywords, j) && draw(j).growing;
      EntryFromLastOccurrence(keywords, draw, j);
      assert keywords[j] in t;
    }
  }

  // ---------------------------------------------------------------------
  // Competitors and demand

  /** Base competitor figures of a market category. */
  datatype CompetitorBase = CompetitorBase(direct: nat, indirect: nat, pricing: nat)

  function CompetitorTable(category: string): Option<CompetitorBase> {
    match category
    case "Healthcare" => Some(CompetitorBase(8, 25, 89))
    case "Education" => Some(CompetitorBase(12, 30, 45))
    case "E-commerce" => Some(CompetitorBase(25, 60, 29))
    case "Productivity" => Some(CompetitorBase(35, 80, 15))
    case "Finance" => Some(CompetitorBase(15, 40, 120))
    case "Small Business" => Some(CompetitorBase(20, 50, 35))
    case _ => None
  }

  const DefaultCategory := "Productivity"

  /** `idea.tags.find(tag => interestCompetitorMap[tag]) || 'Productivity'`. */
  function Category(tags: seq<string>): (r: string)
    ensures CompetitorTable(r).Some?
    ensures (exists k :: 0 <= k < |tags| && CompetitorTable(tags[k]).Some?) ==>
              exists k :: 0 <= k < |tags| && r == tags[k]
                          && forall m :: 0 <= m < k ==> CompetitorTable(tags[m]).None?
    ensures (forall k :: 0 <= k < |tags| ==> CompetitorTable(tags[k]).None?) ==> r == DefaultCategory
    decreases |tags|
  {
    if |tags| == 0 then DefaultCategory
    else if CompetitorTable(tags[0]).Some? then tags[0]
    else
      var r := Category(tags[1..]);
      if exists k :: 0 <= k < |tags| && CompetitorTable(tags[k]).Some? then
        var k :| 0 <= k < |tags| && CompetitorTable(tags[k]).Some?;
        assert CompetitorTable(tags[1..][k - 1]).Some?;
        var k' :| 0 <= k' < |tags| - 1 && r == tags[1..][k']
                  && forall m :: 0 <= m < k' ==> CompetitorTable(tags[1..][m]).None?;
        assert r == tags[k' + 1];
        r
      else r
  }

  const MarketGaps: seq<string> :=
    ["Limited customization options", "Poor mobile experience", "Complex onboarding process",
     "Expensive for small teams", "Lacks specific industry features"]

  /** `$${pricing}/month`. */
  function PriceLabel(pricing: nat): string {
    "$" + NatToString(pricing) + "/month"
  }

  function Competitors(tags: seq<string>, d: TrendDraws): (r: CompetitorAnalysis)
    ensures var base := CompetitorTable(Category(tags)).value;
            && base.direct <= r.directCompetitors <= base.direct + 4
            && base.indirect <= r.indirectCompetitors <= base.indirect + 19
            && (exists extra :: base.pricing <= extra <= base.pricing + 29 && r.averagePricing == PriceLabel(extra))
    ensures (|r.marketGaps| == 3 || |r.marketGaps| == 4) && r.marketGaps == MarketGaps[..|r.marketGaps|]
  {
    var base := CompetitorTable(Category(tags)).value;
    CompetitorAnalysis(
      directCompetitors := base.direct + d.direct,
      indirectCompetitors := base.indirect + d.indirect,
      averagePricing := PriceLabel(base.pricing + d.pricing),
      marketGaps := Take(MarketGaps, 3 + d.extraGap))
  }

  const GeoDistribution: seq<string> :=
    ["United States (35%)", "United Kingdom (12%)", "Canada (8%)", "Australia (7%)",
     "Germany (6%)", "France (4%)", "Netherlands (3%)"]

  function Demand(trends: map<string, KeywordTrend>, matchScore: int, d: TrendDraws): (r: DemandSignals)
    ensures r.searchTrend == "increasing" <==> AnyRising(trends)
    ensures r.seasonality == "high" <==> d.seasonal
    ensures 70 <= r.demandScore <= 99
    ensures matchScore > 90 ==> 75 <= r.demandScore
    ensures matchScore <= 90 ==> r.demandScore <= 94
  {
    DemandSignals(
      searchTrend := if AnyRising(trends) then "increasing" else "stable",
      seasonality := if d.seasonal then "high" else "low",
      geoDistribution := GeoDistribution,
      demandScore := d.demand + 70 + (if matchScore > 90 then 5 else 0))
  }

  /** `generateRealisticTrendsData(idea)`. */
  function TrendsData(idea: Idea, d: TrendDraws): (r: ValidationData)
    ensures r.keywords.Keys == set k | k in idea.validationKeywords
    ensures idea.validationKeywords == [] ==> r.keywords == map[]
    ensures r.demandSignals.searchTrend == "increasing" <==>
              exists j: nat :: LastOccurrence(idea.validationKeywords, j) && d.keyword(j).growing
  {
    var trends := KeywordTrends(idea.validationKeywords, d.keyword);
    AnyRisingIff(idea.validationKeywords, d.keyword);
    ValidationData(trends, Competitors(idea.tags, d), Demand(trends, idea.matchScore, d))
  }
}

=== FILE: validation_insights.dfy ===
/** The validation-insights function: request guards, dispatch on the
    insight type to one of four prompt builders, and the pass-through of the
    model's JSON answer. `JSON.parse` of the extracted region is the
    parameter `parse`; its result is returned as the body unchanged, so it
    is left abstract (`J`).
 */
module ValidationInsights {
  import opened Results
  import opened Domain
  import opened Prompts
  import opened Gemini

  /** The request body after `JSON.parse`; either field may be missing. */
  datatype Request = Request(idea: Option<InsightIdea>, insightType: Option<string>)

  datatype Body<J> = ErrorBody(error: string) | Insight(json: J)

  /** The response, and the builder call whose prompt was posted, if any. */
  datatype Outcome<J> = Outcome(response: Response<Body<J>>, sent: Option<Call>)

  const HandlerFallback := "Failed to generate insights"
  const ParseFailure := "Failed to parse AI response"

  /** The four insight types the `switch (insightType)` knows. */
  datatype InsightType = TargetAudience | Monetization | Roadmap | CompetitorAnalysis

  /** The request's spelling of each type. */
  function Name(t: InsightType): string {
    match t
    case TargetAudience => "targetAudience"
    case Monetization => "monetization"
    case Roadmap => "roadmap"
    case CompetitorAnalysis => "competitorAnalysis"
  }

  const InsightTypes: seq<string> := [Name(TargetAudience), Name(Monetization), Name(Roadmap), Name(CompetitorAnalysis)]

  /** The `case` labels: the type a request string names, if any. */
  function ParseType(s: string): (r: Option<InsightType>)
    ensures r.Some? <==> s in InsightTypes
    ensures r.Some? ==> Name(r.value) == s
  {
    if s == Name(TargetAudience) then Some(TargetAudience)
    else if s == Name(Monetization) then Some(Monetization)
    else if s == Name(Roadmap) then Some(Roadmap)
    else if s == Name(CompetitorAnalysis) then Some(CompetitorAnalysis)
    else None
  }

  /** Every type is parsed back from its own name. */
  lemma ParseName(t: InsightType)
    ensures ParseType(Name(t)) == Some(t)
  {
  }

  /** The builder call the handler makes: which builder, on which idea. */
  datatype Call = Call(insightType: InsightType, idea: InsightIdea)

  /** The text of the call's prompt, which the handler posts upstream. */
  function Prompt(c: Call): string {
    match c.insightType
    case TargetAudience => AudiencePrompt(c.idea)
    case Monetization => MonetizationPrompt(c.idea)
    case Roadmap => RoadmapPrompt(c.idea)
    case CompetitorAnalysis => CompetitorPrompt(c.idea)
  }

  /** The `switch (insightType)`: the builder call for a known type, `None`
      (the `default` branch) for any other. */
  function Dispatch(insightType: string, idea: InsightIdea): (r: Option<Call>)
    ensures r.Some? <==> insightType in InsightTypes
    ensures r.Some? ==> Name(r.value.insightType) == insightType && r.value.idea == idea
  {
    match ParseType(insightType)
    case None => None
    case Some(t) => Some(Call(t, idea))
  }

  /** Each type name selects its own builder. */
  lemma DispatchSelectsBuilder(t: InsightType, idea: InsightIdea)
    ensures Dispatch(Name(t), idea) == Some(Call(t, idea))
  {
    ParseName(t);
  }

  /** The parsed answer: the JSON region of the generated text, parsed. */
  function InsightFromReply<J>(reply: Reply, parse: string -> Option<J>): (r: Result<J, string>)
    ensures r.Success? <==>
              && GeneratedText(reply).Success?
              && JsonRegion(GeneratedText(reply).value).Some?
              && parse(JsonRegion(GeneratedText(reply).value).value).Some?
    ensures r.Success? ==> r.value == parse(JsonRegion(GeneratedText(reply).value).value).value
    ensures GeneratedText(reply).Failure? ==> r == Failure(GeneratedText(reply).error)
    ensures GeneratedText(reply).Success? && r.Failure? ==> r.error == ParseFailure
  {
    match GeneratedText(reply)
    case Failure(e) => Failure(e)
    case Success(text) =>
      match JsonRegion(text)
      case None => Failure(ParseFailure)
      case Some(region) =>
        match parse(region)
        case None => Failure(ParseFailure)
        case Some(json) => Success(json)
  }

  /** The handler. `body` is `JSON.parse(event.body)` or the message of the
      error it threw; `reply` is what the upstream call produced when one is
      made. */
  function Handle<J>(httpMethod: string, apiKey: Option<string>, body: Result<Request, string>,
                     reply: Reply, parse: string -> Option<J>): (r: Outcome<J>)
    ensures httpMethod != "POST" ==> r == Outcome(Response(405, ErrorBody("Method not allowed")), None)
    ensures httpMethod == "POST" && !Truthy(apiKey) ==>
              r == Outcome(Response(500, ErrorBody("API key not configured")), None)
    ensures httpMethod == "POST" && Truthy(apiKey) && body.Failure? ==>
              r == Outcome(Response(500, ErrorBody(OrDefault(body.error, HandlerFallback))), None)
    ensures httpMethod == "POST" && Truthy(apiKey) && body.Success?
            && (body.value.idea.None? || !Truthy(body.value.insightType)) ==>
              r == Outcome(Response(400, ErrorBody("Idea and insight type are required")), None)
    ensures httpMethod == "POST" && Truthy(apiKey) && body.Success?
            && body.value.idea.Some? && Truthy(body.value.insightType)
            && body.value.insightType.value !in InsightTypes ==>
              r == Outcome(Response(400, ErrorBody("Invalid insight type")), None)
    ensures r.sent.Some? <==>
              && httpMethod == "POST" && Truthy(apiKey) && body.Success?
              && body.value.idea.Some? && body.value.insightType.Some?
              && body.value.insightType.value in InsightTypes
    ensures r.sent.Some? ==> r.sent == Dispatch(body.value.insightType.value, body.value.idea.value)
    ensures r.response.statusCode == 200 <==> r.sent.Some? && InsightFromReply(reply, parse).Success?
    ensures r.response.statusCode == 200 ==> r.response.body == Insight(InsightFromReply(reply, parse).value)
    ensures r.sent.Some? && InsightFromReply(reply, parse).Failure? ==>
              r.response == Response(500, ErrorBody(OrDefault(InsightFromReply(reply, parse).error, HandlerFallback)))
  {
    if httpMethod != "POST" then Outcome(Response(405, ErrorBody("Method not allowed")), None)
    else if !Truthy(apiKey) then Outcome(Response(500, ErrorBody("API key not configured")), None)
    else match body
      case Failure(e) => Outcome(Response(500, ErrorBody(OrDefault(e, HandlerFallback))), None)
      case Success(request) =>
        if request.idea.None? || !Truthy(request.insightType) then
          Outcome(Response(400, ErrorBody("Idea and insight type are required")), None)
        else match Dispatch(request.insightType.value, request.idea.value)
          case None => Outcome(Response(400, ErrorBody("Invalid insight type")), None)
          case Some(call) =>
            match InsightFromReply(reply, parse)
            case Success(json) => Outcome(Response(200, Insight(json)), Some(call))
            case Failure(e) => Outcome(Response(500, ErrorBody(OrDefault(e, HandlerFallback))), Some(call))
  }

  /** A reply that is one bare JSON object, nested or not, however it
      parses, is returned as the 200 body exactly as parsed: the greedy
      region runs from its first `{` to its last `}`. */
  lemma ObjectPassedThrough<J>(apiKey: Option<string>, request: Request, objectBody: string,
                               parse: string -> Option<J>)
    requires Truthy(apiKey) && request.idea.Some? && Truthy(request.insightType)
    requires request.insightType.value in InsightTypes
    requires parse("{" + objectBody + "}").Some?
    ensures Handle("POST", apiKey, Success(request), Answered(Some("{" + objectBody + "}")), parse).response
            == Response(200, Insight(parse("{" + objectBody + "}").value))
  {
    RegionIgnoresProse("", objectBody, "");
    assert "" + "{" + objectBody + "}" + "" == "{" + objectBody + "}";
  }
}
